=== FILE: README.md ===
# kivyMaps tile logic in Dafny

This project models the core of kivyMaps, a Kivy slippy-map viewer written
in Python 2. It covers everything that decides which map tiles are needed,
and how a tile becomes a cache entry, a fetch job and a provider URL:

- **Zoom and tile set** (`map_viewer.dfy`, module `MapViewer`):
  - the zoom level derived from the scatter scale;
  - the truncated tile bounding box that invalidates the tile list;
  - the centre-out enumeration of the tiles covering the viewport, with
    indices wrapped modulo `2^zoom` and positions kept unwrapped;
  - the descent over zoom levels in `draw` that rebuilds the tile list;
  - the requests `draw` makes, the clock tick, and the `provider` property.
- **Tile cache and fetch queues** (`tile_cache.dfy`, module `TileCache`):
  - the cache maps a filename to absent, pending (`False`) or ready (an
    image);
  - `get`, `exist`, `update` and one sequential worker step are
    transitions of a state record;
  - the disk, the network and the image decoder are answers passed in;
  - a queue invariant (every queued filename is queued once and is
    pending) is proved for `get`, `update`, the worker step and the
    eviction of a ready tile;
  - evicting a pending tile breaks the invariant: the next `get` queues
    the same file a second time.
- **Tile ids and provider URLs**:
  - `tile_ids.dfy`: `to_id`, and `to_filename` with its two-character
    shard directory;
  - `providers.dfy`: the provider registry, and the OpenStreetMap, Blue
    Marble, Yahoo and Bing URL paths, each with a reader that gets the
    tile numbers back;
  - `quadkey.dfy`: the Bing quadkey construction through octal strings,
    proved equal to the Bing Maps Tile System quadkey;
  - `text.dfy`: decimal formatting and parsing, and POSIX `os.path.join`.
- **Projections** (`projections.py` → `projections.dfy`): the affine
  unit-square maps, the EPSG:4326 and pseudo-Mercator scalings, and
  `fix180`.
- **WMS tile server** (`wms_tile_server.dfy`): the per-tile BBOX of a
  GetMap request, and the layer and SRS read from a GetCapabilities
  document.
- **Overlay servers** (`overlay.dfy`, `wms_overlay.dfy`, `wfs_overlay.dfy`):
  - layer and feature dictionaries read from capability trees;
  - the choice of a name by alphabetical index and of the least SRS;
  - the SRS flags and the branch order of `geturl`;
  - the depth-first GML geometry search;
  - the memo that `get` keeps.
- **Shared pieces**:
  - `xml.dfy`: ElementTree's `find`/`findall` over an abstract
    `Element(tag, text, children)` tree;
  - `capabilities.dfy`: Python 2's ordering and `sorted()`, and the
    dictionary filled by assignments;
  - `common.dfy`: `Option`, powers of two, `int()` truncation and Python
    list indexing.

Python's semantics are written out where they matter:

- `int()` on a float truncates toward zero (`Common.Trunc`);
- Python 2 `/` on ints floors and `%` takes the sign of the divisor;
- a negative list index counts from the end (`Common.PyIndex`);
- `sorted` puts None before every string;
- a function that ends without `return` returns None.

Floats are modelled as exact reals.

Where the source raises, the model returns a value that names the
outcome: `None`, `UnknownProvider`, `ConstructorRaised`, `Uncaught`/`RuntimeError`,
`Raised`, or the worker's `Crashed` step.

## Model

| member | source | states |
|---|---|---|
| Common.Trunc | MapViewer.py:163-166 | int() of a float is the integer next to it toward zero: at most x for x >= 0, at least x for x < 0, and less than one away |
| Common.PyIndex | WMSTileServer.py:48 | indexing succeeds exactly for -len <= i < len; a negative index counts from the end |
| Common.Pow2 | MapViewer.py:152 | `pow(2, zoom)` is a positive integer |
| Text.IntToDecimal | TileServer.py:102 | `%d` renders a negative number as a minus sign before the numeral of its magnitude |
| Text.NatToDecimal | TileServer.py:102 | `%d` of a natural number is a non-empty digit string without a leading zero |
| Text.ParseNatToDecimal | TileServer.py:102 | reading the digits of a rendered natural number gives the number back |
| Text.ParseIntToDecimal | TileServer.py:102 | int() of `%d` of any integer is that integer, so the numbers in a tile id can be read back |
| Text.DecimalHasNoSeparator | TileServer.py:102 | a rendered integer contains no character other than digits and '-', so '_' and '/' separate the fields of an id |
| Text.Join | TileServer.py:99 | os.path.join on POSIX: an absolute second part replaces the first; otherwise a slash is inserted exactly when a is non-empty and does not end in one, so the result starts with a and ends with b |
| Projections.LatLonToUnit | projections.py:26-30 | the horizontal unit coordinate is the longitude divided by 180 |
| Projections.UnitToLatLon | projections.py:33-37 | the longitude is the horizontal unit coordinate times 180 |
| Projections.LatLonUnitRoundTrip | projections.py:26-37 | on the open latitude band, unprojecting a projected point gives back (lat, lon) |
| Projections.UnitLatLonRoundTrip | projections.py:26-37 | projecting an unprojected unit point gives back (x, y) |
| Projections.P4326ToUnit | projections.py:39-40 | longitudes in [-180, 180] and latitudes in [-90, 90] land in the unit square |
| Projections.UnitToP4326 | projections.py:42-43 | the unit square lands in [-180, 180] x [-90, 90] |
| Projections.P4326RoundTrip | projections.py:39-43 | p4326_to_unit and unit_to_p4326 are mutual inverses, both ways round |
| Projections.LatLonToGoogle | projections.py:45-48 | the pseudo-Mercator point is the unit point scaled by GCONST |
| Projections.GoogleToLatLon | projections.py:50-51 | google_to_latlon unprojects the point divided by GCONST |
| Projections.GoogleRoundTrip | projections.py:45-51 | google_to_latlon undoes latlon_to_google on the open latitude band |
| Projections.UnitToCustom | projections.py:53-56 | the corner (-1, -1) goes to (ulx, uly) and (1, 1) to (orx, ory) |
| Projections.CustomToUnit | projections.py:58-61 | (ulx, uly) goes back to (-1, -1) and (orx, ory) to (1, 1) |
| Projections.UnitCustomRoundTrip | projections.py:53-61 | custom_to_unit undoes unit_to_custom when both extents are non-zero |
| Projections.CustomUnitRoundTrip | projections.py:53-61 | unit_to_custom undoes custom_to_unit when both extents are non-zero |
| Projections.LatLonToCustom | projections.py:65-68 | latlon_to_custom is unit_to_custom after latlon_to_unit |
| Projections.CustomToLatLon | projections.py:69-72 | custom_to_latlon is unit_to_latlon after custom_to_unit |
| Projections.CustomLatLonRoundTrip | projections.py:65-72 | custom_to_latlon undoes latlon_to_custom on the open latitude band |
| Projections.PyMod | projections.py:78 | Python's float `%` by a positive divisor lies in [0, d) and differs from a by a whole multiple of d |
| Projections.Fix180 | projections.py:76-78 | the wrapped value lies in [-180, 180) and differs from x by whole turns of 360 |
| Projections.Fix180Identity | projections.py:76-78 | a value already in [-180, 180) is unchanged |
| Projections.Fix180Idempotent | projections.py:76-78 | wrapping twice is wrapping once |
| Projections.Fix180Periodic | projections.py:76-78 | adding a whole turn does not change the wrapped value |
| TileIds.ToId | TileServer.py:101-102 | the id has at least two characters and neither of the first two is '/' |
| TileIds.ParseToId | TileServer.py:101-102 | an id reads back as its three numbers and its `maptype.format` tail |
| TileIds.ToIdInjective | TileServer.py:101-102 | tiles of one map type and format with different (nx, ny, zoom) never share an id |
| TileIds.ToFilename | TileServer.py:96-99 | the filename is the id under a shard directory named by the id's first two characters |
| TileIds.FilenameSuffix | TileServer.py:96-99 | the id is the suffix of the filename at an offset fixed by the cache path |
| TileIds.ToFilenameInjective | TileServer.py:96-102 | within one cache directory, distinct tiles of one map type and format get distinct filenames, so distinct cache keys |
| TileCache.NewServer | TileServer.py:51-57 | a new server with empty queues satisfies the queue invariant |
| TileCache.Exist | TileServer.py:104-107 | exist holds exactly when the tile's entry is a ready image; pending and absent entries give false |
| TileCache.ExistIffGetReturns | TileServer.py:104-117 | exist holds exactly when get hands back an image, and asking for an existing tile changes nothing |
| TileCache.Get | TileServer.py:109-130 | a ready tile returns its image and a pending one None, both leaving the state alone; an absent tile is marked pending, q_count grows by one and exactly one job is appended, nothing else changes |
| TileCache.GetEnqueuesOnce | TileServer.py:115-130 | asking again for the same tile right after a get changes nothing, so a pending tile is queued once |
| TileCache.EnqueuePreservesInv | TileServer.py:123-126 | queueing a job for an absent tile and marking it pending keeps the invariant |
| TileCache.GetPreservesInv | TileServer.py:109-130 | get keeps the queue invariant |
| TileCache.Drain | TileServer.py:136-143 | popping q_out into the cache adds exactly the drained filenames and keeps other keys; each drained filename maps to the image of its newest entry in q_out |
| TileCache.Update | TileServer.py:132-143 | update empties q_out, leaves q_in, lowers q_count by the number drained, and makes every drained filename ready |
| TileCache.UpdatePreservesInv | TileServer.py:132-143 | update keeps the queue invariant |
| TileCache.Evict | TileServer.py:28 | the Kivy cache dropping a key removes that key only |
| TileCache.EvictReadyPreservesInv | TileServer.py:28 | dropping a ready tile keeps the queue invariant |
| TileCache.EvictPendingRequeues | TileServer.py:115-126 | once the Kivy cache has dropped the key of a queued tile, get queues that tile again, so its filename is queued twice |
| TileCache.FetchFrom | TileServer.py:190-234 | the attempt loop makes at most two attempts, writes a body exactly when some remaining attempt stores one, writes the first such body, and never writes an XML error body |
| TileCache.WorkerStep | TileServer.py:157-249 | an empty q_in waits; otherwise the newest job is popped; a tile on disk is pushed with no network attempt; a step crashes exactly when geturl raises; otherwise the image is pushed exactly when an attempt stored the tile, with the body and attempt count of the first such attempt, and the job is dropped after two failed attempts; a pushed body is never an XML error |
| TileCache.WorkerStepPreservesInv | TileServer.py:157-249 | every outcome of a worker step keeps the queue invariant |
| TileCache.PopDropPreservesInv | TileServer.py:162-237 | popping the newest job and giving up on it keeps the invariant; its tile stays pending |
| TileCache.PopPushPreservesInv | TileServer.py:162-249 | popping the newest job and pushing its image to the front of q_out keeps the invariant |
| Providers.NameInjective | TileServer.py:39-41 | no two provider classes share a provider_name, so the registry keys them apart |
| Providers.Register | TileServer.py:39-41 | register files a class under its name, replacing only that key and keeping the registry well keyed |
| Providers.DefaultRegistry | TileServer.py:356-360 | the registry after import holds bluemarble, bing, yahoo and openstreetmap (plus osmwms once WMSTileServer is imported), and never google |
| Providers.OsmPathRoundTrip | TileServer.py:348-350 | the OpenStreetMap path `/zoom/nx/ny.png` reads back as (zoom, nx, ny) |
| Providers.BlueMarblePathRoundTrip | TileServer.py:305-308 | the Blue Marble path reads back as (zoom, ny, nx) |
| Providers.YahooRow | TileServer.py:290 | Yahoo's y is 2^(zoom-1) - row - 1, and -row at zoom 0 where the power is 0.5 |
| Providers.YahooRowSymmetric | TileServer.py:288-292 | rows mirrored about the equator get y values that sum to -1, and the rows of a level map into [-2^(zoom-1), 2^(zoom-1)) |
| Providers.FromYahoo | TileServer.py:288-292 | (col, row, zoom) can be recovered from Yahoo's (x, y, z) |
| Providers.YahooPathRoundTrip | TileServer.py:287-295 | the Yahoo query reads back as the toYahoo triple |
| Providers.ParseYahooFields | TileServer.py:293-295 | the three numbers written into `x=%d&y=%d&z=%d` are read back in order |
| Providers.BingPrefix | TileServer.py:329-332 | the prefix is 'h' exactly for the satellite and aerial map types, 'r' otherwise |
| Providers.BingPath | TileServer.py:318-334 | the Bing path exists exactly for non-negative indices; oct() of a negative number makes the source raise |
| Providers.BingPathQuadKey | TileServer.py:318-334 | for a tile of the level, the path holds the Bing Maps quadkey of the tile, which decodes back to (nx, ny) |
| Providers.GetUrl | TileServer.py:181-188 | each provider's geturl: the fixed-format paths for OpenStreetMap, Blue Marble and Yahoo, the Bing path with its quadkey exactly for non-negative indices, and the WMS server's GetMap request exactly when it can build one |
| QuadKey.OctDigits | TileServer.py:322 | the octal digits of n are all in 0-7 |
| QuadKey.Oct | TileServer.py:322 | Python 2's oct(n) consists of octal digits only |
| QuadKey.ThreeBits | TileServer.py:319 | each octalStrings entry has three characters |
| QuadKey.StripZeros | TileServer.py:322 | lstrip('0') never lengthens and leaves no leading '0' |
| QuadKey.PadLeft | TileServer.py:326 | rjust pads to at least the width and never truncates |
| QuadKey.ZipCorners | TileServer.py:327 | the joined corner digits have one character per level |
| QuadKey.ExpandOctDigits | TileServer.py:322 | expanding the octal digits of n gives the binary numeral of n behind some leading zeros |
| QuadKey.ToBinaryStringIsBin | TileServer.py:321-322 | toBinaryString's detour through octal gives the plain binary numeral (empty for 0) |
| QuadKey.PadLeftBin | TileServer.py:326 | right-justifying the numeral of n < 2^width gives its width low bits |
| QuadKey.ZipBits | TileServer.py:327 | zipping the bit strings of row and column through microsoftToCorners gives the quadkey |
| QuadKey.ToMicrosoftIsQuadKey | TileServer.py:323-328 | for a tile inside the level, toMicrosoft is the Bing Maps Tile System quadkey |
| QuadKey.QuadKeyOf | TileServer.py:323-328 | the reference quadkey has one digit per level |
| QuadKey.QuadKeyDigits | TileServer.py:327 | digit c of the quadkey is 2*ybit + xbit of bit zoom-1-c of the indices, most significant level first |
| QuadKey.DecodeQuadKeyOf | TileServer.py:323-328 | the quadkey of a tile inside the level decodes back to the tile |
| Xml.Find | WMSTileServer.py:42 | find returns the first direct child with the tag, and None exactly when no child has it |
| Xml.FindAll | WMSTileServer.py:43 | findall returns exactly the direct children with the tag, and no more elements than there are children |
| Xml.WithTagAppend | WMSTileServer.py:43 | filtering by tag distributes over concatenation, so findall keeps document order and multiplicity |
| Xml.WithTagSingle | WMSTileServer.py:43 | a single child is kept exactly when it has the tag |
| Xml.FindPath | WMSTileServer.py:39 | every element a path findall returns has the path's last tag |
| Xml.FindPathReaches | WMSTileServer.py:39 | a path findall returns exactly the elements reached from the root by one child step per tag of the path |
| Xml.DescendAppend | WMSTileServer.py:39 | each step of a path findall keeps document order: the results for a + b are those for a, then those for b |
| Xml.Texts | WMSTileServer.py:44 | the mapped list holds the text of each element, in order |
| Xml.FromString | WFSOverlayServer.py:135 | `ET.fromstring` gives a tree exactly when `ET` is xml.etree's module and the text is well-formed; lxml's factory and an unbound name raise, and every caller catches it |
| Xml.WmsBinding | WMSTileServer.py:4-8 | as written, `ET` is bound only when pyproj imports, and never to lxml |
| Xml.WfsBinding | WFSOverlayServer.py:13-18 | as written, `ET` is lxml's factory exactly when pyproj and lxml both import, and xml.etree otherwise |
| Xml.WmsBindingIntended | WMSOverlayServer.py:11-15 | the intended binding parses every document, with or without pyproj |
| Xml.WfsBindingIntended | WFSOverlayServer.py:13-18 | the intended binding parses every document |
| Xml.BindingsAsWrittenLoseDocuments | WFSOverlayServer.py:13-18 | as written, a WMS file without pyproj and the WFS file with pyproj and lxml parse no document, while the intended bindings parse every one |
| Capabilities.LeqTotalOrder | WMSTileServer.py:48-50 | Python 2's ordering of None and strings is a total order |
| Capabilities.Sort | WMSTileServer.py:48 | sorted() returns a permutation of its input |
| Capabilities.SortSorted | WMSTileServer.py:48 | sorted() returns its input in ascending order |
| Capabilities.Least | WMSTileServer.py:50 | `sorted(xs)[0]` fails exactly on an empty list and is otherwise an element no greater than any other |
| Capabilities.Lookup | WMSTileServer.py:50 | a lookup fails exactly when the key was never assigned |
| Capabilities.Put | WMSTileServer.py:44 | assigning a key sets its value and leaves every other key's value and presence alone |
| Capabilities.Fill | WMSTileServer.py:40-44 | the dict filled by the assignments has each assigned name once, and no other key |
| Capabilities.FillLastWins | WMSTileServer.py:44 | the value a name holds is that of its last assignment |
| Capabilities.FillLookup | WMSTileServer.py:40-44 | looking a key up gives its last assignment, and fails for a key never assigned |
| Capabilities.NameAt | WMSTileServer.py:48 | `sorted(data.keys())[index]` exists exactly for -len <= index < len and is one of the keys |
| Capabilities.NameAtOrdered | WMSTileServer.py:48 | names picked at increasing indices come in ascending order |
| Capabilities.PickSrs | WMSTileServer.py:49-50 | a given SRS is kept; otherwise the least of the name's SRS list is picked, and a missing name or an empty list leaves None |
| Capabilities.ChooseOverlay | WMSOverlayServer.py:97-100 | a given name is kept; otherwise the name is picked by index; the SRS is then picked for the chosen name as PickSrs does; an index out of range leaves both name and SRS as given |
| Capabilities.OverlayFlags | WMSOverlayServer.py:107-116 | EPSG:4326 sets only isPLatLon, EPSG:900913 and EPSG:3857 set only isPGoogle, anything else sets neither |
| WmsTileServer.UnitEdge | WMSTileServer.py:25-29 | tile edge 0 is -1 and edge 2^zoom is 1; the edges of a level lie in [-1, 1] |
| WmsTileServer.CustomTileBox | WMSTileServer.py:15-22 | with custom bounds, column 0 starts at ulx and the last column ends at orx; row 0 has its top at ory and the last row its bottom at uly |
| WmsTileServer.CustomTilesAdjacent | WMSTileServer.py:15-21 | neighbouring custom-bounds tiles share an edge, in both directions |
| WmsTileServer.CustomTileBoxIntAsWritten | WMSTileServer.py:15-21 | with int bounds the left edge is the floor of the intended one, equal to it exactly when 2^zoom divides dx * nx; the other three edges are the intended ones |
| WmsTileServer.IntTilesOverlapAsWritten | WMSTileServer.py:18-19 | with int bounds, column nx + 1 never starts right of the end of column nx, and starts strictly left of it (the tiles overlap) exactly when 2^zoom does not divide dx * (nx + 1) |
| WmsTileServer.CustomTilesOverlapAsWritten | WMSTileServer.py:18-19 | with int bounds of width 3 at level 1, tile 1 starts 1 right of ulx while tile 0 ends 1.5 right of it, so the tiles overlap |
| WmsTileServer.LatLonTileBoxAsWritten | WMSTileServer.py:24-30 | the EPSG:4326 branch as written: the top is 180 times the vertical unit coordinate and the left edge 90 times the horizontal one |
| WmsTileServer.LatLonTileBoxAsWrittenOutOfRange | WMSTileServer.py:24-26 | the as-written box of tile (0, 0) at zoom 1 reaches latitude 180, while the intended box is [-180, 0] x [0, 90] |
| WmsTileServer.LatLonTileBox | WMSTileServer.py:24-30 | corrected EPSG:4326 box: inside [-180, 180] x [-90, 90], spanning the whole range from the first to the last tile of a level |
| WmsTileServer.LatLonTilesAdjacent | WMSTileServer.py:24-26 | neighbouring EPSG:4326 tiles share an edge |
| WmsTileServer.GetUrl | WMSTileServer.py:12-30 | custom bounds win over EPSG:4326, which wins over pyproj; without a projection there is no URL; the request is 256x256 of the given layer; the EPSG:4326 box is the corrected one |
| WmsTileServer.GetUrlAsWritten | WMSTileServer.py:12-30 | geturl as written: the EPSG:4326 branch sends the swapped box, and every other branch agrees with GetUrl |
| WmsTileServer.GetUrlAsWrittenDiffers | WMSTileServer.py:24-30 | for an EPSG:4326 server, the request as written for tile (0, 0) of level 1 has BBOX (-90, 0, 0, 180), while the intended one has (-180, 0, 0, 90) |
| WmsTileServer.LayerEntry | WMSTileServer.py:42-44 | a layer without a Name child raises; otherwise it assigns its Name text to its SRS texts |
| WmsTileServer.LayerAssignments | WMSTileServer.py:39-44 | when the loop completes, it made one assignment per layer |
| WmsTileServer.LayerAssignmentsSpec | WMSTileServer.py:39-44 | the loop fails exactly when some layer has no Name; otherwise assignment i is that of layer i |
| WmsTileServer.InitFromCapabilities | WMSTileServer.py:32-63 | custom bounds are reset; a given SRS is kept; isPLatLon holds exactly for EPSG:4326; a projection exists exactly for another SRS pyproj accepts; the URL carries the SRS |
| WmsTileServer.InitPicksLeastSrs | WMSTileServer.py:47-50 | without a given SRS, the SRS is the least one listed for the index-th name in sorted order |
| WmsTileServer.InitIgnoresLayer | WMSTileServer.py:41-48 | the layer argument never reaches the configuration: the loop variable shadows it |
| WmsTileServer.InitWithoutPyprojKeepsSrs | WMSTileServer.py:33-48 | without pyproj the capabilities are never read: the SRS stays the one passed in, and with none passed there is no SRS and no EPSG:4326 flag |
| Overlay.Configure | WMSOverlayServer.py:105-121 | the flags follow the chosen SRS; a projection exists only when neither flag is set and pyproj accepts the SRS |
| Overlay.ProjectPoint | WMSOverlayServer.py:53-64 | an uncaught error happens exactly when no flag, no custom bounds and no projection exist; a RuntimeError happens exactly when pyproj is used and fails |
| Overlay.GetCorners | WMSOverlayServer.py:52-64 | both corners exist exactly when each projects; the bottom-left corner's uncaught error decides first |
| Overlay.CornersInvertToViewport | WMSOverlayServer.py:53-61 | without pyproj, the corners exist and the inverse of the branch taken (custom bounds, lon/lat swap, pseudo-Mercator) gives back the viewer's corners |
| Overlay.CornersBranchPriority | WMSOverlayServer.py:53-64 | custom bounds decide alone; without them a set flag makes pyproj and the projection irrelevant |
| WmsOverlay.NameText | WMSOverlayServer.py:70-73 | the name is the Name child's text, None without a Name child |
| WmsOverlay.OwnEntry | WMSOverlayServer.py:70-76 | a layer assigns itself exactly when its name is a non-empty string, and assigns its SRS texts |
| WmsOverlay.ParseLayerIsPreorder | WMSOverlayServer.py:69-81 | parseLayer assigns exactly the named layers of the tree, in pre-order |
| WmsOverlay.ParseSubLayersIsPreorder | WMSOverlayServer.py:79-81 | the loop over sub-layers assigns the named layers of their subtrees, in pre-order |
| WmsOverlay.ParseLayersIsPreorder | WMSOverlayServer.py:91-94 | the loop over Capability/Layer assigns the named layers of all trees, in pre-order |
| WmsOverlay.LayerData | WMSOverlayServer.py:91-94 | the layer dictionary has each name once |
| WmsOverlay.LayerDataHoldsLastNamed | WMSOverlayServer.py:69-94 | each name holds the SRS texts of the last layer of that name in the walk; a later duplicate overwrites; unnamed layers add no key |
| WmsOverlay.EntriesKeysTruthy | WMSOverlayServer.py:75-76 | only non-empty names become keys |
| WmsOverlay.ChooseLayer | WMSOverlayServer.py:87-102 | an unparsable document keeps the given layer and SRS; given values are never replaced; otherwise the layer is picked by index when none was given, the SRS for the chosen layer is the least one listed, and an index out of range leaves both unset |
| WmsOverlay.Init | WMSOverlayServer.py:83-121 | the URL carries the chosen layer and SRS; the flags follow the SRS; custom bounds come from the subclass |
| WmsOverlay.InitChoosesByIndex | WMSOverlayServer.py:96-100 | with neither given, the layer is the index-th sorted name, a non-empty string, and the SRS the least of its list |
| WmsOverlay.InitIndexOutOfRange | WMSOverlayServer.py:96-102 | an index past the names leaves layer and SRS unset and neither flag set |
| WmsOverlay.InitWithoutPyprojKeepsInputs | WMSOverlayServer.py:83-102 | without pyproj even a well-formed capabilities document leaves the layer and SRS as passed in |
| WmsOverlay.GetUrl | WMSOverlayServer.py:51-67 | the URL exists exactly when both corners project; an uncaught error or a pyproj RuntimeError comes from the corners; the URL carries the corners, and `%i` of the float widget width and height, which truncates toward zero |
| WmsOverlay.Memo | WMSOverlayServer.py:39-49 | a hit returns the cached image; a miss returns None and stores the image only when loading succeeded |
| WmsOverlay.GetKeepsCache | WMSOverlayServer.py:29-49 | get never changes or drops a cached image, and adds at most one key |
| WmsOverlay.GetSecondCallHits | WMSOverlayServer.py:29-49 | the first call of a successful miss returns None; the same call again returns the loaded image and leaves the cache alone |
| WfsOverlay.FindGeometry | WFSOverlayServer.py:52-63 | a direct Point child wins, then a direct LinearRing child, then the result of the first child, in order, whose search finds something; any result is a Point or LinearRing strictly below the argument |
| WfsOverlay.FirstGeometry | WFSOverlayServer.py:59-62 | the result is that of the first child from i on whose search finds something, and every earlier child's search finds nothing; None means no child's search finds anything |
| WfsOverlay.FindGeometryNoneIff | WFSOverlayServer.py:52-63 | the search finds nothing exactly when no element below the argument is a Point or LinearRing |
| WfsOverlay.FindGeometries | WFSOverlayServer.py:64-70 | at most one geometry per member, and every result is the geometry of some member |
| WfsOverlay.FindGeometriesAppend | WFSOverlayServer.py:64-70 | member order is kept: the geometries of a + b are those of a, then those of b |
| WfsOverlay.FindGeometriesKeepsAll | WFSOverlayServer.py:64-70 | every member with a geometry contributes it |
| WfsOverlay.FeatureEntry | WFSOverlayServer.py:117-126 | a feature is recorded exactly when it has Name and Title children and a non-empty name, under its DefaultSRS texts |
| WfsOverlay.FeatureEntries | WFSOverlayServer.py:138-141 | at most one assignment per feature |
| WfsOverlay.FeatureData | WFSOverlayServer.py:138-141 | the feature dictionary has each name once |
| WfsOverlay.FeatureRecorded | WFSOverlayServer.py:138-141 | every recordable feature is assigned |
| WfsOverlay.FeatureOnlyRecorded | WFSOverlayServer.py:138-141 | nothing but recordable features is assigned |
| WfsOverlay.ChooseFeature | WFSOverlayServer.py:134-149 | an unparsable document keeps the given feature and SRS; given values are never replaced; otherwise the feature is picked by index when none was given, the SRS for the chosen feature is the least one listed, and an index out of range leaves both unset |
| WfsOverlay.Init | WFSOverlayServer.py:130-168 | the URL names the chosen feature; the flags follow the SRS; custom bounds come from the subclass |
| WfsOverlay.InitChoosesByIndex | WFSOverlayServer.py:143-147 | with neither given, the feature is the index-th sorted name of a recordable feature, and the SRS the least of its list |
| WfsOverlay.GetUrl | WFSOverlayServer.py:99-115 | the URL exists exactly when both corners project, and carries the corners |
| WfsOverlay.Memo | WFSOverlayServer.py:81-97 | a hit returns the cached list; a successful miss stores and returns the geometries of the featureMember children; a failed load stores nothing |
| WfsOverlay.GetIsIdempotent | WFSOverlayServer.py:72-97 | once get has returned a list for an area, asking again returns the same reply and cache whatever the loader would do |
| WfsOverlay.GetKeepsCache | WFSOverlayServer.py:72-97 | get never changes or drops a cached list |
| WfsOverlay.InitWithLxmlKeepsInputs | WFSOverlayServer.py:130-149 | with pyproj and lxml the capabilities are never read, so the feature and SRS stay as passed in |
| WfsOverlay.GetWithLxmlStoresNothing | WFSOverlayServer.py:86-97 | with pyproj and lxml no answer is parsed: get never stores a list, and from an empty cache it returns none |
| MapViewer.Log2Floor | MapViewer.py:129 | the integer binary logarithm k of s >= 1 has 2^k <= s < 2^(k+1) |
| MapViewer.IntLog2 | MapViewer.py:129 | int(log(scale, 2)) brackets the scale between consecutive powers of two for scales >= 1, and is at most 0 below 1 |
| MapViewer.Zoom | MapViewer.py:126-130 | the zoom is at least 1 + quality; it is exactly that below scale 2; above, the scale lies between consecutive powers of two around it |
| MapViewer.ZoomMonotone | MapViewer.py:126-130 | a larger scale never gives a lower zoom |
| MapViewer.TileBBox | MapViewer.py:132-144 | each corner is scaled by 2^zoom / 256 and truncated toward zero, with no widening |
| MapViewer.PZoom | MapViewer.py:151 | pow(2, zoom - 1) is 2^(zoom-1) from zoom 1 on and 0.5 at zoom 0 |
| MapViewer.TileRange | MapViewer.py:158-196 | the corners are scaled by pow(2, zoom-1) / 256, truncated toward zero, then widened by one tile on every side |
| MapViewer.TileRangeIsWidenedBBox | MapViewer.py:132-196 | the range walked at zoom z is the invalidation box of zoom z - 1 widened by one tile |
| MapViewer.Centre | MapViewer.py:200-201 | midx is the floor of the midpoint, and lenx the floor of half the width plus one |
| MapViewer.CenterOut | MapViewer.py:204-208 | the enumeration has 2*len values (none for len <= 0) |
| MapViewer.CenterOutAt | MapViewer.py:204-208 | step dx visits mid + dx, then mid - 1 - dx |
| MapViewer.CenterOutRange | MapViewer.py:204-208 | the values visited are exactly the integers of [mid - len, mid + len) |
| MapViewer.CenterOutDistinct | MapViewer.py:204-208 | no value is visited twice |
| MapViewer.CenterOutCovers | MapViewer.py:192-208 | every index from the low corner up to the high corner is visited |
| MapViewer.TileAt | MapViewer.py:213-222 | the wrapped indices lie in [0, 2^zoom), while the position uses the unwrapped x and y |
| MapViewer.TileAtPeriodic | MapViewer.py:216-217 | columns or rows a whole period apart get the same wrapped index |
| MapViewer.ServerRow | MapViewer.py:230-232 | the server row bound - ny - 1 of a wrapped tile lies in [0, bound) and flips ny |
| MapViewer.Column | MapViewer.py:207-208 | one tile per row visited |
| MapViewer.ColumnAt | MapViewer.py:207-221 | the j-th tile of column x is the tile at (x, ys[j]) |
| MapViewer.GridLength | MapViewer.py:204-210 | the grid has one tile per (x, y) pair |
| MapViewer.GridWrapped | MapViewer.py:216-221 | every tile of the grid has wrapped indices inside the level |
| MapViewer.EnumeratedCount | MapViewer.py:199-210 | tilecount ends at 4 * lenx * leny, or 0 for an empty range |
| MapViewer.EnumeratedWrapped | MapViewer.py:213-232 | every enumerated tile has indices and server row inside [0, 2^zoom) |
| MapViewer.EnumeratedCovers | MapViewer.py:163-208 | every tile index pair the truncated viewport touches is enumerated, at its unwrapped position |
| MapViewer.Compute | MapViewer.py:146-228 | the result is true exactly when every enumerated tile exists; every tile is counted; tiles are appended only when zoom > self.zoom - 1 |
| MapViewer.ComputeTilesForZoom | MapViewer.py:146-228 | the loops compute what Compute specifies: existence, appended tiles and tilecount |
| MapViewer.WalkTiles | MapViewer.py:204-226 | the two outer loops yield the conjunction of the existence checks over the grid, its size, and the grid appended when kept |
| MapViewer.AddColumn | MapViewer.py:205-226 | one more column extends the visited grid and folds its checks, count and tiles into the running results |
| MapViewer.ColumnTiles | MapViewer.py:207-226 | the two inner loops yield the conjunction of the checks over one column, its size, and the column appended when kept |
| MapViewer.Descent | MapViewer.py:302-308 | the descent appends tiles only at the viewer's own zoom level, and passes through the levels Levels describes |
| MapViewer.Levels | MapViewer.py:304-308 | the levels passed count down from z one by one, at most z + 1 of them, and none when z is 0 |
| MapViewer.LevelsStop | MapViewer.py:304-308 | the descent stops at the first complete level after also computing the one below it; if no level is complete it runs down to level 1 |
| MapViewer.Rebuild | MapViewer.py:297-308 | after a rebuild the list holds exactly the tiles of the current zoom level, whichever levels were computed |
| MapViewer.TileGetEffect | MapViewer.py:234-243 | a tile request adds the tile's key to the cache and keeps q_out; an absent key gets its job queued, a present key changes nothing |
| MapViewer.DrawTilesGrows | MapViewer.py:311-312 | drawing never drops a cache key and leaves q_out and the cache path alone |
| MapViewer.DrawTilesRequestsAll | MapViewer.py:311-312 | every drawn tile ends up cached or pending |
| MapViewer.CentreQueuedLast | MapViewer.py:311-312 | the first tile of the list is requested last: if no other tile queued it, its job ends up last in q_in, the next one a worker pops |
| MapViewer.DrawTilesPreservesInv | MapViewer.py:311-312 | drawing keeps the tile server's queue invariant |
| MapViewer.Draw | MapViewer.py:291-312 | the bbox is recorded; the list is kept when the bbox is unchanged and non-empty, otherwise rebuilt to the current level's tiles; then every tile is requested |
| MapViewer.TickPreservesInv | MapViewer.py:96-99 | a clock tick (update, then draw) keeps the tile server's queue invariant |
| MapViewer.SetProvider | MapViewer.py:105-111 | the current name changes nothing; an unregistered name raises; a registered one raises exactly when its constructor does (the OSM-WMS capabilities fetch, WMSTileServer.py:73-74, or `makedirs`, TileServer.py:44-46) and otherwise starts a server of that class with empty queues, keeping the shared tile cache |
| MapViewer.SetProviderSettles | MapViewer.py:101-111 | after switching, the getter returns the new name, and setting it again changes nothing |

## Left out

- Threads: the worker threads, the `Condition`, `want_close` and the worker loop are left out. So is the `tileserver` setter's stop and start of the old and new servers. One sequential worker step is modelled instead.
- Outside answers as parameters: the disk (`isfile`), HTTP (`urlopen` and `read`), file writes and `mkdir`, and image decoding (`Loader.image`) are answers passed to a worker step. The same holds for the overlay loaders. Constructing a server is given whether its capabilities fetch and its `makedirs` succeed (`MapViewer.Construction`). XML parsing is `Xml.FromString` of the text's tree: None when the text is not well-formed, and also None whenever the import block left `ET` without a `fromstring` (the two import cases under Findings).
- Transcendental functions as parameters: the latitude parts of `latlon_to_unit` and `unit_to_latlon` are a pair of functions. Round trips assume they invert each other on the open latitude band.
- pyproj as a parameter: `Proj(init=srs)` is whether it accepts the SRS, and `transform` is a partial function.
- Floating point: floats are exact reals, and rounding is not modelled.
- The `%f` text of the BBOX numbers: the WMS tile server keeps the four numbers in a structured request, and the overlays take the rendering as a parameter.
- MD5: the overlay caches are keyed by the URL itself. This treats `hashlib.md5(url).hexdigest()` as injective.
- The Kivy cache is a plain map. Its limit and timeout evictions are the explicit `Evict` transition.
- The Kivy tile cache is process-wide, so a newly started server sees the previous server's entries. The overlay caches are class attributes shared by all instances; the model passes one cache per call.
- The tile centre `lx, ly` that the worker computes is only read by the unregistered Google server, so it is left out. GoogleTileServer itself is left out because it is not registered and refers to an undefined `GMAPS_CROPSIZE`.
- Bing's `provider_host` draws a random server number; only the path is modelled.
- UI and time: canvas drawing, the alpha fade, the `tilesalpha` cache, overlay drawing, touch handlers, `get_latlon_from_xy` and the other coordinate helpers, and `_exit` on inactivity are left out.
- Debug output and `ET.dump` are left out. So is the WFS `load` progress callback; the loader returns the parsed document or None.
- The attribute `self.geometries` that WFS `get` also sets is left out.
- MapViewer.Zoom: requires a positive scale, because `log` raises on a non-positive one. Kivy's scatter keeps the scale positive.
- Projections.CustomToUnit: requires both extents to be non-zero, where Python raises ZeroDivisionError.
- Overlay.Configure: `hasProjection` stands for a projection created by this call. One left from an earlier configuration of the same object is not modelled.
- The overlays' `self.projection = pGoogle` in the EPSG:900913/3857 branch is not modelled, because `geturl` takes the pseudo-Mercator branch before it could read the projection.
- WmsTileServer.CustomTileBox: computes every edge in real arithmetic, as Python does for float bounds. With int bounds, Python 2 floors `dx * nx / tz` (WMSTileServer.py:18); that case is WmsTileServer.CustomTileBoxIntAsWritten (see Findings).
- WmsTileServer.GetUrlAsWritten: its custom-bounds branch takes the bounds as floats and so uses CustomTileBox. No file of the program sets `bounds`, so their Python type is not known.
- WmsTileServer.GetUrl: the URL builder, and so `Providers.GetUrl` and the worker step, uses the corrected EPSG:4326 box. The program as written is WmsTileServer.GetUrlAsWritten (see Findings).
- TileCache.EvictReadyPreservesInv: the invariant is proved only for evicting a ready tile. Kivy's limit and timeout (TileServer.py:28) can also drop a pending `False` entry. The next `get` then queues the same file again (TileCache.EvictPendingRequeues), so the tile is fetched twice and q_count counts it twice.
- WmsTileServer.InitFromCapabilities, WmsOverlay.Init, WfsOverlay.Init: each takes the document of a fetch that succeeded. The `urlopen(...).read()` before the `try` (WMSTileServer.py:35, WMSOverlayServer.py:86, WFSOverlayServer.py:133) raises out of init when the fetch fails. For the tile server that exception is the `ConstructorRaised` outcome of MapViewer.SetProvider; the overlays are constructed by the UI files, which are not part of this model.
- TileCache.LoadedImage: each fallback image carries the `uniqid` of its own push. In the program the fallback is one shared object, `self.hcsvnt` (TileServer.py:60), and every decode failure re-assigns its `id` (TileServer.py:244-245), so all cached placeholders show the latest id. Only the `tilesalpha` fade, which is left out with the UI, reads ids.
- TileCache.WorkerStep: a `geturl` that raises (Bing with a negative index, WMS without a projection) ends the worker thread. The step returns `Crashed` with the job popped and its tile left pending.
- Providers.YahooRow: at zoom 0 the contract covers only rows >= 0, the only rows the viewer asks for there. The function itself truncates the float toward zero as Python's `int()` does.
- sidepanel.py, kvMaps.py, minimal.py and bing.py (UI and start-up code) are not part of this model.

## Findings

| source | as written | input that shows it | evidently intended | confidence | as-written member | corrected member |
|---|---|---|---|---|---|---|
| WMSTileServer.py:24-26 | `y1, x1 = unit_to_p4326(vertical, horizontal)` feeds the vertical unit coordinate in as x, so the latitude is scaled by 180 and the longitude by 90 | zoom 1, tile (0, 0): the BBOX is written as (-90, 0, 0, 180), which reaches latitude 180 and covers only half the longitudes | longitude = 180 * horizontal and latitude = 90 * vertical, giving (-180, 0, 0, 90) for that tile | not executed | WmsTileServer.LatLonTileBoxAsWritten | WmsTileServer.LatLonTileBox |
| WMSTileServer.py:18 | `x1 = ulx + dx * nx / tz` has only int operands when the bounds are ints, so Python 2 floors it, while x2 on line 19 divides `nx + 1.0` | int bounds (0, 0, 3, 3), zoom 1: tile 0 spans x in [0, 1.5] and tile 1 starts at x = 1, so the two tiles overlap | `dx * nx / float(tz)`, so that neighbouring tiles share an edge | low: no file of the program sets int bounds; not executed | WmsTileServer.CustomTileBoxIntAsWritten | WmsTileServer.CustomTileBox |
| WFSOverlayServer.py:13-15 | with pyproj present, `from lxml.etree import ElementTree as ET` binds lxml's `ElementTree` factory function, which has no `fromstring`, so `ET.fromstring` (lines 88 and 135) raises AttributeError and the bare `except`s swallow it | pyproj and lxml installed, any well-formed GetCapabilities or GetFeature answer: init keeps the feature and SRS passed in, and every `get` returns None | `from lxml import etree as ET`, whose `fromstring` parses the text | medium: lxml's API read from its documentation; not executed | Xml.WfsBinding | Xml.WfsBindingIntended |
| WMSTileServer.py:4-8 | xml.etree is imported inside the same `try` as pyproj, so without pyproj `ET` is unbound, while the overlay's `geturl` has branches marked as patches that work without pyproj (WMSOverlayServer.py:56-61) | pyproj not installed, a well-formed GetCapabilities answer: `ET.fromstring` raises NameError, caught, so no layer or SRS is read | import xml.etree outside the pyproj `try` | low: a caller that passes layer and SRS is not affected; not executed | Xml.WmsBinding | Xml.WmsBindingIntended |

=== FILE: capabilities.dfy ===
/** What the three GetCapabilities readers share: Python 2's ordering of
    the values `sorted()` sees (None before every string, strings compared
    character by character), `sorted()` itself, the `data` dictionary that
    maps a layer or feature name to its SRS texts, the choice of a name by
    alphabetical index and of the least SRS, and the SRS flags of the two
    overlay servers. An ElementTree text is None when the element is empty,
    so names and SRS values are `Option<string>`. */
module Capabilities {
  import opened Common

  // ---------------------------------------------------------------------------
  // Python 2 ordering

  /** a < b for Python 2 byte strings: lexicographic by character code. */
  predicate StrLess(a: string, b: string)
    decreases |a|
  {
    |b| > 0 && (|a| == 0 || a[0] < b[0] || (a[0] == b[0] && StrLess(a[1..], b[1..])))
  }

  /** a <= b for None-or-string values: None sorts before every string. */
  predicate Leq(a: Option<string>, b: Option<string>) {
    match a
    case None => true
    case Some(x) => b.Some? && (x == b.value || StrLess(x, b.value))
  }

  lemma {:induction false} StrLessIrreflexive(a: string)
    ensures !StrLess(a, a)
    decreases |a|
  {
    if |a| > 0 {
      StrLessIrreflexive(a[1..]);
    }
  }

  lemma {:induction false} StrLessTransitive(a: string, b: string, c: string)
    requires StrLess(a, b) && StrLess(b, c)
    ensures StrLess(a, c)
    decreases |a|
  {
    if |a| > 0 && a[0] == b[0] && b[0] == c[0] {
      StrLessTransitive(a[1..], b[1..], c[1..]);
    }
  }

  lemma {:induction false} StrLessTotal(a: string, b: string)
    requires a != b
    ensures StrLess(a, b) || StrLess(b, a)
    decreases |a|
  {
    if |a| > 0 && |b| > 0 && a[0] == b[0] {
      assert a == [a[0]] + a[1..] && b == [b[0]] + b[1..];
      StrLessTotal(a[1..], b[1..]);
    }
  }

  lemma {:induction false} StrLessAsymmetric(a: string, b: string)
    requires StrLess(a, b)
    ensures !StrLess(b, a)
    decreases |a|
  {
    if |a| > 0 && a[0] == b[0] {
      StrLessAsymmetric(a[1..], b[1..]);
    }
  }

  /** Python 2's ordering of these values is a total order. */
  lemma LeqTotalOrder(a: Option<string>, b: Option<string>, c: Option<string>)
    ensures Leq(a, a)
    ensures Leq(a, b) || Leq(b, a)
    ensures Leq(a, b) && Leq(b, a) ==> a == b
    ensures Leq(a, b) && Leq(b, c) ==> Leq(a, c)
  {
    if a.Some? && b.Some? && a != b {
      StrLessTotal(a.value, b.value);
      if StrLess(a.value, b.value) {
        StrLessAsymmetric(a.value, b.value);
      }
    }
    if a.Some? && b.Some? && c.Some? && Leq(a, b) && Leq(b, c) {
      if StrLess(a.value, b.value) && StrLess(b.value, c.value) {
        StrLessTransitive(a.value, b.value, c.value);
      }
    }
  }

  // ---------------------------------------------------------------------------
  // sorted()

  predicate IsSorted(xs: seq<Option<string>>) {
    forall i, j :: 0 <= i < j < |xs| ==> Leq(xs[i], xs[j])
  }

  function Insert(x: Option<string>, xs: seq<Option<string>>): (r: seq<Option<string>>)
    ensures multiset(r) == multiset(xs) + multiset{x}
  {
    if xs == [] then [x]
    else if Leq(x, xs[0]) then [x] + xs
    else
      assert xs == [xs[0]] + xs[1..];
      [xs[0]] + Insert(x, xs[1..])
  }

  /** `sorted(xs)`, as an insertion sort. */
  function Sort(xs: seq<Option<string>>): (r: seq<Option<string>>)
    ensures multiset(r) == multiset(xs)
    ensures |r| == |xs|
  {
    if xs == [] then []
    else
      assert xs == xs[..|xs| - 1] + [xs[|xs| - 1]];
      var r := Insert(xs[|xs| - 1], Sort(xs[..|xs| - 1]));
      assert |r| == |multiset(r)|;
      r
  }

  lemma {:induction false} InsertSorted(x: Option<string>, xs: seq<Option<string>>)
    requires IsSorted(xs)
    ensures IsSorted(Insert(x, xs))
    decreases |xs|
  {
    if xs != [] {
      if Leq(x, xs[0]) {
        forall j | 0 <= j < |xs|
          ensures Leq(x, xs[j])
        {
          LeqTotalOrder(x, xs[0], xs[j]);
        }
        LeqTotalOrder(x, x, x);
        forall i, j | 0 <= i < j < |[x] + xs|
          ensures Leq(([x] + xs)[i], ([x] + xs)[j])
        {
          assert ([x] + xs)[j] == xs[j - 1];
          if i > 0 {
            assert ([x] + xs)[i] == xs[i - 1];
          }
        }
      } else {
        InsertSorted(x, xs[1..]);
        var r := Insert(x, xs[1..]);
        LeqTotalOrder(x, xs[0], x);
        forall y | y in r
          ensures Leq(xs[0], y)
        {
          assert y in multiset(r);
          if y != x {
            assert y in multiset(xs[1..]);
            var k :| 0 <= k < |xs[1..]| && xs[1..][k] == y;
            assert xs[k + 1] == y;
          }
        }
        forall i, j | 0 <= i < j < |[xs[0]] + r|
          ensures Leq(([xs[0]] + r)[i], ([xs[0]] + r)[j])
        {
          if i == 0 {
            assert ([xs[0]] + r)[j] == r[j - 1];
          } else {
            assert ([xs[0]] + r)[i] == r[i - 1] && ([xs[0]] + r)[j] == r[j - 1];
          }
        }
      }
    }
  }

  /** `sorted` returns its input in ascending order. */
  lemma {:induction false} SortSorted(xs: seq<Option<string>>)
    ensures IsSorted(Sort(xs))
    decreases |xs|
  {
    if xs != [] {
      SortSorted(xs[..|xs| - 1]);
      InsertSorted(xs[|xs| - 1], Sort(xs[..|xs| - 1]));
    }
  }

  /** `sorted(xs)[0]`: None stands for the IndexError of an empty list. The
      result is one of the values and no value sorts before it. */
  function Least(xs: seq<Option<string>>): (r: Option<Option<string>>)
    ensures r.None? <==> xs == []
    ensures r.Some? ==> r.value in xs && forall y :: y in xs ==> Leq(r.value, y)
  {
    if xs == [] then None
    else
      var s := Sort(xs);
      SortSorted(xs);
      assert s[0] in multiset(s);
      forall y | y in xs
        ensures Leq(s[0], y)
      {
        assert y in multiset(s);
        var k :| 0 <= k < |s| && s[k] == y;
        LeqTotalOrder(s[0], s[0], s[0]);
      }
      PyIndex(s, 0)
  }

  // ---------------------------------------------------------------------------
  // The `data` dictionary

  datatype Entry = Entry(key: Option<string>, srs: seq<Option<string>>)

  /** A dict from names to SRS lists, as its entries with distinct keys. */
  type Dict = seq<Entry>

  function Keys(d: Dict): (ks: seq<Option<string>>)
    ensures |ks| == |d|
    ensures forall i :: 0 <= i < |d| ==> ks[i] == d[i].key
  {
    if d == [] then [] else [d[0].key] + Keys(d[1..])
  }

  predicate DistinctKeys(d: Dict) {
    forall i, j :: 0 <= i < j < |d| ==> d[i].key != d[j].key
  }

  /** `d.get(k)`. */
  function Lookup(d: Dict, k: Option<string>): (r: Option<seq<Option<string>>>)
    ensures r.None? <==> k !in Keys(d)
  {
    if d == [] then None else if d[0].key == k then Some(d[0].srs) else Lookup(d[1..], k)
  }

  /** `d[k] = v`: replaces the value of an existing key, adds a new one. */
  function Put(d: Dict, k: Option<string>, v: seq<Option<string>>): (r: Dict)
    ensures Lookup(r, k) == Some(v)
    ensures forall k' :: k' != k ==> Lookup(r, k') == Lookup(d, k')
    ensures forall k' :: k' in Keys(r) <==> k' == k || k' in Keys(d)
  {
    if d == [] then [Entry(k, v)]
    else if d[0].key == k then [Entry(k, v)] + d[1..]
    else [d[0]] + Put(d[1..], k, v)
  }

  lemma {:induction false} PutDistinct(d: Dict, k: Option<string>, v: seq<Option<string>>)
    requires DistinctKeys(d)
    ensures DistinctKeys(Put(d, k, v))
    decreases |d|
  {
    if d != [] && d[0].key != k {
      PutDistinct(d[1..], k, v);
      var r := Put(d[1..], k, v);
      assert d[0].key !in Keys(d[1..]);
      assert d[0].key !in Keys(r);
      forall i, j | 0 <= i < j < |[d[0]] + r|
        ensures ([d[0]] + r)[i].key != ([d[0]] + r)[j].key
      {
        if i == 0 {
          assert ([d[0]] + r)[j] == r[j - 1];
          assert Keys(r)[j - 1] == r[j - 1].key;
        }
      }
    }
  }

  /** A dict filled by `data[name] = srss` assignments in order: its keys
      are the assigned names, each once. */
  function Fill(assignments: seq<Entry>): (d: Dict)
    ensures DistinctKeys(d)
    ensures forall k :: k in Keys(d) <==> k in Keys(assignments)
  {
    if assignments == [] then []
    else
      var init := assignments[..|assignments| - 1];
      var last := assignments[|assignments| - 1];
      var d := Fill(init);
      PutDistinct(d, last.key, last.srs);
      KeysAppend(init, last);
      SplitLast(assignments);
      Put(d, last.key, last.srs)
  }

  lemma {:induction false} KeysAppend(d: Dict, e: Entry)
    ensures Keys(d + [e]) == Keys(d) + [e.key]
  {
  }

  /** The value a filled dict holds for a key is the one of its last
      assignment: later duplicates overwrite earlier ones. */
  lemma {:induction false} FillLastWins(assignments: seq<Entry>, i: nat)
    requires i < |assignments|
    requires forall j :: i < j < |assignments| ==> assignments[j].key != assignments[i].key
    ensures Lookup(Fill(assignments), assignments[i].key) == Some(assignments[i].srs)
    decreases |assignments|
  {
    if i < |assignments| - 1 {
      var init := assignments[..|assignments| - 1];
      assert init[i] == assignments[i];
      FillLastWins(init, i);
    }
  }

  /** The value of the last assignment to `k` (None when there is none): what
      `data[k]` holds once the assignments have run in order. */
  function LastAssigned(assignments: seq<Entry>, k: Option<string>): Option<seq<Option<string>>>
  {
    if assignments == [] then None
    else if assignments[|assignments| - 1].key == k then Some(assignments[|assignments| - 1].srs)
    else LastAssigned(assignments[..|assignments| - 1], k)
  }

  /** Looking a key up in the filled dict gives its last assignment, and a
      key never assigned is missing. */
  lemma {:induction false} FillLookup(assignments: seq<Entry>, k: Option<string>)
    ensures Lookup(Fill(assignments), k) == LastAssigned(assignments, k)
    decreases |assignments|
  {
    if assignments != [] {
      FillLookup(assignments[..|assignments| - 1], k);
    }
  }

  // ---------------------------------------------------------------------------
  // Choosing a name and an SRS

  /** The outcome of the `try` block that picks a name and an SRS: what the
      two variables hold when it ends, normally or by an exception. */
  datatype Choice = Choice(name: Option<string>, srs: Option<string>)

  /** `sorted(data.keys())[index]`, None for the IndexError. */
  function NameAt(d: Dict, index: int): (r: Option<Option<string>>)
    ensures r.Some? <==> -|d| <= index < |d|
    ensures r.Some? ==> r.value in Keys(d)
  {
    var s := Sort(Keys(d));
    var r := PyIndex(s, index);
    assert r.Some? ==> r.value in multiset(s);
    r
  }

  /** Names picked at increasing indices come in ascending order: the index
      counts through the names alphabetically. */
  lemma NameAtOrdered(d: Dict, i: int, j: int)
    requires 0 <= i < j < |d|
    ensures Leq(NameAt(d, i).value, NameAt(d, j).value)
  {
    SortSorted(Keys(d));
  }

  /** Pick the SRS of `name` unless one was given: `sorted(data[name])[0]`.
      A missing key (KeyError) or an empty list (IndexError) leaves the
      given value. */
  function PickSrs(d: Dict, name: Option<string>, srs: Option<string>): (r: Option<string>)
    ensures srs.Some? ==> r == srs
    ensures srs.None? && Lookup(d, name).Some? && Lookup(d, name).value != [] ==>
      r in Lookup(d, name).value && forall y :: y in Lookup(d, name).value ==> Leq(r, y)
    ensures srs.None? && (Lookup(d, name).None? || Lookup(d, name).value == []) ==> r.None?
  {
    if srs.Some? then srs
    else match Lookup(d, name)
      case None => srs
      case Some(srss) =>
        match Least(srss)
        case None => srs
        case Some(least) => least
  }

  /** The overlay servers' choice: the name is picked by index only when
      none was given, then the SRS. An IndexError on the name skips the SRS. */
  function ChooseOverlay(d: Dict, name: Option<string>, index: int, srs: Option<string>): (c: Choice)
    ensures name.Some? ==> c.name == name
    ensures name.None? && NameAt(d, index).Some? ==> c.name == NameAt(d, index).value
    ensures name.None? && NameAt(d, index).None? ==> c == Choice(name, srs)
    ensures srs.Some? ==> c.srs == srs
    ensures name.Some? ==> c.srs == PickSrs(d, name, srs)
    ensures name.None? && NameAt(d, index).Some? ==> c.srs == PickSrs(d, NameAt(d, index).value, srs)
  {
    if name.Some? then Choice(name, PickSrs(d, name, srs))
    else match NameAt(d, index)
      case None => Choice(name, srs)
      case Some(n) => Choice(n, PickSrs(d, n, srs))
  }

  // ---------------------------------------------------------------------------
  // SRS flags of the overlay servers

  datatype Flags = Flags(isPLatLon: bool, isPGoogle: bool)

  /** EPSG:4326 is plain lon/lat; EPSG:900913 and EPSG:3857 are spherical
      Mercator; anything else (None included) goes through pyproj. */
  function OverlayFlags(srs: Option<string>): (f: Flags)
    ensures f.isPLatLon <==> srs == Some("EPSG:4326")
    ensures f.isPGoogle <==> srs == Some("EPSG:900913") || srs == Some("EPSG:3857")
    ensures !(f.isPLatLon && f.isPGoogle)
  {
    if srs == Some("EPSG:4326") then Flags(true, false)
    else if srs == Some("EPSG:900913") || srs == Some("EPSG:3857") then Flags(false, true)
    else Flags(false, false)
  }

  /** `'%s' % value`: Python prints None as "None". */
  function Show(v: Option<string>): string {
    match v
    case None => "None"
    case Some(s) => s
  }
}

=== FILE: common.dfy ===
/** Small shared vocabulary: optional values, powers of two, and the two
    Python number conversions the viewer relies on (int() on a float, and
    indexing a list with a possibly negative index). */
module Common {

  /** Python's None-or-value. */
  datatype Option<+T> = None | Some(value: T)

  /** 2^n. */
  function Pow2(n: nat): (r: nat)
    ensures r >= 1
  {
    if n == 0 then 1 else 2 * Pow2(n - 1)
  }

  lemma {:induction false} Pow2Monotone(a: nat, b: nat)
    requires a <= b
    ensures Pow2(a) <= Pow2(b)
  {
    if a < b {
      Pow2Monotone(a, b - 1);
    }
  }

  lemma {:induction false} Pow2Add(a: nat, b: nat)
    ensures Pow2(a + b) == Pow2(a) * Pow2(b)
  {
    if b > 0 {
      Pow2Add(a, b - 1);
      calc {
        Pow2(a + b);
        2 * Pow2(a + b - 1);
        2 * (Pow2(a) * Pow2(b - 1));
        Pow2(a) * (2 * Pow2(b - 1));
      }
    }
  }

  /** Python's int() applied to a float: truncation toward zero. */
  function Trunc(x: real): (r: int)
    ensures x >= 0.0 ==> r as real <= x < r as real + 1.0
    ensures x < 0.0 ==> r as real - 1.0 < x <= r as real
  {
    if x >= 0.0 then x.Floor else -((-x).Floor)
  }

  /** Python's `xs[i]`: a negative index counts from the end; None stands for
      the IndexError raised when i is out of range. */
  function PyIndex<T>(xs: seq<T>, i: int): (r: Option<T>)
    ensures r.Some? <==> -|xs| <= i < |xs|
    ensures 0 <= i < |xs| ==> r == Some(xs[i])
    ensures -|xs| <= i < 0 ==> r == Some(xs[|xs| + i])
  {
    if 0 <= i < |xs| then Some(xs[i])
    else if -|xs| <= i < 0 then Some(xs[|xs| + i])
    else None
  }

  lemma AppendAssoc<T>(a: seq<T>, b: seq<T>, c: seq<T>)
    ensures (a + b) + c == a + (b + c)
  {
  }

  /** The only multiple of d strictly between -d and d is 0. */
  lemma MulBelowDivisor(k: int, d: nat)
    requires d > 0 && -(d as int) < k * d < d
    ensures k == 0
  {
  }

  /** Adding the modulus does not change the remainder. */
  lemma ModAddPeriod(x: int, d: nat)
    requires d > 0
    ensures (x + d) % d == x % d
  {
    var q, r := x / d, x % d;
    var q', r' := (x + d) / d, (x + d) % d;
    assert (q' - q - 1) * d == r - r';
    MulBelowDivisor(q' - q - 1, d);
  }

  /** Applies f to the elements of ts from the last to the first. */
  function FoldBack<S, T>(f: (S, T) -> S, s: S, ts: seq<T>): S
    decreases |ts|
  {
    if ts == [] then s else FoldBack(f, f(s, ts[|ts| - 1]), ts[..|ts| - 1])
  }

  /** The first element is applied last. */
  lemma {:induction false} FoldBackFirstLast<S, T>(f: (S, T) -> S, s: S, ts: seq<T>)
    requires ts != []
    ensures FoldBack(f, s, ts) == f(FoldBack(f, s, ts[1..]), ts[0])
    decreases |ts|
  {
    if |ts| > 1 {
      var init := ts[..|ts| - 1];
      FoldBackFirstLast(f, f(s, ts[|ts| - 1]), init);
      assert init[1..] == ts[1..][..|ts[1..]| - 1];
    }
  }

  /** An optional value as a sequence of at most one element. */
  function AsSeq<T>(o: Option<T>): (s: seq<T>)
    ensures |s| <= 1
    ensures o.None? ==> s == []
    ensures o.Some? ==> s == [o.value]
  {
    match o
    case None => []
    case Some(v) => [v]
  }

  /** A non-empty sequence is its front followed by its last element. */
  lemma SplitLast<T>(s: seq<T>)
    requires s != []
    ensures s == s[..|s| - 1] + [s[|s| - 1]]
  {
  }
}

=== FILE: map_viewer.dfy ===
/** The tile-set logic of the map viewer widget (MapViewer.py): the zoom
    level derived from the scatter scale, the truncated tile bounding box,
    the centre-out enumeration of the tiles covering the viewport at one
    zoom level, the descent over zoom levels that rebuilds the tile list,
    and the provider property. The viewport corners `omin`/`omax` are in
    the plane's local coordinates, where one zoom-0 tile is 256 units wide. */
module MapViewer {
  import opened Common
  import Text
  import Providers
  import Wms = WmsTileServer
  import TileIds
  import TileCache

  /** TILE_W and TILE_H. */
  const TileW: real := 256.0
  const TileH: real := 256.0

  // ---------------------------------------------------------------------------
  // zoom

  /** The largest k with 2^k <= s. */
  function Log2Floor(s: real): (k: nat)
    requires s >= 1.0
    ensures Pow2(k) as real <= s < Pow2(k + 1) as real
    decreases s.Floor
  {
    if s < 2.0 then 0
    else
      assert (s / 2.0).Floor < s.Floor by {
        assert (s / 2.0).Floor as real <= s / 2.0 <= s - 1.0 < s.Floor as real;
      }
      var k := Log2Floor(s / 2.0);
      assert Pow2(k + 1) as real == 2.0 * Pow2(k) as real;
      assert Pow2(k + 2) as real == 2.0 * Pow2(k + 1) as real;
      k + 1
  }

  /** `int(log(scale, 2))`: the binary logarithm truncated toward zero, so
      for a scale below 1 it is minus the floor of log2(1/scale). */
  function IntLog2(scale: real): (r: int)
    requires scale > 0.0
    ensures scale >= 1.0 ==> r >= 0 && Pow2(r) as real <= scale < Pow2(r + 1) as real
    ensures scale < 1.0 ==> r <= 0
  {
    if scale >= 1.0 then Log2Floor(scale) else 0 - Log2Floor(1.0 / scale)
  }

  /** The `zoom` property: `max(1, int(log(scale, 2))) + quality`. Scales
      below 2 give the lowest level; from there on the level grows by one
      each time the scale doubles. */
  function Zoom(scale: real, quality: nat): (z: nat)
    requires scale > 0.0
    ensures z >= 1 + quality
    ensures scale < 2.0 ==> z == 1 + quality
    ensures scale >= 2.0 ==> Pow2(z - quality) as real <= scale < Pow2(z - quality + 1) as real
  {
    var l := IntLog2(scale);
    assert scale >= 2.0 ==> l >= 1 by {
      if scale >= 2.0 {
        assert Pow2(1) as real == 2.0;
      }
    }
    (if l > 1 then l else 1) + quality
  }

  /** A larger scale never gives a lower zoom level. */
  lemma ZoomMonotone(a: real, b: real, quality: nat)
    requires 0.0 < a <= b
    ensures Zoom(a, quality) <= Zoom(b, quality)
  {
    var za, zb := Zoom(a, quality), Zoom(b, quality);
    if a >= 2.0 && za > zb {
      Pow2Monotone(zb - quality + 1, za - quality);
    }
  }

  // ---------------------------------------------------------------------------
  // Tile-index boxes

  /** The viewport corners `omin` and `omax` in local coordinates. */
  datatype Viewport = Viewport(minx: real, miny: real, maxx: real, maxy: real)

  /** A box of tile indices, `(minx, miny, maxx, maxy)`. */
  datatype IndexBox = IndexBox(minx: int, miny: int, maxx: int, maxy: int)

  /** r is Python's int(x): x truncated toward zero. */
  predicate TruncatesTo(x: real, r: int) {
    (x >= 0.0 ==> r >= 0 && r as real <= x < r as real + 1.0)
    && (x < 0.0 ==> r <= 0 && r as real - 1.0 < x <= r as real)
  }

  /** The corners scaled by f and truncated toward zero. */
  function Scaled(v: Viewport, f: real): IndexBox {
    IndexBox(Trunc(v.minx * f), Trunc(v.miny * f), Trunc(v.maxx * f), Trunc(v.maxy * f))
  }

  /** tile_bbox: the corners in tiles of zoom level `zoom + 8` (2^zoom / 256
      per unit), truncated toward zero, with no widening. */
  function TileBBox(zoom: nat, v: Viewport): (b: IndexBox)
    ensures var f := Pow2(zoom) as real / TileW;
      TruncatesTo(v.minx * f, b.minx) && TruncatesTo(v.miny * f, b.miny)
      && TruncatesTo(v.maxx * f, b.maxx) && TruncatesTo(v.maxy * f, b.maxy)
  {
    Scaled(v, Pow2(zoom) as real / TileW)
  }

  /** `pow(2, zoom - 1)`: an integer from zoom 1 on, the float 0.5 at zoom 0. */
  function PZoom(zoom: nat): (p: real)
    ensures p > 0.0
    ensures zoom >= 1 ==> p == Pow2(zoom - 1) as real
    ensures zoom == 0 ==> p == 0.5
  {
    if zoom == 0 then 0.5 else Pow2(zoom - 1) as real
  }

  /** The tile indices compute_tiles_for_zoom walks around: the corners
      scaled by `pow(2, zoom - 1) / 256`, truncated toward zero, then widened
      by one tile on every side. */
  function TileRange(zoom: nat, v: Viewport): (b: IndexBox)
    ensures var t := Scaled(v, PZoom(zoom) / TileW);
      b == IndexBox(t.minx - 1, t.miny - 1, t.maxx + 1, t.maxy + 1)
  {
    var t := Scaled(v, PZoom(zoom) / TileW);
    IndexBox(t.minx - 1, t.miny - 1, t.maxx + 1, t.maxy + 1)
  }

  /** The range walked at zoom z is the invalidation box of zoom z - 1,
      one tile wider on every side. */
  lemma TileRangeIsWidenedBBox(zoom: nat, v: Viewport)
    requires zoom >= 1
    ensures var b := TileBBox(zoom - 1, v);
      TileRange(zoom, v) == IndexBox(b.minx - 1, b.miny - 1, b.maxx + 1, b.maxy + 1)
  {
  }

  // ---------------------------------------------------------------------------
  // Centre-out enumeration

  /** `(lo + hi) / 2, (hi - lo) / 2 + 1` with Python 2's flooring `/`. */
  function Centre(lo: int, hi: int): (r: (int, int))
    ensures 2 * r.0 <= lo + hi <= 2 * r.0 + 1
    ensures 2 * (r.1 - 1) <= hi - lo <= 2 * (r.1 - 1) + 1
  {
    ((lo + hi) / 2, (hi - lo) / 2 + 1)
  }

  /** The values `for dx in xrange(0, len): for x in [mid+dx, mid-1-dx]`
      takes, in order. */
  function CenterOut(mid: int, len: int): (xs: seq<int>)
    ensures |xs| == if len > 0 then 2 * len else 0
    decreases len
  {
    if len <= 0 then [] else CenterOut(mid, len - 1) + [mid + len - 1, mid - len]
  }

  /** Step dx visits mid + dx, then mid - 1 - dx. */
  lemma {:induction false} CenterOutAt(mid: int, len: int, dx: int)
    requires 0 <= dx < len
    ensures CenterOut(mid, len)[2 * dx] == mid + dx
    ensures CenterOut(mid, len)[2 * dx + 1] == mid - 1 - dx
    decreases len
  {
    if dx < len - 1 {
      CenterOutAt(mid, len - 1, dx);
      assert CenterOut(mid, len)[..2 * (len - 1)] == CenterOut(mid, len - 1);
    }
  }

  /** The enumeration visits exactly the integers of [mid - len, mid + len). */
  lemma {:induction false} CenterOutRange(mid: int, len: int, x: int)
    requires len >= 0
    ensures x in CenterOut(mid, len) <==> mid - len <= x < mid + len
    decreases len
  {
    if len > 0 {
      CenterOutRange(mid, len - 1, x);
    }
  }

  /** No value is visited twice. */
  lemma {:induction false} CenterOutDistinct(mid: int, len: int)
    ensures forall i, j :: 0 <= i < j < |CenterOut(mid, len)| ==>
      CenterOut(mid, len)[i] != CenterOut(mid, len)[j]
    decreases len
  {
    if len > 0 {
      var xs, ys := CenterOut(mid, len), CenterOut(mid, len - 1);
      CenterOutDistinct(mid, len - 1);
      forall i, j | 0 <= i < j < |xs|
        ensures xs[i] != xs[j]
      {
        if j < |ys| {
          assert xs[i] == ys[i] && xs[j] == ys[j];
        } else if i < |ys| {
          assert xs[i] == ys[i];
          CenterOutRange(mid, len - 1, ys[i]);
        }
      }
    }
  }

  /** With mid and len from Centre(lo, hi), every index from lo up to but
      excluding hi is visited; with the widened range that is every tile
      the truncated viewport touches. */
  lemma CenterOutCovers(lo: int, hi: int, x: int)
    requires lo <= hi && lo <= x < hi
    ensures var c := Centre(lo, hi); x in CenterOut(c.0, c.1)
  {
    var c := Centre(lo, hi);
    CenterOutRange(c.0, c.1, x);
  }

  // ---------------------------------------------------------------------------
  // Tiles

  /** A tile tuple: wrapped indices, texture position and size, zoom level
      and the number of tiles per axis. */
  datatype Tile = Tile(nx: int, ny: int, tx: real, ty: real, sx: real, sy: real, zoom: nat, bound: nat)

  /** The tile drawn at unwrapped column x and row y: the indices wrap
      modulo `bound = 2^zoom`, the position does not. */
  function TileAt(x: int, y: int, zoom: nat): (t: Tile)
    ensures t.bound == Pow2(zoom) && t.zoom == zoom
    ensures 0 <= t.nx < t.bound && 0 <= t.ny < t.bound
    ensures t.sx == TileW / PZoom(zoom) && t.sy == TileH / PZoom(zoom)
    ensures t.tx == x as real * t.sx && t.ty == y as real * t.sy
  {
    var bound := Pow2(zoom);
    var tw, th := TileW / PZoom(zoom), TileH / PZoom(zoom);
    Tile(x % bound, y % bound, x as real * tw, y as real * th, tw, th, zoom, bound)
  }

  /** Columns a whole period apart show the same tile at shifted places. */
  lemma TileAtPeriodic(x: int, y: int, zoom: nat)
    ensures TileAt(x + Pow2(zoom), y, zoom).nx == TileAt(x, y, zoom).nx
    ensures TileAt(x, y + Pow2(zoom), zoom).ny == TileAt(x, y, zoom).ny
  {
    var p := Pow2(zoom);
    assert TileAt(x + p, y, zoom).nx == TileAt(x, y, zoom).nx by {
      assert TileAt(x + p, y, zoom).nx == (x + p) % p;
      assert TileAt(x, y, zoom).nx == x % p;
      ModAddPeriod(x, p);
    }
    assert TileAt(x, y + p, zoom).ny == TileAt(x, y, zoom).ny by {
      assert TileAt(x, y + p, zoom).ny == (y + p) % p;
      assert TileAt(x, y, zoom).ny == y % p;
      ModAddPeriod(y, p);
    }
  }

  /** The server row `bound - ny - 1` tile_exist and tile_draw ask for
      (the plane's y axis points up, tile rows down). */
  function ServerRow(t: Tile): (row: int)
    ensures 0 <= t.ny < t.bound ==> 0 <= row < t.bound
    ensures 0 <= t.ny < t.bound ==> t.bound - 1 - row == t.ny
  {
    t.bound - t.ny - 1
  }

  /** tile_exist on a server and map type: the server has the tile at
      the flipped row ready, in PNG format. */
  function TileExist(s: TileCache.Server, maptype: string): Tile -> bool {
    (t: Tile) => TileCache.Exist(s, t.nx, ServerRow(t), t.zoom, maptype, "png")
  }

  predicate AllExist(exist: Tile -> bool, ts: seq<Tile>) {
    forall i :: 0 <= i < |ts| ==> exist(ts[i])
  }

  /** Column x of the grid: the tiles (x, y) for y in ys, in order. */
  function Column(x: int, ys: seq<int>, zoom: nat): (ts: seq<Tile>)
    ensures |ts| == |ys|
  {
    if ys == [] then [] else Column(x, ys[..|ys| - 1], zoom) + [TileAt(x, ys[|ys| - 1], zoom)]
  }

  lemma {:induction false} ColumnAt(x: int, ys: seq<int>, zoom: nat, j: int)
    requires 0 <= j < |ys|
    ensures Column(x, ys, zoom)[j] == TileAt(x, ys[j], zoom)
    decreases |ys|
  {
    if j < |ys| - 1 {
      ColumnAt(x, ys[..|ys| - 1], zoom, j);
    }
  }

  /** The tiles (x, y) for x in xs and, for each x, y in ys. */
  function Grid(xs: seq<int>, ys: seq<int>, zoom: nat): seq<Tile> {
    if xs == [] then [] else Grid(xs[..|xs| - 1], ys, zoom) + Column(xs[|xs| - 1], ys, zoom)
  }

  lemma {:induction false} GridLength(xs: seq<int>, ys: seq<int>, zoom: nat)
    ensures |Grid(xs, ys, zoom)| == |xs| * |ys|
    decreases |xs|
  {
    if xs != [] {
      GridLength(xs[..|xs| - 1], ys, zoom);
      assert (|xs| - 1) * |ys| + |ys| == |xs| * |ys|;
    }
  }

  /** Every tile of the grid has wrapped indices within `2^zoom`. */
  lemma {:induction false} GridWrapped(xs: seq<int>, ys: seq<int>, zoom: nat, t: Tile)
    requires t in Grid(xs, ys, zoom)
    ensures t.zoom == zoom && t.bound == Pow2(zoom)
    ensures 0 <= t.nx < t.bound && 0 <= t.ny < t.bound
    decreases |xs|
  {
    var init, col := Grid(xs[..|xs| - 1], ys, zoom), Column(xs[|xs| - 1], ys, zoom);
    if t in init {
      GridWrapped(xs[..|xs| - 1], ys, zoom, t);
    } else {
      assert t in col;
      var j :| 0 <= j < |col| && col[j] == t;
      ColumnAt(xs[|xs| - 1], ys, zoom, j);
    }
  }

  /** Every tile enumerated for one zoom level, in enumeration order. */
  function Enumerated(zoom: nat, v: Viewport): seq<Tile> {
    var r := TileRange(zoom, v);
    var cx, cy := Centre(r.minx, r.maxx), Centre(r.miny, r.maxy);
    Grid(CenterOut(cx.0, cx.1), CenterOut(cy.0, cy.1), zoom)
  }

  /** `tilecount` ends at 4 * lenx * leny (no tiles when the box is empty). */
  lemma EnumeratedCount(zoom: nat, v: Viewport)
    ensures var r := TileRange(zoom, v);
      var cx, cy := Centre(r.minx, r.maxx), Centre(r.miny, r.maxy);
      |Enumerated(zoom, v)| == (if cx.1 > 0 && cy.1 > 0 then 4 * cx.1 * cy.1 else 0)
  {
    var r := TileRange(zoom, v);
    var cx, cy := Centre(r.minx, r.maxx), Centre(r.miny, r.maxy);
    CenterOutGridCount(cx.0, cx.1, cy.0, cy.1, zoom);
  }

  lemma CenterOutGridCount(midx: int, lenx: int, midy: int, leny: int, zoom: nat)
    ensures |Grid(CenterOut(midx, lenx), CenterOut(midy, leny), zoom)|
      == (if lenx > 0 && leny > 0 then 4 * lenx * leny else 0)
  {
    GridLength(CenterOut(midx, lenx), CenterOut(midy, leny), zoom);
    if lenx > 0 && leny > 0 {
      assert (2 * lenx) * (2 * leny) == 4 * lenx * leny;
    }
  }

  /** Every enumerated tile has wrapped indices in `[0, 2^zoom)`, and so a
      server row in that range too. */
  lemma EnumeratedWrapped(zoom: nat, v: Viewport, t: Tile)
    requires t in Enumerated(zoom, v)
    ensures t.zoom == zoom && t.bound == Pow2(zoom)
    ensures 0 <= t.nx < t.bound && 0 <= t.ny < t.bound && 0 <= ServerRow(t) < t.bound
  {
    var r := TileRange(zoom, v);
    var cx, cy := Centre(r.minx, r.maxx), Centre(r.miny, r.maxy);
    GridWrapped(CenterOut(cx.0, cx.1), CenterOut(cy.0, cy.1), zoom, t);
  }

  /** Every tile index pair the truncated viewport touches is enumerated
      (up to wrapping), placed at its unwrapped position. */
  lemma EnumeratedCovers(zoom: nat, v: Viewport, x: int, y: int)
    requires var t := Scaled(v, PZoom(zoom) / TileW);
      t.minx <= x <= t.maxx && t.miny <= y <= t.maxy
    ensures TileAt(x, y, zoom) in Enumerated(zoom, v)
  {
    var r := TileRange(zoom, v);
    var cx, cy := Centre(r.minx, r.maxx), Centre(r.miny, r.maxy);
    var xs, ys := CenterOut(cx.0, cx.1), CenterOut(cy.0, cy.1);
    CenterOutCovers(r.minx, r.maxx, x);
    CenterOutCovers(r.miny, r.maxy, y);
    var i :| 0 <= i < |xs| && xs[i] == x;
    var j :| 0 <= j < |ys| && ys[j] == y;
    GridContains(xs, ys, zoom, i, j);
  }

  lemma {:induction false} GridContains(xs: seq<int>, ys: seq<int>, zoom: nat, i: int, j: int)
    requires 0 <= i < |xs| && 0 <= j < |ys|
    ensures TileAt(xs[i], ys[j], zoom) in Grid(xs, ys, zoom)
    decreases |xs|
  {
    var init := xs[..|xs| - 1];
    if i < |xs| - 1 {
      GridContains(init, ys, zoom, i, j);
      assert xs[i] == init[i];
    } else {
      ColumnAt(xs[i], ys, zoom, j);
    }
  }

  // ---------------------------------------------------------------------------
  // compute_tiles_for_zoom

  /** What one compute_tiles_for_zoom call yields: whether every enumerated
      tile exists, the tile list after appending, and `tilecount`. */
  datatype Computed = Computed(complete: bool, tiles: seq<Tile>, tileCount: nat)

  /** Reference definition: every tile is enumerated and counted, the
      result is the conjunction of their existence checks, and the tiles
      are appended only when `zoom > current - 1`, `current` being the
      viewer's own zoom level. `exist` is the viewer's tile_exist. */
  function Compute(exist: Tile -> bool, v: Viewport, zoom: nat, current: int, tiles: seq<Tile>): (c: Computed)
    ensures c.complete <==> forall t :: t in Enumerated(zoom, v) ==> exist(t)
    ensures c.tileCount == |Enumerated(zoom, v)|
    ensures zoom >= current ==> c.tiles == tiles + Enumerated(zoom, v)
    ensures zoom < current ==> c.tiles == tiles
  {
    var ts := Enumerated(zoom, v);
    Computed(AllExist(exist, ts), if zoom > current - 1 then tiles + ts else tiles, |ts|)
  }

  /** compute_tiles_for_zoom, loop for loop: columns centre-out, each column
      rows centre-out, counting every tile, and-ing the existence checks
      and appending only at the viewer's own zoom level. */
  method ComputeTilesForZoom(exist: Tile -> bool, v: Viewport, zoom: nat, current: int, tiles: seq<Tile>)
    returns (ret: bool, tiles': seq<Tile>, tileCount: nat)
    ensures Computed(ret, tiles', tileCount) == Compute(exist, v, zoom, current, tiles)
  {
    var r := TileRange(zoom, v);
    var cx, cy := Centre(r.minx, r.maxx), Centre(r.miny, r.maxy);
    ret, tiles', tileCount := WalkTiles(exist, cx.0, cx.1, cy.0, cy.1, zoom, zoom > current - 1, tiles);
  }

  /** The two outer loops: columns centre-out around midx, each column
      walked by ColumnTiles. */
  method WalkTiles(exist: Tile -> bool, midx: int, lenx: int, midy: int, leny: int, zoom: nat, keep: bool,
                   tiles: seq<Tile>) returns (ret: bool, tiles': seq<Tile>, tileCount: nat)
    ensures var ts := Grid(CenterOut(midx, lenx), CenterOut(midy, leny), zoom);
      ret == AllExist(exist, ts) && tileCount == |ts| && tiles' == tiles + if keep then ts else []
  {
    ghost var xs, ys := CenterOut(midx, lenx), CenterOut(midy, leny);
    ret, tiles', tileCount := true, tiles, 0;
    ghost var visited: seq<Tile> := [];
    var dx := 0;
    while dx < lenx
      invariant 0 <= dx && (lenx > 0 ==> dx <= lenx)
      invariant 2 * dx <= |xs|
      invariant visited == Grid(xs[..2 * dx], ys, zoom)
      invariant ret == AllExist(exist, visited)
      invariant tileCount == |visited|
      invariant tiles' == tiles + if keep then visited else []
    {
      CenterOutAt(midx, lenx, dx);
      ret, tiles', tileCount, visited :=
        AddColumn(exist, xs, midy, leny, zoom, keep, 2 * dx, midx + dx, tiles, visited, ret, tiles', tileCount);
      ret, tiles', tileCount, visited :=
        AddColumn(exist, xs, midy, leny, zoom, keep, 2 * dx + 1, midx - 1 - dx, tiles, visited, ret, tiles', tileCount);
      dx := dx + 1;
    }
    assert xs[..2 * dx] == xs;
  }

  /** Walks column x = xs[k] and folds its results into the running
      results. */
  method AddColumn(exist: Tile -> bool, ghost xs: seq<int>, midy: int, leny: int, zoom: nat, keep: bool,
                   ghost k: nat, x: int, tiles: seq<Tile>, ghost visited: seq<Tile>, ret: bool,
                   tiles': seq<Tile>, tileCount: nat)
    returns (ret2: bool, tiles2: seq<Tile>, tileCount2: nat, ghost visited2: seq<Tile>)
    requires k < |xs| && xs[k] == x
    requires var ys := CenterOut(midy, leny);
      visited == Grid(xs[..k], ys, zoom) && ret == AllExist(exist, visited) && tileCount == |visited|
    requires tiles' == tiles + if keep then visited else []
    ensures visited2 == Grid(xs[..k + 1], CenterOut(midy, leny), zoom)
    ensures ret2 == AllExist(exist, Grid(xs[..k + 1], CenterOut(midy, leny), zoom))
    ensures tileCount2 == |Grid(xs[..k + 1], CenterOut(midy, leny), zoom)|
    ensures tiles2 == tiles + if keep then Grid(xs[..k + 1], CenterOut(midy, leny), zoom) else []
  {
    var col, ok, n := ColumnTiles(exist, x, midy, leny, zoom, keep);
    ghost var ys := CenterOut(midy, leny);
    ghost var c := Column(x, ys, zoom);
    GridStep(xs, ys, zoom, k);
    AllExistAppend(exist, visited, c);
    AppendAssoc(tiles, visited, c);
    ret2, tiles2, tileCount2, visited2 := ret && ok, tiles' + col, tileCount + n, visited + c;
  }

  /** The inner two loops for one column x: rows centre-out, the and of
      their existence checks, the tiles appended when `keep`, and the
      count. */
  method ColumnTiles(exist: Tile -> bool, x: int, midy: int, leny: int, zoom: nat, keep: bool)
    returns (appended: seq<Tile>, ok: bool, count: nat)
    ensures var col := Column(x, CenterOut(midy, leny), zoom);
      appended == (if keep then col else []) && ok == AllExist(exist, col) && count == |col|
  {
    ghost var ys := CenterOut(midy, leny);
    appended, ok, count := [], true, 0;
    ghost var visited: seq<Tile> := [];
    var dy := 0;
    while dy < leny
      invariant 0 <= dy && (leny > 0 ==> dy <= leny)
      invariant 2 * dy <= |ys|
      invariant visited == Column(x, ys[..2 * dy], zoom)
      invariant ok == AllExist(exist, visited)
      invariant count == |visited|
      invariant appended == if keep then visited else []
    {
      CenterOutAt(midy, leny, dy);
      var t1 := TileAt(x, midy + dy, zoom);
      var t2 := TileAt(x, midy - 1 - dy, zoom);
      ColumnPairStep(x, ys, zoom, 2 * dy);
      AllExistAppend(exist, visited, [t1, t2]);
      AllExistPair(exist, t1, t2);
      ok := ok && exist(t1);
      ok := ok && exist(t2);
      count := count + 2;
      if keep {
        appended := appended + [t1, t2];
      }
      visited := visited + [t1, t2];
      dy := dy + 1;
    }
    assert ys[..2 * dy] == ys;
  }

  lemma ColumnStep(x: int, ys: seq<int>, zoom: nat, k: nat)
    requires k < |ys|
    ensures Column(x, ys[..k + 1], zoom) == Column(x, ys[..k], zoom) + [TileAt(x, ys[k], zoom)]
  {
    assert ys[..k + 1][..k] == ys[..k];
  }

  lemma ColumnPairStep(x: int, ys: seq<int>, zoom: nat, k: nat)
    requires k + 1 < |ys|
    ensures Column(x, ys[..k + 2], zoom) == Column(x, ys[..k], zoom) + [TileAt(x, ys[k], zoom), TileAt(x, ys[k + 1], zoom)]
  {
    ColumnStep(x, ys, zoom, k);
    ColumnStep(x, ys, zoom, k + 1);
  }

  lemma GridStep(xs: seq<int>, ys: seq<int>, zoom: nat, k: nat)
    requires k < |xs|
    ensures Grid(xs[..k + 1], ys, zoom) == Grid(xs[..k], ys, zoom) + Column(xs[k], ys, zoom)
  {
    assert xs[..k + 1][..k] == xs[..k];
  }

  lemma AllExistPair(exist: Tile -> bool, a: Tile, b: Tile)
    ensures AllExist(exist, [a, b]) == (exist(a) && exist(b))
  {
    assert [a, b][0] == a && [a, b][1] == b;
  }

  lemma AllExistAppend(exist: Tile -> bool, a: seq<Tile>, b: seq<Tile>)
    ensures AllExist(exist, a + b) == (AllExist(exist, a) && AllExist(exist, b))
  {
    if AllExist(exist, a) && AllExist(exist, b) {
      forall i | 0 <= i < |a + b|
        ensures exist((a + b)[i])
      {
        if i >= |a| {
          assert (a + b)[i] == b[i - |a|];
        }
      }
    }
    if AllExist(exist, a + b) {
      forall i | 0 <= i < |a|
        ensures exist(a[i])
      {
        assert (a + b)[i] == a[i];
      }
      forall i | 0 <= i < |b|
        ensures exist(b[i])
      {
        assert (a + b)[|a| + i] == b[i];
      }
    }
  }

  // ---------------------------------------------------------------------------
  // The rebuild in draw

  /** Every tile of zoom level z is ready. */
  predicate Complete(exist: Tile -> bool, v: Viewport, z: nat) {
    AllExist(exist, Enumerated(z, v))
  }

  /** What a rebuild leaves: the tile list, and the zoom levels passed to
      compute_tiles_for_zoom in order. */
  datatype Rebuilt = Rebuilt(tiles: seq<Tile>, levels: seq<nat>)

  /** `for z in xrange(z, 0, -1)`: compute level z; if it is complete,
      compute level z - 1 as well and stop. Only the viewer's own level
      `current` adds tiles to the list. */
  function Descent(exist: Tile -> bool, v: Viewport, z: nat, current: nat, tiles: seq<Tile>): (r: Rebuilt)
    requires z <= current
    ensures r.tiles == tiles + if 1 <= z == current then Enumerated(z, v) else []
    ensures r.levels == Levels((y: nat) => Complete(exist, v, y), z)
    decreases z
  {
    if z == 0 then Rebuilt(tiles, [])
    else
      var c := Compute(exist, v, z, current, tiles);
      if c.complete then
        Rebuilt(Compute(exist, v, z - 1, current, c.tiles).tiles, [z, z - 1])
      else
        var rest := Descent(exist, v, z - 1, current, c.tiles);
        Rebuilt(rest.tiles, [z] + rest.levels)
  }

  /** The levels the descent passes through depend only on which levels
      are complete: `done(z)` says level z is. */
  function Levels(done: nat -> bool, z: nat): (ls: seq<nat>)
    ensures |ls| == 0 <==> z == 0
    ensures |ls| <= z + 1
    ensures forall i :: 0 <= i < |ls| ==> ls[i] == z - i
  {
    if z == 0 then []
    else if done(z) then [z, z - 1]
    else [z] + Levels(done, z - 1)
  }

  /** Where the descent stops. Its last level is s = z + 1 - |levels|
      (levels count down from z one by one); every level from z down to
      s + 2 is incomplete, and either level s + 1 is complete (the loop
      broke there after computing s), or s is 1 and no level at all is
      complete (the loop ran out). */
  lemma {:induction false} LevelsStop(done: nat -> bool, z: nat)
    requires 1 <= z
    ensures var s := z + 1 - |Levels(done, z)|;
      && (forall y: nat :: s + 2 <= y <= z ==> !done(y))
      && (|| (s + 1 <= z && done(s + 1))
          || (s == 1 && forall y: nat :: 1 <= y <= z ==> !done(y)))
    decreases z
  {
    if !done(z) && z > 1 {
      LevelsStop(done, z - 1);
    }
  }

  /** The rebuild of draw, from the viewer's own zoom level down. */
  function Rebuild(exist: Tile -> bool, v: Viewport, zoom: nat): (r: Rebuilt)
    ensures r.tiles == if zoom >= 1 then Enumerated(zoom, v) else []
    ensures r.levels == Levels((y: nat) => Complete(exist, v, y), zoom)
  {
    var r := Descent(exist, v, zoom, zoom, []);
    assert [] + Enumerated(zoom, v) == Enumerated(zoom, v);
    r
  }

  // ---------------------------------------------------------------------------
  // Drawing and the tile requests it makes

  /** The cache key and fetch job of a tile at the server row. */
  function TileFile(s: TileCache.Server, maptype: string, t: Tile): string {
    TileIds.ToFilename(s.cachePath, t.nx, ServerRow(t), t.zoom, maptype, "png")
  }

  function TileJob(maptype: string, t: Tile): TileCache.Job {
    TileCache.Job(t.nx, ServerRow(t), t.zoom, maptype, "png")
  }

  /** tile_draw's request: `get` for the tile at the server row. */
  function TileGet(s: TileCache.Server, maptype: string, t: Tile): (TileCache.Server, Option<TileCache.Image>) {
    TileCache.Get(s, t.nx, ServerRow(t), t.zoom, maptype, "png")
  }

  /** A request leaves the cache path and loaded images alone, adds the
      tile's key to the cache, and queues its job exactly when the key was
      absent. */
  lemma TileGetEffect(s: TileCache.Server, maptype: string, t: Tile)
    ensures var s' := TileGet(s, maptype, t).0;
      && s'.cachePath == s.cachePath && s'.qOut == s.qOut
      && s'.cache.Keys == s.cache.Keys + {TileFile(s, maptype, t)}
      && (TileFile(s, maptype, t) !in s.cache ==> s'.qIn == s.qIn + [TileJob(maptype, t)])
      && (TileFile(s, maptype, t) in s.cache ==> s' == s)
  {
  }

  /** `for tile in reversed(self.tiles): self.tile_draw(*tile)`: requests
      every tile, the last one first. */
  function DrawTiles(s: TileCache.Server, maptype: string, ts: seq<Tile>): TileCache.Server {
    FoldBack(Requester(maptype), s, ts)
  }

  function Requester(maptype: string): (TileCache.Server, Tile) -> TileCache.Server {
    (x: TileCache.Server, t: Tile) => TileGet(x, maptype, t).0
  }

  /** Drawing keeps the cache path, never drops a key and adds none
      of its own to the loaded images. */
  lemma {:induction false} DrawTilesGrows(s: TileCache.Server, maptype: string, ts: seq<Tile>)
    ensures var s' := DrawTiles(s, maptype, ts);
      s'.cachePath == s.cachePath && s'.qOut == s.qOut && s.cache.Keys <= s'.cache.Keys
    decreases |ts|
  {
    if ts != [] {
      TileGetEffect(s, maptype, ts[|ts| - 1]);
      DrawTilesGrows(TileGet(s, maptype, ts[|ts| - 1]).0, maptype, ts[..|ts| - 1]);
    }
  }

  /** Every drawn tile ends up cached or pending: nothing on screen is
      left unrequested. */
  lemma {:induction false} DrawTilesRequestsAll(s: TileCache.Server, maptype: string, ts: seq<Tile>, i: int)
    requires 0 <= i < |ts|
    ensures TileFile(s, maptype, ts[i]) in DrawTiles(s, maptype, ts).cache
    decreases |ts|
  {
    var s1 := TileGet(s, maptype, ts[|ts| - 1]).0;
    TileGetEffect(s, maptype, ts[|ts| - 1]);
    if i < |ts| - 1 {
      DrawTilesRequestsAll(s1, maptype, ts[..|ts| - 1], i);
      assert ts[..|ts| - 1][i] == ts[i];
      assert TileFile(s1, maptype, ts[i]) == TileFile(s, maptype, ts[i]);
    } else {
      DrawTilesGrows(s1, maptype, ts[..|ts| - 1]);
    }
  }

  /** The first tile of the list, the centre of the current level, is
      requested last: when it was not cached yet, its job is the newest
      one, the next a worker pops. */
  lemma CentreQueuedLast(s: TileCache.Server, maptype: string, ts: seq<Tile>)
    requires ts != []
    requires TileFile(s, maptype, ts[0]) !in DrawTiles(s, maptype, ts[1..]).cache
    ensures var after := DrawTiles(s, maptype, ts);
      |after.qIn| > 0 && after.qIn[|after.qIn| - 1] == TileJob(maptype, ts[0])
  {
    FoldBackFirstLast(Requester(maptype), s, ts);
    var before := DrawTiles(s, maptype, ts[1..]);
    DrawTilesGrows(s, maptype, ts[1..]);
    assert TileFile(before, maptype, ts[0]) == TileFile(s, maptype, ts[0]);
    TileGetEffect(before, maptype, ts[0]);
  }

  /** Drawing keeps the tile server's queue invariant. */
  lemma {:induction false} DrawTilesPreservesInv(s: TileCache.Server, maptype: string, ts: seq<Tile>)
    requires TileCache.Inv(s)
    ensures TileCache.Inv(DrawTiles(s, maptype, ts))
    decreases |ts|
  {
    if ts != [] {
      var t := ts[|ts| - 1];
      TileCache.GetPreservesInv(s, t.nx, ServerRow(t), t.zoom, maptype, "png");
      DrawTilesPreservesInv(TileGet(s, maptype, t).0, maptype, ts[..|ts| - 1]);
    }
  }

  /** The viewer state draw reads and writes. */
  datatype View = View(maptype: string, scale: real, quality: nat, cacheBBox: Option<IndexBox>, tiles: seq<Tile>)

  /** draw: invalidate the tile list when the bbox of the current zoom level
      moved, rebuild it when empty, then request every tile. Existence is
      read from the server as it was before drawing. */
  function Draw(view: View, s: TileCache.Server, v: Viewport): (r: (View, TileCache.Server))
    requires view.scale > 0.0
    ensures var zoom := Zoom(view.scale, view.quality);
      && r.0 == view.(cacheBBox := Some(TileBBox(zoom, v)), tiles := r.0.tiles)
      && (view.cacheBBox == Some(TileBBox(zoom, v)) && view.tiles != [] ==> r.0.tiles == view.tiles)
      && (view.cacheBBox != Some(TileBBox(zoom, v)) || view.tiles == [] ==> r.0.tiles == Enumerated(zoom, v))
      && r.1 == DrawTiles(s, view.maptype, r.0.tiles)
  {
    var zoom := Zoom(view.scale, view.quality);
    var bbox := TileBBox(zoom, v);
    var kept := if view.cacheBBox != Some(bbox) then [] else view.tiles;
    var tiles := if kept == [] then Rebuild(TileExist(s, view.maptype), v, zoom).tiles else kept;
    (view.(cacheBBox := Some(bbox), tiles := tiles), DrawTiles(s, view.maptype, tiles))
  }

  /** The clock callback `update`: drain the server's loaded tiles, then draw. */
  function Tick(view: View, s: TileCache.Server, v: Viewport): (r: (View, TileCache.Server))
    requires view.scale > 0.0
  {
    Draw(view, TileCache.Update(s), v)
  }

  /** A clock tick keeps the tile server's queue invariant. */
  lemma TickPreservesInv(view: View, s: TileCache.Server, v: Viewport)
    requires view.scale > 0.0 && TileCache.Inv(s)
    ensures TileCache.Inv(Tick(view, s, v).1)
  {
    TileCache.UpdatePreservesInv(s);
    var r := Draw(view, TileCache.Update(s), v);
    DrawTilesPreservesInv(TileCache.Update(s), view.maptype, r.0.tiles);
  }

  // ---------------------------------------------------------------------------
  // The provider property

  /** The provider getter: the server's provider name, '' without one. */
  function ProviderName(server: Option<TileCache.Server>): string {
    match server
    case None => ""
    case Some(s) => Providers.Name(s.provider)
  }

  /** `join(dirname(__file__), 'cache', provider_name)`. */
  function CachePath(baseDir: string, p: Providers.Provider): string {
    Text.Join(Text.Join(baseDir, "cache"), Providers.Name(p))
  }

  /** What constructing a server meets outside the program: whether
      `urlopen` of the GetCapabilities document succeeds (only the OSM-WMS
      server reads one, before anything else), and whether the cache
      directory exists or `makedirs` creates it. */
  datatype Construction = Construction(capabilitiesRead: bool, cacheDirReady: bool)

  /** The constructor of a server for `p` raises: the OSM-WMS server's
      unguarded capabilities fetch fails, or `makedirs` fails. */
  predicate ConstructorRaises(p: Providers.Provider, build: Construction) {
    (p.OsmWms? && !build.capabilitiesRead) || !build.cacheDirReady
  }

  /** The outcome of assigning the provider property. `ConstructorRaised`
      is the exception of the new server's constructor; it propagates out of
      the setter before `tileserver` is assigned, so the viewer keeps its
      server. */
  datatype ProviderChange = Unchanged | Started(server: TileCache.Server) | UnknownProvider | ConstructorRaised

  /** The provider setter: the current name is a no-op; a registered name
      constructs a new server of that class (its queues empty, the
      process-wide tile cache kept), unless the constructor raises; any
      other name raises 'Unknown map provider'. `wms` is what a WMS
      server's constructor reads from its capabilities. */
  function SetProvider(reg: Providers.Registry, server: Option<TileCache.Server>, x: string,
                       baseDir: string, wms: Wms.Config, build: Construction): (r: ProviderChange)
    ensures x == ProviderName(server) ==> r == Unchanged
    ensures x != ProviderName(server) && x !in reg ==> r == UnknownProvider
    ensures r == ConstructorRaised <==> x != ProviderName(server) && x in reg && ConstructorRaises(reg[x], build)
    ensures x != ProviderName(server) && x in reg && !ConstructorRaises(reg[x], build) ==>
      (r.Started? && r.server.provider == reg[x]
      && r.server.cachePath == CachePath(baseDir, reg[x])
      && r.server.qIn == [] && r.server.qOut == [] && r.server.qCount == 0
      && r.server.cache == (if server.Some? then server.value.cache else map[])
      && TileCache.Inv(r.server))
  {
    if x == ProviderName(server) then Unchanged
    else if x in reg then
      if ConstructorRaises(reg[x], build) then ConstructorRaised
      else
        var created := TileCache.NewServer(reg[x], wms, CachePath(baseDir, reg[x]));
        Started(created.(cache := if server.Some? then server.value.cache else map[]))
    else UnknownProvider
  }

  /** After switching, the getter returns the new name and setting it
      again is a no-op. */
  lemma SetProviderSettles(reg: Providers.Registry, server: Option<TileCache.Server>, x: string,
                           baseDir: string, wms: Wms.Config, build: Construction, build': Construction)
    requires Providers.WellKeyed(reg)
    ensures var r := SetProvider(reg, server, x, baseDir, wms, build);
      r.Started? ==> (ProviderName(Some(r.server)) == x
        && SetProvider(reg, Some(r.server), x, baseDir, wms, build') == Unchanged)
  {
  }
}

=== FILE: overlay.dfy ===
/** What the WMS and WFS overlay servers share (WMSOverlayServer.py and
    WFSOverlayServer.py carry the same code twice): the configuration
    `initFromGetCapabilities` leaves behind, and the projection of the
    visible corners that starts `geturl`. The four numbers are kept as
    reals; their `%f` rendering is a parameter of the callers. */
module Overlay {
  import opened Common
  import opened Projections
  import opened Capabilities

  /** pyproj's `transform(pLatlon, projection, lon, lat)`: None stands for the
      RuntimeError pyproj raises. */
  type Transform = (real, real) -> Option<(real, real)>

  /** What an overlay server holds after initFromGetCapabilities.
      `custom` is (customBounds, bounds), which subclasses set: None when
      customBounds is false. `hasProjection` says whether `self.projection`
      exists for the pyproj branch of geturl (it is only consulted when
      neither flag is set). */
  datatype Config = Config(url: string, choice: Choice, flags: Flags,
                           hasProjection: bool, custom: Option<Bounds>)

  /** The flags and the projection that the SRS chosen by
      initFromGetCapabilities gives; `accepts(srs)` says whether
      `Proj(init=srs)` succeeds. */
  function Configure(url: string, choice: Choice, custom: Option<Bounds>,
                     accepts: Option<string> -> bool): (c: Config)
    ensures c.url == url && c.choice == choice && c.custom == custom
    ensures c.flags.isPLatLon <==> choice.srs == Some("EPSG:4326")
    ensures c.flags.isPGoogle <==> choice.srs == Some("EPSG:900913") || choice.srs == Some("EPSG:3857")
    ensures c.hasProjection ==> !c.flags.isPLatLon && !c.flags.isPGoogle && accepts(choice.srs)
    ensures !c.flags.isPLatLon && !c.flags.isPGoogle && accepts(choice.srs) ==> c.hasProjection
  {
    var f := OverlayFlags(choice.srs);
    Config(url, choice, f, !f.isPLatLon && !f.isPGoogle && accepts(choice.srs), custom)
  }

  /** A point as the viewer gives it (`bottom_left`, `top_right`). */
  datatype LatLon = LatLon(lat: real, lon: real)

  /** The numbers geturl writes into the bbox parameter, in order. */
  datatype Corners = Corners(x1: real, y1: real, x2: real, y2: real)

  /** How the projection part of geturl ends: with a value, with the
      RuntimeError it catches (geturl returns None), or with an exception it
      does not catch (an AttributeError when there is no projection), which
      leaves `get` too. */
  datatype Outcome<T> = Value(value: T) | RuntimeError | Uncaught

  /** One corner in the server's coordinates. The branches are tried in the
      order customBounds, isPLatLon (x is the longitude), isPGoogle, pyproj. */
  function ProjectPoint(c: Config, m: Mercator, t: Transform, p: LatLon): (r: Outcome<(real, real)>)
    ensures r.Uncaught? <==> c.custom.None? && !c.flags.isPLatLon && !c.flags.isPGoogle && !c.hasProjection
    ensures r.RuntimeError? <==> (c.custom.None? && !c.flags.isPLatLon && !c.flags.isPGoogle
                                  && c.hasProjection && t(p.lon, p.lat).None?)
  {
    if c.custom.Some? then Value(LatLonToCustom(m, p.lat, p.lon, c.custom.value))
    else if c.flags.isPLatLon then Value((p.lon, p.lat))
    else if c.flags.isPGoogle then Value(LatLonToGoogle(m, p.lat, p.lon))
    else if !c.hasProjection then Uncaught
    else match t(p.lon, p.lat)
      case None => RuntimeError
      case Some(xy) => Value(xy)
  }

  /** Both corners, bottom-left first: the first failure decides. */
  function GetCorners(c: Config, m: Mercator, t: Transform, bl: LatLon, tr: LatLon): (r: Outcome<Corners>)
    ensures r.Value? <==> ProjectPoint(c, m, t, bl).Value? && ProjectPoint(c, m, t, tr).Value?
    ensures r.Uncaught? <==> ProjectPoint(c, m, t, bl).Uncaught?
  {
    match ProjectPoint(c, m, t, bl)
    case Uncaught => Uncaught
    case RuntimeError => RuntimeError
    case Value(p1) =>
      match ProjectPoint(c, m, t, tr)
      case Uncaught => Uncaught
      case RuntimeError => RuntimeError
      case Value(p2) => Value(Corners(p1.0, p1.1, p2.0, p2.1))
  }

  /** Without pyproj in play, the corners always exist and lead back to the
      viewer's corners through the inverse of the branch taken: the custom
      bounds, the swap of (lat, lon), or the pseudo-Mercator scaling. */
  lemma CornersInvertToViewport(c: Config, m: Mercator, t: Transform, bl: LatLon, tr: LatLon)
    requires Inverts(m)
    requires -90.0 < bl.lat < 90.0 && -90.0 < tr.lat < 90.0
    requires c.custom.Some? || c.flags.isPLatLon || c.flags.isPGoogle
    requires c.custom.Some? ==> c.custom.value.NonDegenerate()
    ensures GetCorners(c, m, t, bl, tr).Value?
    ensures var k := GetCorners(c, m, t, bl, tr).value;
      && (c.custom.Some? ==>
           CustomToLatLon(m, k.x1, k.y1, c.custom.value) == (bl.lat, bl.lon)
           && CustomToLatLon(m, k.x2, k.y2, c.custom.value) == (tr.lat, tr.lon))
      && (c.custom.None? && c.flags.isPLatLon ==>
           (k.y1, k.x1) == (bl.lat, bl.lon) && (k.y2, k.x2) == (tr.lat, tr.lon))
      && (c.custom.None? && !c.flags.isPLatLon ==>
           GoogleToLatLon(m, k.x1, k.y1) == (bl.lat, bl.lon)
           && GoogleToLatLon(m, k.x2, k.y2) == (tr.lat, tr.lon))
  {
    if c.custom.Some? {
      CustomLatLonRoundTrip(m, bl.lat, bl.lon, c.custom.value);
      CustomLatLonRoundTrip(m, tr.lat, tr.lon, c.custom.value);
    } else if !c.flags.isPLatLon {
      GoogleRoundTrip(m, bl.lat, bl.lon);
      GoogleRoundTrip(m, tr.lat, tr.lon);
    }
  }

  /** Branch priority: custom bounds decide alone, whatever the flags, the
      projection or pyproj say; without them a set flag makes pyproj and the
      projection irrelevant. */
  lemma CornersBranchPriority(c: Config, c': Config, m: Mercator, t: Transform, t': Transform,
                              bl: LatLon, tr: LatLon)
    requires c.custom == c'.custom
    requires c.custom.None? ==> c.flags == c'.flags && (c.flags.isPLatLon || c.flags.isPGoogle)
    ensures GetCorners(c, m, t, bl, tr) == GetCorners(c', m, t', bl, tr)
  {
  }
}

=== FILE: projections.dfy ===
/** Coordinate conversions between latitude/longitude, the bent-Mercator unit
    square [-1,1] x [-1,1], plate carree (EPSG:4326) units, pseudo-Mercator
    metres (EPSG:900913 / 3857) and an arbitrary rectangle ("custom bounds").

    Longitude maps linearly (`ux = lon / 180`), so it is modelled exactly. The
    latitude half of the Mercator map is transcendental
    (`uy = log(tan(pi/4 + lat*pi/360)) / pi` and its inverse
    `lat = (2*atan(exp(uy*pi)) - pi/2) * 180/pi`); it is supplied by the
    caller as a pair of functions, and results that depend on it are stated
    under the assumption that the pair are inverse to each other. */
module Projections {

  /** The transcendental latitude halves of the Mercator map. */
  datatype Mercator = Mercator(latToY: real -> real, yToLat: real -> real)

  /** The pair inverts on the open latitude band where the map is defined. */
  ghost predicate Inverts(m: Mercator) {
    && (forall lat :: -90.0 < lat < 90.0 ==> m.yToLat(m.latToY(lat)) == lat)
    && (forall y :: -90.0 < m.yToLat(y) < 90.0 && m.latToY(m.yToLat(y)) == y)
  }

  /** latlon_to_unit: returns (ux, uy). */
  function LatLonToUnit(m: Mercator, lat: real, lon: real): (u: (real, real))
    ensures u.0 * 180.0 == lon
  {
    (lon / 180.0, m.latToY(lat))
  }

  /** unit_to_latlon: returns (lat, lon). */
  function UnitToLatLon(m: Mercator, x: real, y: real): (ll: (real, real))
    ensures ll.1 / 180.0 == x
  {
    (m.yToLat(y), x * 180.0)
  }

  lemma LatLonUnitRoundTrip(m: Mercator, lat: real, lon: real)
    requires Inverts(m)
    requires -90.0 < lat < 90.0
    ensures var u := LatLonToUnit(m, lat, lon); UnitToLatLon(m, u.0, u.1) == (lat, lon)
  {
  }

  lemma UnitLatLonRoundTrip(m: Mercator, x: real, y: real)
    requires Inverts(m)
    ensures var ll := UnitToLatLon(m, x, y); LatLonToUnit(m, ll.0, ll.1) == (x, y)
  {
  }

  /** p4326_to_unit: (lon, lat) in degrees to the unit square. */
  function P4326ToUnit(lon: real, lat: real): (u: (real, real))
    ensures -180.0 <= lon <= 180.0 ==> -1.0 <= u.0 <= 1.0
    ensures -90.0 <= lat <= 90.0 ==> -1.0 <= u.1 <= 1.0
  {
    (lon / 180.0, lat / 90.0)
  }

  /** unit_to_p4326: the unit square to (lon, lat) in degrees. */
  function UnitToP4326(x: real, y: real): (p: (real, real))
    ensures -1.0 <= x <= 1.0 ==> -180.0 <= p.0 <= 180.0
    ensures -1.0 <= y <= 1.0 ==> -90.0 <= p.1 <= 90.0
  {
    (x * 180.0, y * 90.0)
  }

  lemma P4326RoundTrip(lon: real, lat: real, x: real, y: real)
    ensures var u := P4326ToUnit(lon, lat); UnitToP4326(u.0, u.1) == (lon, lat)
    ensures var p := UnitToP4326(x, y); P4326ToUnit(p.0, p.1) == (x, y)
  {
  }

  /** Half the circumference of the pseudo-Mercator world, in metres. */
  const GCONST: real := 20037508.342789244

  /** latlon_to_google: the unit square scaled by GCONST. */
  function LatLonToGoogle(m: Mercator, lat: real, lon: real): (g: (real, real))
    ensures g.0 == lon / 180.0 * GCONST
    ensures g.1 == LatLonToUnit(m, lat, lon).1 * GCONST
  {
    var u := LatLonToUnit(m, lat, lon);
    (u.0 * GCONST, u.1 * GCONST)
  }

  /** google_to_latlon: divide by GCONST, then unproject. */
  function GoogleToLatLon(m: Mercator, x: real, y: real): (ll: (real, real))
    ensures ll == UnitToLatLon(m, x / GCONST, y / GCONST)
  {
    UnitToLatLon(m, x / GCONST, y / GCONST)
  }

  lemma GoogleRoundTrip(m: Mercator, lat: real, lon: real)
    requires Inverts(m)
    requires -90.0 < lat < 90.0
    ensures var g := LatLonToGoogle(m, lat, lon); GoogleToLatLon(m, g.0, g.1) == (lat, lon)
  {
    var u := LatLonToUnit(m, lat, lon);
    var g := LatLonToGoogle(m, lat, lon);
    assert g.0 / GCONST == u.0;
    assert g.1 / GCONST == u.1;
  }

  /** A rectangle (ulx, uly, orx, ory): (ulx, uly) is the image of the unit
      corner (-1, -1) and (orx, ory) that of (1, 1). */
  datatype Bounds = Bounds(ulx: real, uly: real, orx: real, ory: real) {
    function Dx(): real { orx - ulx }
    function Dy(): real { ory - uly }
    /** custom_to_unit divides by both extents. */
    predicate NonDegenerate() { Dx() != 0.0 && Dy() != 0.0 }
  }

  /** unit_to_custom: the affine map of the unit square onto the bounds. */
  function UnitToCustom(x: real, y: real, b: Bounds): (c: (real, real))
    ensures x == -1.0 && y == -1.0 ==> c == (b.ulx, b.uly)
    ensures x == 1.0 && y == 1.0 ==> c == (b.orx, b.ory)
  {
    var cx := b.ulx + (x + 1.0) / 2.0 * (b.orx - b.ulx);
    var cy := b.uly + (y + 1.0) / 2.0 * (b.ory - b.uly);
    assert x == -1.0 ==> cx == b.ulx by {
      if x == -1.0 {
        assert (x + 1.0) / 2.0 == 0.0;
      }
    }
    assert y == -1.0 ==> cy == b.uly by {
      if y == -1.0 {
        assert (y + 1.0) / 2.0 == 0.0;
      }
    }
    assert x == 1.0 ==> cx == b.orx by {
      if x == 1.0 {
        assert (x + 1.0) / 2.0 == 1.0;
      }
    }
    assert y == 1.0 ==> cy == b.ory by {
      if y == 1.0 {
        assert (y + 1.0) / 2.0 == 1.0;
      }
    }
    (cx, cy)
  }

  /** custom_to_unit: the inverse affine map; Python raises ZeroDivisionError
      for degenerate bounds, so they are excluded. */
  function CustomToUnit(x: real, y: real, b: Bounds): (u: (real, real))
    requires b.NonDegenerate()
    ensures x == b.ulx && y == b.uly ==> u == (-1.0, -1.0)
    ensures x == b.orx && y == b.ory ==> u == (1.0, 1.0)
  {
    var ux := (x - b.ulx) * 2.0 / (b.orx - b.ulx) - 1.0;
    var uy := (y - b.uly) * 2.0 / (b.ory - b.uly) - 1.0;
    assert x == b.ulx ==> ux == -1.0 by {
      if x == b.ulx {
        DivOfProduct((x - b.ulx) * 2.0, 0.0, b.orx - b.ulx);
      }
    }
    assert y == b.uly ==> uy == -1.0 by {
      if y == b.uly {
        DivOfProduct((y - b.uly) * 2.0, 0.0, b.ory - b.uly);
      }
    }
    assert x == b.orx ==> ux == 1.0 by {
      if x == b.orx {
        DivSelf(b.orx - b.ulx);
      }
    }
    assert y == b.ory ==> uy == 1.0 by {
      if y == b.ory {
        DivSelf(b.ory - b.uly);
      }
    }
    (ux, uy)
  }

  lemma DivSelf(d: real)
    requires d != 0.0
    ensures d * 2.0 / d == 2.0
  {
  }

  /** Dividing a product by one of its factors leaves the other. */
  lemma DivOfProduct(a: real, b: real, t: real)
    requires t != 0.0 && a == b * t
    ensures a / t == b
  {
  }

  /** Dividing by t and then scaling by t cancels. */
  lemma DivMulCancel(a: real, t: real)
    requires t != 0.0
    ensures a / t * t == a
  {
  }

  lemma UnitCustomRoundTrip(x: real, y: real, b: Bounds)
    requires b.NonDegenerate()
    ensures var c := UnitToCustom(x, y, b); CustomToUnit(c.0, c.1, b) == (x, y)
  {
    var c := UnitToCustom(x, y, b);
    DivOfProduct((c.0 - b.ulx) * 2.0, x + 1.0, b.orx - b.ulx);
    DivOfProduct((c.1 - b.uly) * 2.0, y + 1.0, b.ory - b.uly);
  }

  lemma CustomUnitRoundTrip(x: real, y: real, b: Bounds)
    requires b.NonDegenerate()
    ensures var u := CustomToUnit(x, y, b); UnitToCustom(u.0, u.1, b) == (x, y)
  {
    var u := CustomToUnit(x, y, b);
    var dx, dy := b.orx - b.ulx, b.ory - b.uly;
    var p, q := (x - b.ulx) * 2.0 / dx, (y - b.uly) * 2.0 / dy;
    DivMulCancel((x - b.ulx) * 2.0, dx);
    DivMulCancel((y - b.uly) * 2.0, dy);
    assert p * dx == (x - b.ulx) * 2.0;
    assert (u.0 + 1.0) / 2.0 * dx == x - b.ulx;
    assert q * dy == (y - b.uly) * 2.0;
    assert (u.1 + 1.0) / 2.0 * dy == y - b.uly;
    var c := UnitToCustom(u.0, u.1, b);
    assert c.0 == b.ulx + (u.0 + 1.0) / 2.0 * dx;
    assert c.1 == b.uly + (u.1 + 1.0) / 2.0 * dy;
  }

  /** latlon_to_custom: project to the unit square, then onto the bounds.
      This is not a reprojection: the bounds are treated as if they covered
      the whole Mercator world. */
  function LatLonToCustom(m: Mercator, lat: real, lon: real, b: Bounds): (c: (real, real))
    ensures var u := LatLonToUnit(m, lat, lon); c == UnitToCustom(u.0, u.1, b)
  {
    var u := LatLonToUnit(m, lat, lon);
    UnitToCustom(u.0, u.1, b)
  }

  /** custom_to_latlon: back to the unit square, then unproject. */
  function CustomToLatLon(m: Mercator, x: real, y: real, b: Bounds): (ll: (real, real))
    requires b.NonDegenerate()
    ensures var u := CustomToUnit(x, y, b); ll == UnitToLatLon(m, u.0, u.1)
  {
    var u := CustomToUnit(x, y, b);
    UnitToLatLon(m, u.0, u.1)
  }

  lemma CustomLatLonRoundTrip(m: Mercator, lat: real, lon: real, b: Bounds)
    requires Inverts(m) && b.NonDegenerate()
    requires -90.0 < lat < 90.0
    ensures var c := LatLonToCustom(m, lat, lon, b); CustomToLatLon(m, c.0, c.1, b) == (lat, lon)
  {
    var u := LatLonToUnit(m, lat, lon);
    UnitCustomRoundTrip(u.0, u.1, b);
  }

  /** Python's float `a % d` for d > 0: the result takes the sign of d. */
  function PyMod(a: real, d: real): (r: real)
    requires d > 0.0
    ensures 0.0 <= r < d
    ensures (a - r) / d == ((a - r) / d).Floor as real
  {
    var q := (a / d).Floor;
    FloorBounds(a, d, q);
    assert (a - (a - d * q as real)) / d == q as real;
    a - d * q as real
  }

  lemma MulLeq(p: real, r: real, d: real)
    requires p <= r && d > 0.0
    ensures p * d <= r * d
  {
  }

  lemma MulLess(p: real, r: real, d: real)
    requires p < r && d > 0.0
    ensures p * d < r * d
  {
  }

  lemma FloorBounds(a: real, d: real, q: int)
    requires d > 0.0 && q == (a / d).Floor
    ensures q as real * d <= a < q as real * d + d
  {
    var r := a / d;
    var lo := q as real;
    var hi := lo + 1.0;
    assert lo <= r < hi;
    DivMulCancel(a, d);
    MulLeq(lo, r, d);
    MulLess(r, hi, d);
    assert hi * d == lo * d + d;
    assert r * d < hi * d;
    assert r * d == a;
    assert a < lo * d + d;
  }

  /** fix180: wrap a longitude into [-180, 180). */
  function Fix180(x: real): (r: real)
    ensures -180.0 <= r < 180.0
    ensures ((x - r) / 360.0).Floor as real == (x - r) / 360.0
  {
    PyMod(x + 180.0, 360.0) - 180.0
  }

  /** A value already in [-180, 180) is left alone. */
  lemma Fix180Identity(x: real)
    requires -180.0 <= x < 180.0
    ensures Fix180(x) == x
  {
    var a := x + 180.0;
    assert 0.0 <= a / 360.0 < 1.0;
    assert (a / 360.0).Floor == 0;
  }

  lemma Fix180Idempotent(x: real)
    ensures Fix180(Fix180(x)) == Fix180(x)
  {
    Fix180Identity(Fix180(x));
  }

  /** Whole turns do not change the wrapped value. */
  lemma Fix180Periodic(x: real)
    ensures Fix180(x + 360.0) == Fix180(x)
  {
    var a := x + 180.0;
    var q := (a / 360.0).Floor;
    assert (a + 360.0) / 360.0 == a / 360.0 + 1.0;
    assert ((a + 360.0) / 360.0).Floor == q + 1;
  }
}

=== FILE: providers.dfy ===
/** The tile providers (TileServer.py, WMSTileServer.py): the registry of
    provider classes keyed by name, and the URL path each provider builds
    for a tile. Every fixed-format path is paired with a reader that gets
    the tile numbers back out of it. */
module Providers {
  import opened Common
  import opened Text
  import QuadKey
  import Wms = WmsTileServer

  datatype Provider = BlueMarble | Bing | Yahoo | OpenStreetMap | OsmWms

  /** `provider_name` of each class. */
  function Name(p: Provider): string {
    match p
    case BlueMarble => "bluemarble"
    case Bing => "bing"
    case Yahoo => "yahoo"
    case OpenStreetMap => "openstreetmap"
    case OsmWms => "osmwms"
  }

  lemma NameInjective(p: Provider, q: Provider)
    requires Name(p) == Name(q)
    ensures p == q
  {
  }

  // ---------------------------------------------------------------------------
  // Registry

  /** `TileServer.providers`: provider name to class. */
  type Registry = map<string, Provider>

  /** Every class is filed under its own name. */
  predicate WellKeyed(reg: Registry) {
    forall k :: k in reg ==> Name(reg[k]) == k
  }

  /** `TileServer.register(cls)`: files the class under its name, replacing
      whatever was there; every other entry stays. */
  function Register(reg: Registry, p: Provider): (r: Registry)
    ensures r.Keys == reg.Keys + {Name(p)}
    ensures r[Name(p)] == p
    ensures forall k :: k in reg && k != Name(p) ==> r[k] == reg[k]
    ensures WellKeyed(reg) ==> WellKeyed(r)
  {
    reg[Name(p) := p]
  }

  /** The registry after TileServer.py is imported (four registrations, the
      Google server left unregistered), and after WMSTileServer.py is
      imported too (`osmwms` added). */
  function DefaultRegistry(withWms: bool): (r: Registry)
    ensures WellKeyed(r)
    ensures "google" !in r
    ensures r.Keys == if withWms then {"bluemarble", "bing", "yahoo", "openstreetmap", "osmwms"}
                      else {"bluemarble", "bing", "yahoo", "openstreetmap"}
  {
    var reg := Register(Register(Register(Register(map[], BlueMarble), Bing), Yahoo), OpenStreetMap);
    if withWms then Register(reg, OsmWms) else reg
  }

  // ---------------------------------------------------------------------------
  // OpenStreetMap: /zoom/nx/ny.png

  function OsmPath(nx: int, ny: int, zoom: int): string {
    "/" + IntToDecimal(zoom) + "/" + IntToDecimal(nx) + "/" + IntToDecimal(ny) + ".png"
  }

  /** Reads (zoom, nx, ny) back out of an OpenStreetMap path. */
  function ParseOsmPath(path: string): Option<(int, int, int)> {
    match DropPrefix(path, "/")
    case None => None
    case Some(rest) =>
      match SplitAt(rest, '/')
      case None => None
      case Some(p1) =>
        match SplitAt(p1.1, '/')
        case None => None
        case Some(p2) =>
          match SplitAt(p2.1, '.')
          case None => None
          case Some(p3) =>
            if p3.1 != "png" then None
            else match (ParseInt(p1.0), ParseInt(p2.0), ParseInt(p3.0))
              case (Some(z), Some(x), Some(y)) => Some((z, x, y))
              case _ => None
  }

  lemma OsmPathRoundTrip(nx: int, ny: int, zoom: int)
    ensures ParseOsmPath(OsmPath(nx, ny, zoom)) == Some((zoom, nx, ny))
  {
    var z, x, y := IntToDecimal(zoom), IntToDecimal(nx), IntToDecimal(ny);
    var r2 := y + "." + "png";
    var r1 := x + "/" + r2;
    var rest := z + "/" + r1;
    assert OsmPath(nx, ny, zoom) == "/" + rest;
    DropPrefixConcat("/", rest);
    DecimalHasNoSeparator(zoom, '/');
    DecimalHasNoSeparator(nx, '/');
    DecimalHasNoSeparator(ny, '.');
    SplitAtConcat(z, '/', r1);
    SplitAtConcat(x, '/', r2);
    SplitAtConcat(y, '.', "png");
    ParseIntToDecimal(zoom);
    ParseIntToDecimal(nx);
    ParseIntToDecimal(ny);
  }

  // ---------------------------------------------------------------------------
  // Blue Marble: /com.modestmaps.bluemarble/zoom-rNY-cNX.jpg

  const BlueMarbleDir: string := "/com.modestmaps.bluemarble/"

  function BlueMarblePath(nx: int, ny: int, zoom: int): string {
    BlueMarbleDir + IntToDecimal(zoom) + "-r" + IntToDecimal(ny) + "-c" + IntToDecimal(nx) + ".jpg"
  }

  /** Reads (zoom, ny, nx) back out of a Blue Marble path. */
  function ParseBlueMarblePath(path: string): Option<(int, int, int)> {
    match DropPrefix(path, BlueMarbleDir)
    case None => None
    case Some(rest) =>
      match SplitAt(rest, '-')
      case None => None
      case Some(p1) =>
        match DropPrefix(p1.1, "r")
        case None => None
        case Some(r1) =>
          match SplitAt(r1, '-')
          case None => None
          case Some(p2) =>
            match DropPrefix(p2.1, "c")
            case None => None
            case Some(r2) =>
              match SplitAt(r2, '.')
              case None => None
              case Some(p3) =>
                if p3.1 != "jpg" then None
                else match (ParseInt(p1.0), ParseInt(p2.0), ParseInt(p3.0))
                  case (Some(z), Some(y), Some(x)) => Some((z, y, x))
                  case _ => None
  }

  /** The Blue Marble path reads back for tile numbers the viewer produces
      (a negative number's sign would collide with the '-' separators). */
  lemma BlueMarblePathRoundTrip(nx: nat, ny: nat, zoom: nat)
    ensures ParseBlueMarblePath(BlueMarblePath(nx, ny, zoom)) == Some((zoom, ny, nx))
  {
    var z, y, x := IntToDecimal(zoom), IntToDecimal(ny), IntToDecimal(nx);
    var r2 := x + "." + "jpg";
    var c2 := "c" + r2;
    var r1 := y + "-" + c2;
    var c1 := "r" + r1;
    var rest := z + "-" + c1;
    assert BlueMarblePath(nx, ny, zoom) == BlueMarbleDir + rest;
    DropPrefixConcat(BlueMarbleDir, rest);
    NatDecimalHasNoSeparator(zoom, '-');
    NatDecimalHasNoSeparator(ny, '-');
    DecimalHasNoSeparator(nx, '.');
    SplitAtConcat(z, '-', c1);
    DropPrefixConcat("r", r1);
    SplitAtConcat(y, '-', c2);
    DropPrefixConcat("c", r2);
    SplitAtConcat(x, '.', "jpg");
    ParseIntToDecimal(zoom);
    ParseIntToDecimal(ny);
    ParseIntToDecimal(nx);
  }

  // ---------------------------------------------------------------------------
  // Yahoo

  /** toYahoo's y: `int(pow(2, zoom - 1) - row - 1)`. At zoom 0 the power is
      the float 0.5 and int() truncates toward zero. */
  function YahooRow(row: int, zoom: nat): (y: int)
    ensures zoom >= 1 ==> y == Pow2(zoom - 1) - row - 1
    ensures zoom == 0 && row >= 0 ==> y == -row
  {
    if zoom == 0 then Trunc(0.5 - row as real - 1.0) else Pow2(zoom - 1) - row - 1
  }

  /** toYahoo: Yahoo counts rows from the equator upward and levels from 18
      downward. */
  function ToYahoo(col: int, row: int, zoom: nat): (xyz: (int, int, int)) {
    (col, YahooRow(row, zoom), 18 - zoom)
  }

  /** Rows mirrored about the equator get y values mirrored about -1/2, and
      the rows of a level map onto [-2^(zoom-1), 2^(zoom-1)). */
  lemma YahooRowSymmetric(row: int, zoom: nat)
    requires zoom >= 1
    ensures YahooRow(row, zoom) + YahooRow(Pow2(zoom) - 1 - row, zoom) == -1
    ensures 0 <= row < Pow2(zoom) ==> 0 - Pow2(zoom - 1) <= YahooRow(row, zoom) < Pow2(zoom - 1)
  {
  }

  /** Tile numbers come back from the Yahoo coordinates. */
  lemma FromYahoo(col: int, row: int, zoom: nat)
    requires zoom >= 1
    ensures var (x, y, z) := ToYahoo(col, row, zoom);
      x == col && 18 - z == zoom && Pow2(zoom - 1) - 1 - y == row
  {
  }

  const YahooPrefix: string := "/us.png.maps.yimg.com/png?v=3.52&t=m&x="

  function YahooPath(col: int, row: int, zoom: nat): string {
    var (x, y, z) := ToYahoo(col, row, zoom);
    YahooPrefix + IntToDecimal(x) + "&y=" + IntToDecimal(y) + "&z=" + IntToDecimal(z)
  }

  /** Reads (x, y, z) back out of a Yahoo path. */
  function ParseYahooPath(path: string): Option<(int, int, int)> {
    match DropPrefix(path, YahooPrefix)
    case None => None
    case Some(rest) =>
      match SplitAt(rest, '&')
      case None => None
      case Some(p1) =>
        match DropPrefix(p1.1, "y=")
        case None => None
        case Some(r1) =>
          match SplitAt(r1, '&')
          case None => None
          case Some(p2) =>
            match DropPrefix(p2.1, "z=")
            case None => None
            case Some(r2) =>
              match (ParseInt(p1.0), ParseInt(p2.0), ParseInt(r2))
              case (Some(x), Some(y), Some(z)) => Some((x, y, z))
              case _ => None
  }

  lemma YahooPathRoundTrip(col: int, row: int, zoom: nat)
    ensures ParseYahooPath(YahooPath(col, row, zoom)) == Some(ToYahoo(col, row, zoom))
  {
    var t := ToYahoo(col, row, zoom);
    ParseYahooFields(t.0, t.1, t.2);
  }

  /** The three numbers of a Yahoo path are read back from it. */
  lemma ParseYahooFields(x: int, y: int, z: int)
    ensures ParseYahooPath(YahooPrefix + IntToDecimal(x) + "&y=" + IntToDecimal(y) + "&z=" + IntToDecimal(z))
         == Some((x, y, z))
  {
    var xs, ys, zs := IntToDecimal(x), IntToDecimal(y), IntToDecimal(z);
    var c2 := "z=" + zs;
    var r1 := ys + "&" + c2;
    var c1 := "y=" + r1;
    var rest := xs + "&" + c1;
    var path := YahooPrefix + xs + "&y=" + ys + "&z=" + zs;
    assert DropPrefix(path, YahooPrefix) == Some(rest) by {
      assert path == YahooPrefix + rest;
      DropPrefixConcat(YahooPrefix, rest);
    }
    assert SplitAt(rest, '&') == Some((xs, c1)) by {
      DecimalHasNoSeparator(x, '&');
      SplitAtConcat(xs, '&', c1);
    }
    assert DropPrefix(c1, "y=") == Some(r1) by {
      DropPrefixConcat("y=", r1);
    }
    assert SplitAt(r1, '&') == Some((ys, c2)) by {
      DecimalHasNoSeparator(y, '&');
      SplitAtConcat(ys, '&', c2);
    }
    assert DropPrefix(c2, "z=") == Some(zs) by {
      DropPrefixConcat("z=", zs);
    }
    ParseIntToDecimal(x);
    ParseIntToDecimal(y);
    ParseIntToDecimal(z);
  }

  // ---------------------------------------------------------------------------
  // Bing

  /** 'h' (aerial imagery) for the satellite and aerial map types, else 'r'. */
  function BingPrefix(maptype: string): (c: char)
    ensures c == 'h' <==> maptype == "satellite" || maptype == "aerial"
    ensures c == 'h' || c == 'r'
  {
    if maptype in {"satellite", "aerial"} then 'h' else 'r'
  }

  const BingTail: string := ".png?g=90&shading=hill"

  /** BingTileServer.geturl. `oct` of a negative number starts with '-',
      which `int()` rejects, so negative indices give None (ValueError). */
  function BingPath(nx: int, ny: int, zoom: nat, maptype: string): (r: Option<string>)
    ensures r.Some? <==> nx >= 0 && ny >= 0
  {
    if nx < 0 || ny < 0 then None
    else Some("/tiles/" + [BingPrefix(maptype)] + QuadKey.ToMicrosoft(nx, ny, zoom) + BingTail)
  }

  /** For a tile of the level, the Bing path holds the Bing Maps quadkey of
      the tile right after the map-type letter, and that quadkey decodes to
      the tile. */
  lemma BingPathQuadKey(nx: nat, ny: nat, zoom: nat, maptype: string)
    requires nx < Pow2(zoom) && ny < Pow2(zoom)
    ensures BingPath(nx, ny, zoom, maptype)
         == Some("/tiles/" + [BingPrefix(maptype)] + QuadKey.QuadKeyOf(nx, ny, zoom) + BingTail)
    ensures var p := BingPath(nx, ny, zoom, maptype).value;
      |p| == 8 + zoom + |BingTail| && QuadKey.DecodeQuadKey(p[8..8 + zoom]) == Some((nx, ny))
  {
    QuadKey.ToMicrosoftIsQuadKey(nx, ny, zoom);
    QuadKey.DecodeQuadKeyOf(nx, ny, zoom);
    var q := QuadKey.QuadKeyOf(nx, ny, zoom);
    var p := "/tiles/" + [BingPrefix(maptype)] + q + BingTail;
    assert p[8..8 + zoom] == q;
  }

  // ---------------------------------------------------------------------------
  // Dispatch

  /** What a provider asks the network for. */
  datatype Request = Path(path: string) | Map(getMap: Wms.GetMap)

  /** `self.geturl(...)` of each provider; None where the source raises.
      `wms` is what an OsmWms server read at construction. */
  function GetUrl(p: Provider, wms: Wms.Config, project: Wms.Reproject,
                  nx: int, ny: int, zoom: nat, maptype: string): (r: Option<Request>)
    ensures p == OpenStreetMap ==> r == Some(Path(OsmPath(nx, ny, zoom)))
    ensures p == BlueMarble ==> r == Some(Path(BlueMarblePath(nx, ny, zoom)))
    ensures p == Yahoo ==> r == Some(Path(YahooPath(nx, ny, zoom)))
    ensures p == Bing ==> (r.Some? <==> nx >= 0 && ny >= 0)
    ensures p != OsmWms ==> r.None? || r.value.Path?
    ensures p == OsmWms ==> r.None? || r.value.Map?
    ensures p == Bing && r.Some? ==> r.value == Path(BingPath(nx, ny, zoom, maptype).value)
    ensures p == OsmWms ==>
      var g := Wms.GetUrl(wms, project, nx, ny, zoom, maptype);
      (r.Some? <==> g.Some?) && (r.Some? ==> r.value == Map(g.value))
  {
    match p
    case OpenStreetMap => Some(Path(OsmPath(nx, ny, zoom)))
    case BlueMarble => Some(Path(BlueMarblePath(nx, ny, zoom)))
    case Yahoo => Some(Path(YahooPath(nx, ny, zoom)))
    case Bing =>
      (match BingPath(nx, ny, zoom, maptype)
       case None => None
       case Some(path) => Some(Path(path)))
    case OsmWms =>
      (match Wms.GetUrl(wms, project, nx, ny, zoom, maptype)
       case None => None
       case Some(g) => Some(Map(g)))
  }
}

=== FILE: quadkey.dfy ===
/** Bing Maps quadkeys (TileServer.py, BingTileServer.geturl).

    The source builds a quadkey in a roundabout way: it writes each index in
    octal with Python 2's `oct`, expands every octal digit into three binary
    digits, strips the leading zeros, right-justifies the result to `zoom`
    characters with '0', and then maps each (row bit, column bit) pair to one
    base-4 digit `2*ybit + xbit`. This module models that construction
    literally and proves it equal to the quadkey of the Bing Maps Tile System
    (one base-4 digit per level, most significant level first), which is then
    decoded back to the tile indices. */
module QuadKey {
  import opened Common
  import opened Text

  // ---------------------------------------------------------------------------
  // The construction as written

  /** Octal digits of n without leading zeros (none for 0). */
  function OctDigits(n: nat): (s: string)
    ensures forall i :: 0 <= i < |s| ==> '0' <= s[i] <= '7'
    decreases n
  {
    if n == 0 then [] else OctDigits(n / 8) + [DigitChar(n % 8)]
  }

  /** Python 2's `oct(n)` for n >= 0: a '0' followed by the octal digits. */
  function Oct(n: nat): (s: string)
    ensures forall i :: 0 <= i < |s| ==> '0' <= s[i] <= '7'
  {
    "0" + OctDigits(n)
  }

  /** `octalStrings[d]`: the three binary digits of an octal digit. */
  function ThreeBits(d: nat): (s: string)
    requires d < 8
    ensures |s| == 3
  {
    ["000", "001", "010", "011", "100", "101", "110", "111"][d]
  }

  /** `''.join([octalStrings[int(c)] for c in s])`. */
  function ExpandOctal(s: string): string
    requires forall i :: 0 <= i < |s| ==> '0' <= s[i] <= '7'
  {
    if s == [] then [] else ExpandOctal(s[..|s| - 1]) + ThreeBits(DigitValue(s[|s| - 1]))
  }

  /** `s.lstrip('0')`. */
  function StripZeros(s: string): (r: string)
    ensures |r| <= |s|
    ensures r == [] || r[0] != '0'
  {
    if s != [] && s[0] == '0' then StripZeros(s[1..]) else s
  }

  /** toBinaryString(i): the binary numeral of i, empty for 0. */
  function ToBinaryString(n: nat): string {
    StripZeros(ExpandOctal(Oct(n)))
  }

  function Zeros(k: nat): (s: string)
    ensures |s| == k
    ensures forall i :: 0 <= i < k ==> s[i] == '0'
  {
    seq(k, _ => '0')
  }

  /** `s.rjust(width, '0')`: left-pad with zeros; never truncates. */
  function PadLeft(s: string, width: nat): (r: string)
    ensures |r| >= width && |r| >= |s|
  {
    if |s| >= width then s else Zeros(width - |s|) + s
  }

  /** `microsoftToCorners[ybit + xbit]`. */
  function Corner(ybit: char, xbit: char): char {
    DigitChar(2 * BitValue(ybit) + BitValue(xbit))
  }

  function BitValue(c: char): (b: nat)
    ensures b < 2
  {
    if c == '1' then 1 else 0
  }

  /** `''.join([microsoftToCorners[y[c]+x[c]] for c in range(n)])`. */
  function ZipCorners(ys: string, xs: string, n: nat): (r: string)
    requires n <= |ys| && n <= |xs|
    ensures |r| == n
  {
    if n == 0 then [] else ZipCorners(ys, xs, n - 1) + [Corner(ys[n - 1], xs[n - 1])]
  }

  /** toMicrosoft(col, row, zoom) exactly as written. */
  function ToMicrosoft(col: nat, row: nat, zoom: nat): string {
    var y := PadLeft(ToBinaryString(row), zoom);
    var x := PadLeft(ToBinaryString(col), zoom);
    ZipCorners(y, x, zoom)
  }

  // ---------------------------------------------------------------------------
  // Reference definitions

  function BitChar(b: nat): char
    requires b < 2
  {
    if b == 1 then '1' else '0'
  }

  /** The binary numeral of n without leading zeros, empty for 0. */
  function Bin(n: nat): (s: string)
    ensures n > 0 ==> |s| > 0 && s[0] == '1'
    decreases n
  {
    if n == 0 then [] else Bin(n / 2) + [BitChar(n % 2)]
  }

  /** The low `width` bits of n, most significant first. */
  function Bits(n: nat, width: nat): (s: string)
    ensures |s| == width
  {
    if width == 0 then [] else Bits(n / 2, width - 1) + [BitChar(n % 2)]
  }

  /** Bing Maps Tile System quadkey of tile (x, y) at level `zoom`: one
      base-4 digit `2*ybit + xbit` per level, coarsest level first. */
  function QuadKeyOf(x: nat, y: nat, zoom: nat): (q: string)
    ensures |q| == zoom
  {
    if zoom == 0 then [] else QuadKeyOf(x / 2, y / 2, zoom - 1) + [DigitChar(2 * (y % 2) + x % 2)]
  }

  /** Reads a quadkey back into tile indices; None on a digit outside 0-3. */
  function DecodeQuadKey(q: string): Option<(nat, nat)> {
    if q == [] then Some((0, 0))
    else
      var c := q[|q| - 1];
      if !('0' <= c <= '3') then None
      else match DecodeQuadKey(q[..|q| - 1])
        case None => None
        case Some(p) =>
          var d := DigitValue(c);
          Some((2 * p.0 + d % 2, 2 * p.1 + d / 2))
  }

  // ---------------------------------------------------------------------------
  // Proofs

  lemma {:induction false} StripZerosOfPadded(k: nat, b: string)
    requires b == [] || b[0] == '1'
    ensures StripZeros(Zeros(k) + b) == b
  {
    if k > 0 {
      assert (Zeros(k) + b)[1..] == Zeros(k - 1) + b;
      StripZerosOfPadded(k - 1, b);
    } else {
      assert Zeros(0) + b == b;
    }
  }

  /** Eight times q plus a digit r: three more binary digits. */
  lemma BinTimesEight(n: nat)
    requires n >= 8
    ensures Bin(n) == Bin(n / 8) + ThreeBits(n % 8)
  {
    var q, r := n / 8, n % 8;
    var a := n / 2;
    var b := a / 2;
    assert a == 4 * q + r / 2 && n % 2 == r % 2;
    assert b == 2 * q + r / 4 && a % 2 == (r / 2) % 2;
    assert b / 2 == q && b % 2 == r / 4;
    assert Bin(n) == Bin(a) + [BitChar(r % 2)];
    assert Bin(a) == Bin(b) + [BitChar((r / 2) % 2)];
    assert Bin(b) == Bin(q) + [BitChar(r / 4)];
    assert ThreeBits(r) == [BitChar(r / 4), BitChar((r / 2) % 2), BitChar(r % 2)];
  }

  /** An octal digit in three bits is its binary numeral with leading zeros. */
  lemma ThreeBitsPadded(r: nat)
    requires 0 < r < 8
    ensures ThreeBits(r) == Zeros(LeadingZeros(r)) + Bin(r)
  {
    if r == 1 {
      assert Bin(1) == "1";
      assert Zeros(2) == "00";
    } else if r == 2 {
      assert Bin(2) == "10";
      assert Zeros(1) == "0";
    } else if r == 3 {
      assert Bin(3) == "11";
      assert Zeros(1) == "0";
    } else if r == 4 {
      assert Bin(4) == "100";
    } else if r == 5 {
      assert Bin(5) == "101";
    } else if r == 6 {
      assert Bin(6) == "110";
    } else {
      assert Bin(7) == "111";
    }
  }

  /** How many of the three bits of an octal digit are leading zeros. */
  function LeadingZeros(r: nat): nat {
    if r < 2 then 2 else if r < 4 then 1 else 0
  }

  /** One more octal digit appends its three bits. */
  lemma ExpandOctDigitsStep(n: nat)
    requires n > 0
    ensures ExpandOctal(OctDigits(n)) == ExpandOctal(OctDigits(n / 8)) + ThreeBits(n % 8)
  {
    var s := OctDigits(n);
    assert s == OctDigits(n / 8) + [DigitChar(n % 8)];
    assert s[..|s| - 1] == OctDigits(n / 8);
    DigitValueChar(n % 8);
  }

  /** Expanding the octal digits gives the binary numeral behind the
      leading zeros of the first octal digit. */
  lemma {:induction false} ExpandOctDigits(n: nat)
    ensures ExpandOctal(OctDigits(n)) == Zeros(OctPad(n)) + Bin(n)
    decreases n
  {
    if n == 0 {
      assert ExpandOctal(OctDigits(0)) == [];
    } else if n < 8 {
      ExpandOneOctDigit(n);
    } else {
      ExpandOctDigits(n / 8);
      ExpandMoreOctDigits(n);
    }
  }

  lemma ExpandOneOctDigit(n: nat)
    requires 0 < n < 8
    ensures ExpandOctal(OctDigits(n)) == Zeros(OctPad(n)) + Bin(n)
  {
    ExpandOctDigitsStep(n);
    ThreeBitsPadded(n);
    assert OctDigits(n / 8) == [];
  }

  lemma ExpandMoreOctDigits(n: nat)
    requires n >= 8
    requires ExpandOctal(OctDigits(n / 8)) == Zeros(OctPad(n / 8)) + Bin(n / 8)
    ensures ExpandOctal(OctDigits(n)) == Zeros(OctPad(n)) + Bin(n)
  {
    ExpandOctDigitsStep(n);
    BinTimesEight(n);
    AppendAssoc(Zeros(OctPad(n / 8)), Bin(n / 8), ThreeBits(n % 8));
  }

  /** Leading zeros left by expanding the octal digits of n. */
  function OctPad(n: nat): nat
    decreases n
  {
    if n == 0 then 0 else if n < 8 then LeadingZeros(n) else OctPad(n / 8)
  }

  lemma ZerosAdd(a: nat, b: nat)
    ensures Zeros(a) + Zeros(b) == Zeros(a + b)
  {
  }

  lemma {:induction false} ExpandPrefixZero(s: string)
    requires forall i :: 0 <= i < |s| ==> '0' <= s[i] <= '7'
    ensures ExpandOctal("0" + s) == "000" + ExpandOctal(s)
    decreases |s|
  {
    var t := "0" + s;
    if s == [] {
      assert t[..0] == [];
      assert ExpandOctal(t) == ExpandOctal([]) + ThreeBits(0);
    } else {
      var init := s[..|s| - 1];
      var bits := ThreeBits(DigitValue(s[|s| - 1]));
      assert ExpandOctal(s) == ExpandOctal(init) + bits;
      assert ExpandOctal(t) == ExpandOctal("0" + init) + bits by {
        assert t[..|t| - 1] == "0" + init;
        assert t[|t| - 1] == s[|s| - 1];
      }
      ExpandPrefixZero(init);
      AppendAssoc("000", ExpandOctal(init), bits);
    }
  }

  /** The octal detour computes the plain binary numeral. */
  lemma ToBinaryStringIsBin(n: nat)
    ensures ToBinaryString(n) == Bin(n)
  {
    var k := OctPad(n);
    calc {
      ExpandOctal(Oct(n));
      ExpandOctal("0" + OctDigits(n));
      { ExpandPrefixZero(OctDigits(n)); }
      "000" + ExpandOctal(OctDigits(n));
      { ExpandOctDigits(n); }
      "000" + (Zeros(k) + Bin(n));
      { assert "000" == Zeros(3);
        AppendAssoc(Zeros(3), Zeros(k), Bin(n));
        ZerosAdd(3, k); }
      Zeros(k + 3) + Bin(n);
    }
    StripZerosOfPadded(k + 3, Bin(n));
  }

  lemma {:induction false} BinLength(n: nat, width: nat)
    requires n < Pow2(width)
    ensures |Bin(n)| <= width
    decreases width
  {
    if n > 0 {
      BinLength(n / 2, width - 1);
    }
  }

  lemma PadLeftShort(s: string, width: nat)
    requires |s| <= width
    ensures PadLeft(s, width) == Zeros(width - |s|) + s
  {
    if |s| == width {
      assert Zeros(0) + s == s;
    }
  }

  /** Right-justifying the numeral of n < 2^width gives its `width` low bits. */
  lemma {:induction false} PadLeftBin(n: nat, width: nat)
    requires n < Pow2(width)
    ensures PadLeft(Bin(n), width) == Bits(n, width)
    decreases width
  {
    if width > 0 {
      HalfBelow(n, width);
      PadLeftBin(n / 2, width - 1);
      if n == 0 {
        assert Zeros(width) == Zeros(width - 1) + ['0'];
      } else {
        BinLength(n, width);
        var b, bit := Bin(n / 2), [BitChar(n % 2)];
        var pad := width - |Bin(n)|;
        assert Bin(n) == b + bit;
        PadLeftShort(b, width - 1);
        PadLeftShort(Bin(n), width);
        AppendAssoc(Zeros(pad), b, bit);
      }
    }
  }

  lemma {:induction false} ZipBits(x: nat, y: nat, zoom: nat)
    ensures ZipCorners(Bits(y, zoom), Bits(x, zoom), zoom) == QuadKeyOf(x, y, zoom)
    decreases zoom
  {
    if zoom > 0 {
      var ys, xs := Bits(y, zoom), Bits(x, zoom);
      var ys', xs' := Bits(y / 2, zoom - 1), Bits(x / 2, zoom - 1);
      assert ys == ys' + [BitChar(y % 2)];
      assert xs == xs' + [BitChar(x % 2)];
      assert ZipCorners(ys, xs, zoom - 1) == QuadKeyOf(x / 2, y / 2, zoom - 1) by {
        ZipBits(x / 2, y / 2, zoom - 1);
        assert ys[..zoom - 1] == ys' == ys'[..zoom - 1];
        assert xs[..zoom - 1] == xs' == xs'[..zoom - 1];
        ZipPrefix(ys, ys', xs, xs', zoom - 1);
      }
      assert Corner(ys[zoom - 1], xs[zoom - 1]) == DigitChar(2 * (y % 2) + x % 2) by {
        assert ys[zoom - 1] == BitChar(y % 2) && xs[zoom - 1] == BitChar(x % 2);
        CornerOfBits(y % 2, x % 2);
      }
    }
  }

  lemma CornerOfBits(ybit: nat, xbit: nat)
    requires ybit < 2 && xbit < 2
    ensures Corner(BitChar(ybit), BitChar(xbit)) == DigitChar(2 * ybit + xbit)
  {
    assert BitValue(BitChar(ybit)) == ybit;
    assert BitValue(BitChar(xbit)) == xbit;
  }

  /** Only the first n characters of both strings matter. */
  lemma {:induction false} ZipPrefix(ys: string, ys': string, xs: string, xs': string, n: nat)
    requires n <= |ys| && n <= |ys'| && n <= |xs| && n <= |xs'|
    requires ys[..n] == ys'[..n] && xs[..n] == xs'[..n]
    ensures ZipCorners(ys, xs, n) == ZipCorners(ys', xs', n)
  {
    if n > 0 {
      assert ys[n - 1] == ys[..n][n - 1];
      assert ys'[n - 1] == ys'[..n][n - 1];
      assert xs[n - 1] == xs[..n][n - 1];
      assert xs'[n - 1] == xs'[..n][n - 1];
      assert ys[..n - 1] == ys'[..n - 1] && xs[..n - 1] == xs'[..n - 1];
      ZipPrefix(ys, ys', xs, xs', n - 1);
    }
  }

  /** For tiles inside the level, the source's construction is the Bing
      Maps quadkey. */
  lemma ToMicrosoftIsQuadKey(col: nat, row: nat, zoom: nat)
    requires col < Pow2(zoom) && row < Pow2(zoom)
    ensures ToMicrosoft(col, row, zoom) == QuadKeyOf(col, row, zoom)
  {
    ToBinaryStringIsBin(row);
    ToBinaryStringIsBin(col);
    PadLeftBin(row, zoom);
    PadLeftBin(col, zoom);
    ZipBits(col, row, zoom);
  }

  /** A quadkey decodes back to its tile when the tile lies inside the level. */
  lemma {:induction false} DecodeQuadKeyOf(x: nat, y: nat, zoom: nat)
    requires x < Pow2(zoom) && y < Pow2(zoom)
    ensures DecodeQuadKey(QuadKeyOf(x, y, zoom)) == Some((x, y))
    decreases zoom
  {
    if zoom > 0 {
      HalfBelow(x, zoom);
      HalfBelow(y, zoom);
      DecodeQuadKeyOf(x / 2, y / 2, zoom - 1);
      var q := QuadKeyOf(x, y, zoom);
      assert q[..|q| - 1] == QuadKeyOf(x / 2, y / 2, zoom - 1);
      var d := 2 * (y % 2) + x % 2;
      DigitValueChar(d);
      DigitSplit(y % 2, x % 2);
    }
  }

  lemma HalfBelow(x: nat, zoom: nat)
    requires zoom > 0 && x < Pow2(zoom)
    ensures x / 2 < Pow2(zoom - 1)
  {
    assert Pow2(zoom) == 2 * Pow2(zoom - 1);
  }

  lemma DigitSplit(ybit: nat, xbit: nat)
    requires ybit < 2 && xbit < 2
    ensures (2 * ybit + xbit) % 2 == xbit && (2 * ybit + xbit) / 2 == ybit
  {
  }

  lemma DivDiv(a: nat, k: nat)
    ensures a / 2 / Pow2(k) == a / Pow2(k + 1)
  {
    var p := Pow2(k);
    var q := a / 2 / p;
    var r := a / 2 % p;
    assert a / 2 == q * p + r;
    assert a == 2 * q * p + 2 * r + a % 2;
    assert 0 <= 2 * r + a % 2 < 2 * p;
    assert Pow2(k + 1) == 2 * p;
    DivUnique(a, 2 * p, q, 2 * r + a % 2);
  }

  lemma DivUnique(a: nat, d: nat, q: nat, r: nat)
    requires d > 0 && r < d && a == q * d + r
    ensures a / d == q
  {
    var q', r' := a / d, a % d;
    assert (q' - q) * d == r - r';
    MulBelowDivisor(q' - q, d);
  }

  /** Digit c of the quadkey is `2*ybit + xbit` for bit `zoom-1-c` of the
      indices: the most significant level comes first. */
  lemma {:induction false} QuadKeyDigits(x: nat, y: nat, zoom: nat, c: nat)
    requires c < zoom
    ensures QuadKeyOf(x, y, zoom)[c]
      == DigitChar(2 * ((y / Pow2(zoom - 1 - c)) % 2) + (x / Pow2(zoom - 1 - c)) % 2)
    decreases zoom
  {
    if c < zoom - 1 {
      QuadKeyDigits(x / 2, y / 2, zoom - 1, c);
      DivDiv(x, zoom - 2 - c);
      DivDiv(y, zoom - 2 - c);
    }
  }
}

=== FILE: text.dfy ===
/** String helpers shared by the tile ids and the provider URLs: Python's
    `'%d'` formatting of integers with its inverse, splitting at the first
    occurrence of a separator, and `os.path.join` on POSIX. */
module Text {
  import opened Common

  predicate IsDigit(c: char) {
    '0' <= c <= '9'
  }

  predicate AllDigits(s: string) {
    forall i :: 0 <= i < |s| ==> IsDigit(s[i])
  }

  function DigitChar(d: nat): (c: char)
    requires d < 10
    ensures IsDigit(c)
  {
    ['0', '1', '2', '3', '4', '5', '6', '7', '8', '9'][d]
  }

  function DigitValue(c: char): (d: nat)
    requires IsDigit(c)
    ensures d < 10
    ensures DigitChar(d) == c
  {
    (c as int - '0' as int)
  }

  lemma DigitValueChar(d: nat)
    requires d < 10
    ensures DigitValue(DigitChar(d)) == d
  {
  }

  /** `'%d' % n` for n >= 0: the shortest decimal numeral. */
  function NatToDecimal(n: nat): (s: string)
    ensures |s| >= 1
    ensures AllDigits(s)
    ensures n > 0 ==> s[0] != '0'
    decreases n
  {
    if n < 10 then [DigitChar(n)] else NatToDecimal(n / 10) + [DigitChar(n % 10)]
  }

  /** `'%d' % i`: a minus sign before the numeral of |i| when i is negative. */
  function IntToDecimal(i: int): (s: string)
    ensures |s| >= 1
    ensures i >= 0 ==> s == NatToDecimal(i)
    ensures i < 0 ==> s == "-" + NatToDecimal(-i)
  {
    if i < 0 then "-" + NatToDecimal(-i) else NatToDecimal(i)
  }

  /** Value of a string of decimal digits (the empty string reads as 0). */
  function ParseDigits(s: string): nat
    requires AllDigits(s)
  {
    if s == [] then 0 else 10 * ParseDigits(s[..|s| - 1]) + DigitValue(s[|s| - 1])
  }

  /** Python's int() on a decimal numeral with an optional minus sign; None
      for anything else. */
  function ParseInt(s: string): Option<int> {
    if |s| >= 2 && s[0] == '-' && AllDigits(s[1..]) then Some(0 - ParseDigits(s[1..]) as int)
    else if |s| >= 1 && AllDigits(s) then Some(ParseDigits(s))
    else None
  }

  lemma {:induction false} ParseNatToDecimal(n: nat)
    ensures ParseDigits(NatToDecimal(n)) == n
    decreases n
  {
    var s := NatToDecimal(n);
    if n < 10 {
      assert s == [DigitChar(n)];
      assert s[..|s| - 1] == [];
      DigitValueChar(n);
    } else {
      ParseNatToDecimal(n / 10);
      assert s[..|s| - 1] == NatToDecimal(n / 10);
      assert s[|s| - 1] == DigitChar(n % 10);
      DigitValueChar(n % 10);
    }
  }

  lemma ParseNatNumeral(n: nat)
    ensures ParseInt(NatToDecimal(n)) == Some(n)
  {
    var d := NatToDecimal(n);
    assert |d| >= 1 && AllDigits(d) && IsDigit(d[0]);
    ParseNatToDecimal(n);
  }

  lemma ParseNegativeNumeral(n: nat)
    ensures ParseInt("-" + NatToDecimal(n)) == Some(0 - n)
  {
    var d := NatToDecimal(n);
    var s := "-" + d;
    assert s[1..] == d;
    assert |s| >= 2 && s[0] == '-' && AllDigits(s[1..]);
    ParseNatToDecimal(n);
  }

  /** Formatting an integer and reading it back gives the integer. */
  lemma ParseIntToDecimal(i: int)
    ensures ParseInt(IntToDecimal(i)) == Some(i)
  {
    if i < 0 {
      ParseNegativeNumeral(-i);
      assert IntToDecimal(i) == "-" + NatToDecimal(-i);
    } else {
      ParseNatNumeral(i);
      assert IntToDecimal(i) == NatToDecimal(i);
    }
  }

  /** A formatted integer holds only digits and possibly a leading minus. */
  lemma DecimalHasNoSeparator(i: int, c: char)
    requires !IsDigit(c) && c != '-'
    ensures c !in IntToDecimal(i)
  {
  }

  /** A formatted natural number holds only digits. */
  lemma NatDecimalHasNoSeparator(n: nat, c: char)
    requires !IsDigit(c)
    ensures c !in NatToDecimal(n)
  {
  }

  /** Everything before the first `sep` and everything after it; None when
      `sep` does not occur. */
  function SplitAt(s: string, sep: char): (r: Option<(string, string)>)
    ensures r.None? <==> sep !in s
    ensures r.Some? ==> s == r.value.0 + [sep] + r.value.1 && sep !in r.value.0
  {
    if s == [] then None
    else if s[0] == sep then Some(([], s[1..]))
    else match SplitAt(s[1..], sep)
      case None => None
      case Some(pr) => Some(([s[0]] + pr.0, pr.1))
  }

  /** Splitting at the first separator undoes a concatenation whose left
      part is free of the separator. */
  lemma {:induction false} SplitAtConcat(p: string, sep: char, rest: string)
    requires sep !in p
    ensures SplitAt(p + [sep] + rest, sep) == Some((p, rest))
  {
    var s := p + [sep] + rest;
    if p == [] {
      assert s[0] == sep && s[1..] == rest;
    } else {
      assert s[0] == p[0] != sep;
      assert s[1..] == p[1..] + [sep] + rest;
      SplitAtConcat(p[1..], sep, rest);
      assert [p[0]] + p[1..] == p;
    }
  }

  /** Strip a literal prefix. */
  function DropPrefix(s: string, prefix: string): (r: Option<string>)
    ensures r.Some? <==> prefix <= s
    ensures r.Some? ==> s == prefix + r.value
  {
    if prefix <= s then Some(s[|prefix|..]) else None
  }

  lemma DropPrefixConcat(prefix: string, rest: string)
    ensures DropPrefix(prefix + rest, prefix) == Some(rest)
  {
    assert prefix <= prefix + rest;
    assert (prefix + rest)[|prefix|..] == rest;
  }

  /** `os.path.join(a, b)` on POSIX: an absolute `b` replaces `a`; otherwise a
      slash is inserted unless `a` is empty or already ends in one. */
  function Join(a: string, b: string): (r: string)
    ensures |b| > 0 && b[0] == '/' ==> r == b
    ensures (|b| == 0 || b[0] != '/') ==> r == a + b || r == a + "/" + b
    ensures (|b| == 0 || b[0] != '/') && |a| > 0 ==> r[..|a|] == a && r[|r| - |b|..] == b
    ensures (|b| == 0 || b[0] != '/') && (a == [] || a[|a| - 1] == '/') ==> r == a + b
    ensures (|b| == 0 || b[0] != '/') && a != [] && a[|a| - 1] != '/' ==> r == a + "/" + b
  {
    if |b| > 0 && b[0] == '/' then b
    else if a == [] || a[|a| - 1] == '/' then a + b
    else a + "/" + b
  }
}

=== FILE: tile_cache.dfy ===
/** The tile cache and fetch queues of a tile server (TileServer.py): the
    cache maps a tile's filename to nothing (absent), to `False` (pending:
    requested, not yet loaded) or to an image (ready); `q_in` holds fetch
    jobs, `q_out` loaded images waiting for the UI thread. `get`, `update`
    and one sequential worker step are transitions of this state; the disk,
    the network and image decoding are answers passed in with a step. */
module TileCache {
  import opened Common
  import opened TileIds
  import Providers
  import Wms = WmsTileServer

  /** Pixels from the image loader, or the server's fallback image. */
  datatype Pixels = Decoded(handle: nat) | Placeholder

  /** A loaded image and the number in its `img%d` id. */
  datatype Image = Image(pixels: Pixels, id: nat)

  /** A cache value: `False` while pending, the image once ready. */
  datatype Entry = Pending | Ready(image: Image)

  /** A fetch job, `(nx, ny, zoom, maptype, format)`. */
  datatype Job = Job(nx: int, ny: int, zoom: nat, maptype: string, format: string)

  /** One tile server: its provider and cache directory, the tile cache,
      both queues, `q_count` and `uniqid`. `wms` is only read by an OsmWms
      server. */
  datatype Server = Server(provider: Providers.Provider, wms: Wms.Config, cachePath: string,
                           cache: map<string, Entry>, qIn: seq<Job>,
                           qOut: seq<(string, Image)>, qCount: int, uniqid: nat)

  /** A new server: empty cache and queues, `q_count` 0, `uniqid` 1. */
  function NewServer(provider: Providers.Provider, wms: Wms.Config, cachePath: string): (s: Server)
    ensures Inv(s)
  {
    Server(provider, wms, cachePath, map[], [], [], 0, 1)
  }

  function JobFile(s: Server, j: Job): string {
    ToFilename(s.cachePath, j.nx, j.ny, j.zoom, j.maptype, j.format)
  }

  // ---------------------------------------------------------------------------
  // The queue invariant

  /** The filenames of the fetch jobs, in queue order. */
  function InFiles(s: Server, jobs: seq<Job>): (q: seq<string>)
    ensures |q| == |jobs|
  {
    if jobs == [] then [] else InFiles(s, jobs[..|jobs| - 1]) + [JobFile(s, jobs[|jobs| - 1])]
  }

  /** The filenames of the loaded images, in queue order. */
  function OutFiles(out: seq<(string, Image)>): (q: seq<string>)
    ensures |q| == |out|
    ensures forall i :: 0 <= i < |out| ==> q[i] == out[i].0
  {
    if out == [] then [] else [out[0].0] + OutFiles(out[1..])
  }

  /** The filenames of every job not yet handed to the UI thread: the fetch
      jobs, then the loaded images. */
  function Queued(s: Server): (q: seq<string>)
    ensures |q| == |s.qIn| + |s.qOut|
  {
    InFiles(s, s.qIn) + OutFiles(s.qOut)
  }

  predicate AllDistinct(q: seq<string>) {
    forall i, j :: 0 <= i < j < |q| ==> q[i] != q[j]
  }

  /** Each queued filename is queued once and is pending in the cache, and
      `q_count` has counted every queued job (it also keeps counting jobs
      that were dropped). */
  predicate Inv(s: Server) {
    var q := Queued(s);
    AllDistinct(q)
    && (forall x :: x in q ==> x in s.cache && s.cache[x] == Pending)
    && s.qCount >= |s.qIn| + |s.qOut|
  }

  lemma DistinctInsert(a: seq<string>, f: string, b: seq<string>)
    requires AllDistinct(a + b) && f !in a + b
    ensures AllDistinct(a + [f] + b)
  {
    var q, r := a + [f] + b, a + b;
    forall i, j | 0 <= i < j < |q|
      ensures q[i] != q[j]
    {
      if i < |a| && j > |a| {
        assert q[j] == r[j - 1] && q[i] == r[i];
      } else if i > |a| {
        assert q[j] == r[j - 1] && q[i] == r[i - 1];
      } else if i == |a| {
        assert q[j] == r[j - 1] && r[j - 1] in r;
      } else if j == |a| {
        assert q[i] == r[i] && r[i] in r;
      } else {
        assert q[j] == r[j] && q[i] == r[i];
      }
    }
  }

  lemma DistinctRemove(a: seq<string>, f: string, b: seq<string>)
    requires AllDistinct(a + [f] + b)
    ensures AllDistinct(a + b)
  {
    var q, r := a + [f] + b, a + b;
    forall i, j | 0 <= i < j < |r|
      ensures r[i] != r[j]
    {
      if j < |a| {
        assert r[i] == q[i] && r[j] == q[j];
      } else if i < |a| {
        assert r[i] == q[i] && r[j] == q[j + 1];
      } else {
        assert r[i] == q[i + 1] && r[j] == q[j + 1];
      }
    }
  }

  /** Nothing occurs on both sides of a sequence without repeats. */
  lemma DistinctDisjoint(a: seq<string>, b: seq<string>)
    requires AllDistinct(a + b)
    ensures forall x :: x in a ==> x !in b
  {
    forall i, k | 0 <= i < |a| && 0 <= k < |b|
      ensures a[i] != b[k]
    {
      assert (a + b)[i] == a[i] && (a + b)[|a| + k] == b[k];
    }
  }

  lemma InFilesAppend(s: Server, jobs: seq<Job>, j: Job)
    ensures InFiles(s, jobs + [j]) == InFiles(s, jobs) + [JobFile(s, j)]
  {
    assert (jobs + [j])[..|jobs|] == jobs;
  }

  /** The invariant depends on the cache path, the cache and the queues only. */
  lemma InFilesSamePath(s: Server, s': Server, jobs: seq<Job>)
    requires s.cachePath == s'.cachePath
    ensures InFiles(s, jobs) == InFiles(s', jobs)
  {
  }

  // ---------------------------------------------------------------------------
  // exist and get

  /** exist: `bool(Cache.get(...))`; an image is truthy, `False` and None
      are not. */
  function Exist(s: Server, nx: int, ny: int, zoom: nat, maptype: string, format: string): (b: bool)
    ensures b <==> var f := ToFilename(s.cachePath, nx, ny, zoom, maptype, format);
      f in s.cache && s.cache[f].Ready?
  {
    var f := ToFilename(s.cachePath, nx, ny, zoom, maptype, format);
    f in s.cache && s.cache[f] != Pending
  }

  /** get: the image when ready, None otherwise; an absent tile is marked
      pending and one fetch job is queued for it. */
  function Get(s: Server, nx: int, ny: int, zoom: nat, maptype: string, format: string): (r: (Server, Option<Image>))
    ensures var f := ToFilename(s.cachePath, nx, ny, zoom, maptype, format);
      && (f in s.cache && s.cache[f].Ready? ==> r == (s, Some(s.cache[f].image)))
      && (f in s.cache && s.cache[f].Pending? ==> r == (s, None))
      && (f !in s.cache ==>
            r.1.None?
            && r.0.cache == s.cache[f := Pending]
            && r.0.qCount == s.qCount + 1
            && r.0.qIn == s.qIn + [Job(nx, ny, zoom, maptype, format)]
            && r.0 == s.(cache := r.0.cache, qCount := r.0.qCount, qIn := r.0.qIn))
  {
    var f := ToFilename(s.cachePath, nx, ny, zoom, maptype, format);
    if f in s.cache then
      match s.cache[f]
      case Pending => (s, None)
      case Ready(img) => (s, Some(img))
    else
      (s.(cache := s.cache[f := Pending], qCount := s.qCount + 1,
          qIn := s.qIn + [Job(nx, ny, zoom, maptype, format)]), None)
  }

  /** exist agrees with get: a tile exists exactly when get hands back its
      image, and asking for an existing tile changes nothing. */
  lemma ExistIffGetReturns(s: Server, nx: int, ny: int, zoom: nat, maptype: string, format: string)
    ensures Exist(s, nx, ny, zoom, maptype, format) <==> Get(s, nx, ny, zoom, maptype, format).1.Some?
    ensures Exist(s, nx, ny, zoom, maptype, format) ==> Get(s, nx, ny, zoom, maptype, format).0 == s
  {
  }

  /** Asking again for a tile that is still pending queues nothing more. */
  lemma GetEnqueuesOnce(s: Server, nx: int, ny: int, zoom: nat, maptype: string, format: string)
    ensures var s1 := Get(s, nx, ny, zoom, maptype, format).0;
      Get(s1, nx, ny, zoom, maptype, format).0 == s1
  {
  }

  /** Queueing a job for a tile absent from the cache, marking it pending
      and counting it, keeps the invariant. */
  lemma EnqueuePreservesInv(s: Server, j: Job)
    requires Inv(s) && JobFile(s, j) !in s.cache
    ensures Inv(s.(cache := s.cache[JobFile(s, j) := Pending], qCount := s.qCount + 1, qIn := s.qIn + [j]))
  {
    var f := JobFile(s, j);
    var s1 := s.(cache := s.cache[f := Pending], qCount := s.qCount + 1, qIn := s.qIn + [j]);
    InFilesAppend(s, s.qIn, j);
    InFilesSamePath(s, s1, s.qIn + [j]);
    var a, b := InFiles(s, s.qIn), OutFiles(s.qOut);
    assert Queued(s) == a + b;
    assert Queued(s1) == a + [f] + b;
    DistinctInsert(a, f, b);
  }

  lemma GetPreservesInv(s: Server, nx: int, ny: int, zoom: nat, maptype: string, format: string)
    requires Inv(s)
    ensures Inv(Get(s, nx, ny, zoom, maptype, format).0)
  {
    var j := Job(nx, ny, zoom, maptype, format);
    var f := JobFile(s, j);
    if f !in s.cache {
      EnqueuePreservesInv(s, j);
      assert Get(s, nx, ny, zoom, maptype, format).0
          == s.(cache := s.cache[f := Pending], qCount := s.qCount + 1, qIn := s.qIn + [j]);
    } else {
      assert Get(s, nx, ny, zoom, maptype, format).0 == s;
    }
  }

  // ---------------------------------------------------------------------------
  // update

  /** `Cache.append` of every `(filename, image)` popped from `q_out`: pops
      take the oldest entry first, so a newer image for the same filename
      overwrites an older one. */
  function Drain(cache: map<string, Entry>, out: seq<(string, Image)>): (c: map<string, Entry>)
    ensures forall k :: k in c <==> k in cache || exists i :: 0 <= i < |out| && out[i].0 == k
    ensures forall k :: k in cache && (forall i :: 0 <= i < |out| ==> out[i].0 != k) ==> c[k] == cache[k]
    ensures forall i :: 0 <= i < |out| ==> out[i].0 in c
    ensures forall i :: 0 <= i < |out| && (forall j :: 0 <= j < i ==> out[j].0 != out[i].0) ==>
      c[out[i].0] == Ready(out[i].1)
    decreases |out|
  {
    if out == [] then cache
    else
      var last := out[|out| - 1];
      var init := out[..|out| - 1];
      var c := Drain(cache[last.0 := Ready(last.1)], init);
      assert forall i :: 0 <= i < |init| ==> init[i] == out[i];
      c
  }

  /** update: drains `q_out` into the cache and takes each drained image off
      `q_count`. */
  function Update(s: Server): (s': Server)
    ensures s'.qOut == [] && s'.qIn == s.qIn
    ensures s'.qCount == s.qCount - |s.qOut|
    ensures forall i :: 0 <= i < |s.qOut| ==> s.qOut[i].0 in s'.cache && s'.cache[s.qOut[i].0].Ready?
    ensures forall i :: 0 <= i < |s.qOut| && (forall j :: 0 <= j < i ==> s.qOut[j].0 != s.qOut[i].0) ==>
      s'.cache[s.qOut[i].0] == Ready(s.qOut[i].1)
    ensures forall k :: k in s.cache && (forall i :: 0 <= i < |s.qOut| ==> s.qOut[i].0 != k) ==>
      k in s'.cache && s'.cache[k] == s.cache[k]
  {
    var c := Drain(s.cache, s.qOut);
    assert forall i :: 0 <= i < |s.qOut| ==> c[s.qOut[i].0].Ready? by {
      forall i | 0 <= i < |s.qOut|
        ensures c[s.qOut[i].0].Ready?
      {
        NewestOccurrence(s.qOut, i);
      }
    }
    s.(cache := c, qOut := [], qCount := s.qCount - |s.qOut|)
  }

  /** Some occurrence of a filename is the newest one. */
  lemma {:induction false} NewestOccurrence(out: seq<(string, Image)>, i: nat)
    requires i < |out|
    ensures exists k :: (0 <= k <= i && out[k].0 == out[i].0
      && forall j :: 0 <= j < k ==> out[j].0 != out[i].0)
    decreases i
  {
    if exists j :: 0 <= j < i && out[j].0 == out[i].0 {
      var j :| 0 <= j < i && out[j].0 == out[i].0;
      NewestOccurrence(out, j);
    } else {
      var k := i;
      assert 0 <= k <= i && out[k].0 == out[i].0 && forall j :: 0 <= j < k ==> out[j].0 != out[i].0;
    }
  }

  lemma UpdatePreservesInv(s: Server)
    requires Inv(s)
    ensures Inv(Update(s))
  {
    var s' := Update(s);
    var a, b := InFiles(s, s.qIn), OutFiles(s.qOut);
    InFilesSamePath(s, s', s.qIn);
    assert Queued(s') == a;
    assert Queued(s) == a + b;
    DistinctDisjoint(a, b);
    forall x | x in a
      ensures x in s'.cache && s'.cache[x] == Pending
    {
      assert x in a + b;
      forall k | 0 <= k < |s.qOut|
        ensures s.qOut[k].0 != x
      {
        assert b[k] == s.qOut[k].0 && b[k] in b;
      }
    }
    forall i, j | 0 <= i < j < |a|
      ensures a[i] != a[j]
    {
      assert (a + b)[i] == a[i] && (a + b)[j] == a[j];
    }
  }

  // ---------------------------------------------------------------------------
  // Cache eviction

  /** Kivy's cache drops entries on its own (limit and timeout); which ones
      is not modelled, so the dropped key is a parameter. */
  function Evict(s: Server, key: string): (s': Server)
    ensures s'.cache == s.cache - {key}
    ensures s' == s.(cache := s'.cache)
  {
    s.(cache := s.cache - {key})
  }

  /** Dropping a ready tile keeps the invariant (a dropped pending tile
      could be queued a second time). */
  lemma EvictReadyPreservesInv(s: Server, key: string)
    requires Inv(s) && key in s.cache && s.cache[key].Ready?
    ensures Inv(Evict(s, key))
  {
    var s' := Evict(s, key);
    InFilesSamePath(s, s', s.qIn);
    assert Queued(s') == Queued(s);
  }

  /** The i-th filename of the fetch jobs is that of the i-th job. */
  lemma {:induction false} InFilesAt(s: Server, jobs: seq<Job>, i: int)
    requires 0 <= i < |jobs|
    ensures InFiles(s, jobs)[i] == JobFile(s, jobs[i])
    decreases |jobs|
  {
    if i < |jobs| - 1 {
      InFilesAt(s, jobs[..|jobs| - 1], i);
    }
  }

  /** Dropping the key of a queued job (pending under the invariant) and
      asking for that tile again queues its filename a second time: the
      invariant does not survive the eviction of a pending entry. */
  lemma EvictPendingRequeues(s: Server, i: int)
    requires 0 <= i < |s.qIn|
    ensures var j := s.qIn[i];
      var s2 := Get(Evict(s, JobFile(s, j)), j.nx, j.ny, j.zoom, j.maptype, j.format).0;
      s2.qIn == s.qIn + [j] && !AllDistinct(Queued(s2))
  {
    var j := s.qIn[i];
    var f := JobFile(s, j);
    var s2 := Get(Evict(s, f), j.nx, j.ny, j.zoom, j.maptype, j.format).0;
    assert s2.qIn == s.qIn + [j] && s2.cachePath == s.cachePath;
    InFilesAppend(s2, s.qIn, j);
    InFilesAt(s2, s.qIn, i);
    assert Queued(s2)[i] == f;
    assert Queued(s2)[|s.qIn|] == f;
  }

  // ---------------------------------------------------------------------------
  // One worker step

  /** One HTTP attempt: no connection, a failed read, or a body and whether
      writing it to the tile file succeeded. */
  datatype Attempt = Unreachable | ReadError | Body(data: string, writeOk: bool)

  /** The answers of the outside world for one step: whether the tile file
      already exists, the result of attempt 1 and 2, what the image loader
      makes of the file, and pyproj for a WMS server. */
  datatype WorkerEnv = WorkerEnv(onDisk: bool, attempts: nat -> Attempt,
                                 decoded: Option<nat>, project: Wms.Reproject)

  /** `data[:5] == "<?xml"`: the server answered with an XML error. */
  predicate IsXmlError(data: string) {
    |data| >= 5 && data[..5] == "<?xml"
  }

  /** Whether attempt i stored a tile. */
  predicate Stored(a: Attempt) {
    a.Body? && !IsXmlError(a.data) && a.writeOk
  }

  /** How many attempts were made and which body was written. */
  datatype Fetch = Fetch(tries: nat, written: Option<string>)

  /** `for i in xrange(1, 3)`: attempts i, i+1, ... up to 2, stopping at the
      first that stores a tile. */
  function FetchFrom(attempts: nat -> Attempt, i: nat): (r: Fetch)
    requires 1 <= i <= 3
    ensures i <= 2 ==> i <= r.tries <= 2
    ensures i == 3 ==> r == Fetch(2, None)
    ensures r.written.Some? <==> exists k :: i <= k <= 2 && Stored(attempts(k))
    ensures r.written.Some? ==> (Stored(attempts(r.tries)) && r.written.value == attempts(r.tries).data
      && forall k :: i <= k < r.tries ==> !Stored(attempts(k)))
    ensures r.written.None? ==> r.tries == 2
    decreases 3 - i
  {
    if i == 3 then Fetch(2, None)
    else if Stored(attempts(i)) then Fetch(i, Some(attempts(i).data))
    else FetchFrom(attempts, i + 1)
  }

  /** What a step did. `tries` counts HTTP attempts; `written` is the body
      stored on disk, if any. */
  datatype Outcome =
    | Idle
    | Crashed(job: Job)
    | Dropped(job: Job, tries: nat)
    | Pushed(job: Job, tries: nat, written: Option<string>)

  /** The image pushed for a loaded tile: the decoded file, or the fallback
      image when decoding fails, numbered with the current `uniqid`. */
  function LoadedImage(s: Server, env: WorkerEnv): Image {
    match env.decoded
    case Some(h) => Image(Decoded(h), s.uniqid)
    case None => Image(Placeholder, s.uniqid)
  }

  /** _worker_run_once: pop the newest job; if its file is not on disk,
      build the URL and try at most twice to fetch and store it; push the
      loaded image, or drop the job when nothing was stored. None from
      geturl is an exception that ends the worker after the pop. */
  function WorkerStep(s: Server, env: WorkerEnv): (r: (Server, Outcome))
    ensures s.qIn == [] ==> r == (s, Idle)
    ensures s.qIn != [] ==> (r.1 != Idle && r.1.job == s.qIn[|s.qIn| - 1]
      && r.0.qIn == s.qIn[..|s.qIn| - 1]
      && r.0.cache == s.cache && r.0.qCount == s.qCount)
    ensures r.0.cachePath == s.cachePath && r.0.provider == s.provider && r.0.wms == s.wms
    ensures s.qIn != [] && env.onDisk ==> r.1.Pushed? && r.1.tries == 0 && r.1.written.None?
    ensures r.1.Crashed? ==> !env.onDisk && r.0.qOut == s.qOut && r.0.uniqid == s.uniqid
    ensures r.1.Dropped? ==> (r.1.tries == 2 && r.0.qOut == s.qOut && r.0.uniqid == s.uniqid
      && forall k :: 1 <= k <= 2 ==> !Stored(env.attempts(k)))
    ensures r.1.Pushed? ==> (r.1.tries <= 2
      && r.0.qOut == [(JobFile(s, r.1.job), LoadedImage(s, env))] + s.qOut
      && r.0.uniqid == s.uniqid + 1)
    ensures r.1.Pushed? && !env.onDisk ==> 1 <= r.1.tries && r.1.written.Some?
    ensures r.1.Pushed? && r.1.written.Some? ==> !IsXmlError(r.1.written.value)
    ensures s.qIn != [] && !env.onDisk ==>
      var job := s.qIn[|s.qIn| - 1];
      var url := Providers.GetUrl(s.provider, s.wms, env.project, job.nx, job.ny, job.zoom, job.maptype);
      var fetch := FetchFrom(env.attempts, 1);
      && (r.1.Crashed? <==> url.None?)
      && (url.Some? ==> (r.1.Pushed? <==> fetch.written.Some?))
      && (r.1.Pushed? ==> r.1.written == fetch.written && r.1.tries == fetch.tries)
      && (r.1.Dropped? ==> r.1.tries == fetch.tries)
  {
    if s.qIn == [] then (s, Idle)
    else
      var job := s.qIn[|s.qIn| - 1];
      var popped := s.(qIn := s.qIn[..|s.qIn| - 1]);
      var f := JobFile(s, job);
      var pushed := popped.(qOut := [(f, LoadedImage(s, env))] + s.qOut, uniqid := s.uniqid + 1);
      if env.onDisk then (pushed, Pushed(job, 0, None))
      else match Providers.GetUrl(s.provider, s.wms, env.project, job.nx, job.ny, job.zoom, job.maptype)
        case None => (popped, Crashed(job))
        case Some(_) =>
          var fetch := FetchFrom(env.attempts, 1);
          if fetch.written.None? then (popped, Dropped(job, fetch.tries))
          else (pushed, Pushed(job, fetch.tries, fetch.written))
  }

  lemma WorkerStepPreservesInv(s: Server, env: WorkerEnv)
    requires Inv(s)
    ensures Inv(WorkerStep(s, env).0)
  {
    if s.qIn != [] {
      var r := WorkerStep(s, env);
      if r.1.Pushed? {
        PopPushPreservesInv(s, r.0, LoadedImage(s, env));
      } else {
        PopDropPreservesInv(s, r.0);
      }
    }
  }

  /** Popping the newest job and forgetting it keeps the invariant. */
  lemma PopDropPreservesInv(s: Server, s': Server)
    requires Inv(s) && s.qIn != []
    requires s'.cachePath == s.cachePath && s'.cache == s.cache && s'.qCount == s.qCount
    requires s'.qIn == s.qIn[..|s.qIn| - 1] && s'.qOut == s.qOut
    ensures Inv(s')
  {
    var a, b := InFiles(s', s'.qIn), OutFiles(s.qOut);
    PopQueued(s, s');
    DropKeepsInv(s, s', a, JobFile(s, s.qIn[|s.qIn| - 1]), b);
  }

  /** Popping the newest job and pushing its image keeps the invariant. */
  lemma PopPushPreservesInv(s: Server, s': Server, img: Image)
    requires Inv(s) && s.qIn != []
    requires s'.cachePath == s.cachePath && s'.cache == s.cache && s'.qCount == s.qCount
    requires s'.qIn == s.qIn[..|s.qIn| - 1]
    requires s'.qOut == [(JobFile(s, s.qIn[|s.qIn| - 1]), img)] + s.qOut
    ensures Inv(s')
  {
    PushQueued(s, s', img);
    SameQueuedKeepsInv(s, s');
  }

  /** A job moved from the back of `q_in` to the front of `q_out` keeps its
      place in the queued filenames. */
  lemma PushQueued(s: Server, s': Server, img: Image)
    requires s.qIn != [] && s'.cachePath == s.cachePath
    requires s'.qIn == s.qIn[..|s.qIn| - 1]
    requires s'.qOut == [(JobFile(s, s.qIn[|s.qIn| - 1]), img)] + s.qOut
    ensures Queued(s') == Queued(s)
  {
    var a, f, b := InFiles(s', s'.qIn), JobFile(s, s.qIn[|s.qIn| - 1]), OutFiles(s.qOut);
    PopQueued(s, s');
    OutFilesCons(f, img, s.qOut);
    AppendAssoc(a, [f], b);
  }

  /** The popped job's filename sits between the remaining jobs and the
      loaded images. */
  lemma PopQueued(s: Server, s': Server)
    requires s.qIn != [] && s'.cachePath == s.cachePath && s'.qIn == s.qIn[..|s.qIn| - 1]
    ensures Queued(s) == InFiles(s', s'.qIn) + [JobFile(s, s.qIn[|s.qIn| - 1])] + OutFiles(s.qOut)
  {
    InFilesSamePath(s, s', s'.qIn);
  }

  lemma OutFilesCons(f: string, img: Image, out: seq<(string, Image)>)
    ensures OutFiles([(f, img)] + out) == [f] + OutFiles(out)
  {
    assert ([(f, img)] + out)[1..] == out;
  }

  lemma SameQueuedKeepsInv(s: Server, s': Server)
    requires Inv(s) && Queued(s') == Queued(s) && s'.cache == s.cache && s'.qCount == s.qCount
    ensures Inv(s')
  {
  }

  lemma DropKeepsInv(s: Server, s': Server, a: seq<string>, f: string, b: seq<string>)
    requires Inv(s) && Queued(s) == a + [f] + b && Queued(s') == a + b
    requires s'.cache == s.cache && s'.qCount == s.qCount
    ensures Inv(s')
  {
    DistinctRemove(a, f, b);
    forall x | x in a + b
      ensures x in a + [f] + b
    {
    }
  }
}

=== FILE: tile_ids.dfy ===
/** Tile identifiers and the on-disk cache layout (TileServer.to_id and
    TileServer.to_filename). The filename is also the key of the in-memory
    tile cache, so distinct tiles must get distinct filenames. */
module TileIds {
  import opened Common
  import opened Text

  /** to_id: `'%d_%d_%d_%s.%s' % (nx, ny, zoom, maptype, format)`. */
  function ToId(nx: int, ny: int, zoom: int, maptype: string, format: string): (id: string)
    ensures |id| >= 2
    ensures id[0] != '/' && id[1] != '/'
  {
    var id := IntToDecimal(nx) + "_" + IntToDecimal(ny) + "_" + IntToDecimal(zoom) + "_" + maptype + "." + format;
    assert id[0] == IntToDecimal(nx)[0];
    assert IntToDecimal(nx)[0] == '-' || IsDigit(IntToDecimal(nx)[0]);
    assert id[1] == '_' || id[1] == IntToDecimal(nx)[1];
    assert |IntToDecimal(nx)| >= 2 ==> IntToDecimal(nx)[1] != '/' by {
      DecimalHasNoSeparator(nx, '/');
    }
    id
  }

  /** The three numbers at the front of an id and the `maptype.format` tail. */
  datatype IdFields = IdFields(nx: int, ny: int, zoom: int, tail: string)

  /** Reads an id back: three '_'-terminated integers, then the tail. */
  function ParseId(id: string): Option<IdFields> {
    match SplitAt(id, '_')
    case None => None
    case Some(p1) =>
      match SplitAt(p1.1, '_')
      case None => None
      case Some(p2) =>
        match SplitAt(p2.1, '_')
        case None => None
        case Some(p3) =>
          match (ParseInt(p1.0), ParseInt(p2.0), ParseInt(p3.0))
          case (Some(x), Some(y), Some(z)) => Some(IdFields(x, y, z, p3.1))
          case _ => None
  }

  /** An id reads back as the numbers and the tail it was made from. */
  lemma ParseToId(nx: int, ny: int, zoom: int, maptype: string, format: string)
    ensures ParseId(ToId(nx, ny, zoom, maptype, format)) == Some(IdFields(nx, ny, zoom, maptype + "." + format))
  {
    var a, b, c := IntToDecimal(nx), IntToDecimal(ny), IntToDecimal(zoom);
    var tail := maptype + "." + format;
    var r2 := c + "_" + tail;
    var r1 := b + "_" + r2;
    assert ToId(nx, ny, zoom, maptype, format) == a + "_" + r1;
    DecimalHasNoSeparator(nx, '_');
    DecimalHasNoSeparator(ny, '_');
    DecimalHasNoSeparator(zoom, '_');
    SplitAtConcat(a, '_', r1);
    SplitAtConcat(b, '_', r2);
    SplitAtConcat(c, '_', tail);
    ParseIntToDecimal(nx);
    ParseIntToDecimal(ny);
    ParseIntToDecimal(zoom);
  }

  /** Tiles of one map type and format never share an id. */
  lemma ToIdInjective(nx: int, ny: int, zoom: int, nx': int, ny': int, zoom': int, maptype: string, format: string)
    requires ToId(nx, ny, zoom, maptype, format) == ToId(nx', ny', zoom', maptype, format)
    ensures nx == nx' && ny == ny' && zoom == zoom'
  {
    ParseToId(nx, ny, zoom, maptype, format);
    ParseToId(nx', ny', zoom', maptype, format);
  }

  /** to_filename: `join(cache_path, id[0:2], id)`; the first two characters
      of the id name a shard directory under the provider's cache path. */
  function ToFilename(cachePath: string, nx: int, ny: int, zoom: int, maptype: string, format: string): (f: string)
    ensures var id := ToId(nx, ny, zoom, maptype, format);
      f == Join(cachePath, id[..2]) + "/" + id
  {
    var id := ToId(nx, ny, zoom, maptype, format);
    var dir := Join(cachePath, id[..2]);
    assert |dir| > 0 && dir[|dir| - 1] != '/' by {
      assert dir == cachePath + id[..2] || dir == cachePath + "/" + id[..2];
      assert dir[|dir| - 1] == id[1];
    }
    Join(dir, id)
  }

  /** The shard directory has the same length for every id, so the id is
      the fixed-offset suffix of the filename. */
  lemma FilenameSuffix(cachePath: string, nx: int, ny: int, zoom: int, maptype: string, format: string)
    ensures var id := ToId(nx, ny, zoom, maptype, format);
      var f := ToFilename(cachePath, nx, ny, zoom, maptype, format);
      |f| == IdOffset(cachePath) + |id| && f[IdOffset(cachePath)..] == id
  {
    var id := ToId(nx, ny, zoom, maptype, format);
    var dir := Join(cachePath, id[..2]);
    var f := ToFilename(cachePath, nx, ny, zoom, maptype, format);
    assert |dir| + 1 == IdOffset(cachePath);
    assert f[|dir| + 1..] == id;
  }

  /** Where the id starts in a filename: the cache path, a two-character
      shard directory and the separators, whatever the two characters are. */
  function IdOffset(cachePath: string): nat {
    |Join(cachePath, "00")| + 1
  }

  /** Within one cache directory, distinct tiles of one map type and format
      never share a filename (and so never share a cache entry). */
  lemma ToFilenameInjective(cachePath: string, nx: int, ny: int, zoom: int, nx': int, ny': int, zoom': int, maptype: string, format: string)
    requires ToFilename(cachePath, nx, ny, zoom, maptype, format) == ToFilename(cachePath, nx', ny', zoom', maptype, format)
    ensures nx == nx' && ny == ny' && zoom == zoom'
  {
    FilenameSuffix(cachePath, nx, ny, zoom, maptype, format);
    FilenameSuffix(cachePath, nx', ny', zoom', maptype, format);
    ToIdInjective(nx, ny, zoom, nx', ny', zoom', maptype, format);
  }
}

=== FILE: wfs_overlay.dfy ===
/** The WFS overlay server (WFSOverlayServer.py): the feature dictionary
    `parseFeature` builds from a GetCapabilities document, the feature and
    SRS it picks, the GetFeature URL of the visible area, the depth-first
    search for GML geometries in the answer, and the memo `get` keeps. */
module WfsOverlay {
  import opened Common
  import opened Projections
  import opened Xml
  import opened Capabilities
  import opened Overlay
  import WmsOverlay

  /** The GML namespace, in ElementTree's `{namespace}local` tag form. */
  const GmlNs: string := "http://www.opengis.net/gml"
  const PointTag: string := "{" + GmlNs + "}Point"
  const RingTag: string := "{" + GmlNs + "}LinearRing"
  const MemberTag: string := "{" + GmlNs + "}featureMember"

  predicate IsGeometry(e: Element) {
    e.tag == PointTag || e.tag == RingTag
  }

  // ---------------------------------------------------------------------------
  // findGeometry and findGeometries

  /** findGeometry: a direct Point child, else a direct LinearRing child,
      else the first geometry found below the children, in order. */
  function FindGeometry(e: Element): (r: Option<Element>)
    ensures r.Some? ==> IsGeometry(r.value) && ProperDescendant(r.value, e)
    ensures Find(e, PointTag).Some? ==> r == Find(e, PointTag)
    ensures Find(e, PointTag).None? && Find(e, RingTag).Some? ==> r == Find(e, RingTag)
    ensures Find(e, PointTag).None? && Find(e, RingTag).None? && r.Some? ==>
      exists j :: 0 <= j < |e.children| && FindGeometry(e.children[j]) == r
        && forall k :: 0 <= k < j ==> FindGeometry(e.children[k]).None?
    ensures Find(e, PointTag).None? && Find(e, RingTag).None? && r.None? ==>
      forall j :: 0 <= j < |e.children| ==> FindGeometry(e.children[j]).None?
    decreases e, |e.children| + 1
  {
    match Find(e, PointTag)
    case Some(p) => Some(p)
    case None =>
      match Find(e, RingTag)
      case Some(ring) => Some(ring)
      case None => FirstGeometry(e, 0)
  }

  /** The loop over `elem.getchildren()` from the i-th child: the first
      child whose search finds something decides. */
  function FirstGeometry(e: Element, i: nat): (r: Option<Element>)
    ensures r.Some? ==> IsGeometry(r.value) && ProperDescendant(r.value, e)
    ensures r.Some? ==>
      exists j :: i <= j < |e.children| && FindGeometry(e.children[j]) == r
        && forall k :: i <= k < j ==> FindGeometry(e.children[k]).None?
    ensures r.None? ==> forall j :: i <= j < |e.children| ==> FindGeometry(e.children[j]).None?
    decreases e, |e.children| - i
  {
    if i >= |e.children| then None
    else
      match FindGeometry(e.children[i])
      case Some(g) => Some(g)
      case None => FirstGeometry(e, i + 1)
  }

  /** findGeometry finds nothing exactly when no element below the argument
      is a Point or a LinearRing. */
  lemma {:induction false} FindGeometryNoneIff(e: Element)
    ensures FindGeometry(e).None? <==> forall d :: ProperDescendant(d, e) ==> !IsGeometry(d)
    decreases e
  {
    if FindGeometry(e).None? {
      forall d | ProperDescendant(d, e)
        ensures !IsGeometry(d)
      {
        var i :| 0 <= i < |e.children| && (e.children[i] == d || ProperDescendant(d, e.children[i]));
        assert FindGeometry(e.children[i]).None?;
        if e.children[i] != d {
          FindGeometryNoneIff(e.children[i]);
        }
      }
    }
  }

  /** findGeometries: the geometry of each member that has one, in member
      order. */
  function FindGeometries(members: seq<Element>): (r: seq<Element>)
    ensures |r| <= |members|
    ensures forall g :: g in r ==> IsGeometry(g)
    ensures forall g :: g in r ==> exists m :: m in members && FindGeometry(m) == Some(g)
  {
    if members == [] then []
    else
      var rest := FindGeometries(members[1..]);
      assert forall m :: m in members[1..] ==> m in members;
      assert members[0] in members;
      AsSeq(FindGeometry(members[0])) + rest
  }

  /** Member order is kept: the geometries of a + b are those of a, then
      those of b. */
  lemma {:induction false} FindGeometriesAppend(a: seq<Element>, b: seq<Element>)
    ensures FindGeometries(a + b) == FindGeometries(a) + FindGeometries(b)
    decreases |a|
  {
    if a == [] {
      assert a + b == b;
    } else {
      assert (a + b)[0] == a[0];
      assert (a + b)[1..] == a[1..] + b;
      FindGeometriesAppend(a[1..], b);
      AppendAssoc(AsSeq(FindGeometry(a[0])), FindGeometries(a[1..]), FindGeometries(b));
    }
  }

  /** Every member's geometry is in the result. */
  lemma {:induction false} FindGeometriesKeepsAll(members: seq<Element>, i: nat)
    requires i < |members| && FindGeometry(members[i]).Some?
    ensures FindGeometry(members[i]).value in FindGeometries(members)
  {
    var rest := FindGeometries(members[1..]);
    assert FindGeometries(members) == AsSeq(FindGeometry(members[0])) + rest;
    if i > 0 {
      assert members[1..][i - 1] == members[i];
      FindGeometriesKeepsAll(members[1..], i - 1);
    }
  }

  // ---------------------------------------------------------------------------
  // parseFeature and initFromGetCapabilities

  /** The assignment `parseFeature` makes: only a feature with both a Name
      and a Title child, whose name text is a non-empty string, is recorded
      (a missing Title makes the name None). */
  function FeatureEntry(f: Element): (r: Option<Entry>)
    ensures r.Some? <==> Find(f, "Name").Some? && Find(f, "Title").Some?
                         && WmsOverlay.Truthy(Find(f, "Name").value.text)
    ensures r.Some? ==> r.value == Entry(Find(f, "Name").value.text, Texts(FindAll(f, "DefaultSRS")))
  {
    match (Find(f, "Name"), Find(f, "Title"))
    case (Some(n), Some(_)) =>
      if WmsOverlay.Truthy(n.text) then Some(Entry(n.text, Texts(FindAll(f, "DefaultSRS")))) else None
    case _ => None
  }

  /** The assignments of the loop over `FeatureType` children. */
  function FeatureEntries(fs: seq<Element>): (r: seq<Entry>)
    ensures |r| <= |fs|
  {
    if fs == [] then [] else AsSeq(FeatureEntry(fs[0])) + FeatureEntries(fs[1..])
  }

  function FeatureData(root: Element): (d: Dict)
    ensures DistinctKeys(d)
  {
    Fill(FeatureEntries(FindAll(root, "FeatureType")))
  }

  /** Every recordable feature is assigned. */
  lemma {:induction false} FeatureRecorded(fs: seq<Element>, i: nat)
    requires i < |fs| && FeatureEntry(fs[i]).Some?
    ensures FeatureEntry(fs[i]).value in FeatureEntries(fs)
  {
    var e := FeatureEntry(fs[i]).value;
    var head := AsSeq(FeatureEntry(fs[0]));
    var rest := FeatureEntries(fs[1..]);
    assert FeatureEntries(fs) == head + rest;
    if i > 0 {
      assert e in rest by {
        assert fs[1..][i - 1] == fs[i];
        FeatureRecorded(fs[1..], i - 1);
      }
    } else {
      assert e in head;
    }
  }

  /** Nothing but recordable features is assigned. */
  lemma {:induction false} FeatureOnlyRecorded(fs: seq<Element>)
    ensures forall e :: e in FeatureEntries(fs) ==> exists f :: f in fs && FeatureEntry(f) == Some(e)
  {
    if fs != [] {
      FeatureOnlyRecorded(fs[1..]);
      assert forall f :: f in fs[1..] ==> f in fs;
    }
  }

  const GetFeatureQuery: string := "&SERVICE=WFS&VERSION=1.1.0&REQUEST=GetFeature&maxFeatures=50"

  /** The feature and SRS after the `try` block. */
  function ChooseFeature(tree: Option<Element>, feature: Option<string>, index: int, srs: Option<string>): (ch: Choice)
    ensures tree.None? ==> ch == Choice(feature, srs)
    ensures feature.Some? ==> ch.name == feature
    ensures srs.Some? ==> ch.srs == srs
    ensures tree.Some? && feature.Some? ==> ch.srs == PickSrs(FeatureData(tree.value), feature, srs)
    ensures tree.Some? && feature.None? ==>
      var d := FeatureData(tree.value);
      && (NameAt(d, index).Some? ==> ch == Choice(NameAt(d, index).value, PickSrs(d, NameAt(d, index).value, srs)))
      && (NameAt(d, index).None? ==> ch == Choice(None, srs))
  {
    match tree
    case None => Choice(feature, srs)
    case Some(root) => ChooseOverlay(FeatureData(root), feature, index, srs)
  }

  /** initFromGetCapabilities. The URL names the feature only; the SRS sets
      the flags. */
  function Init(tree: Option<Element>, baseurl: string, feature: Option<string>, index: int,
                srs: Option<string>, custom: Option<Bounds>, accepts: Option<string> -> bool): (c: Config)
    ensures c.choice == ChooseFeature(tree, feature, index, srs)
    ensures c.url == baseurl + "?typeName=namespace:" + Show(c.choice.name) + GetFeatureQuery
    ensures c.flags.isPLatLon <==> c.choice.srs == Some("EPSG:4326")
    ensures c.flags.isPGoogle <==> c.choice.srs == Some("EPSG:900913") || c.choice.srs == Some("EPSG:3857")
    ensures c.custom == custom
  {
    var ch := ChooseFeature(tree, feature, index, srs);
    Configure(baseurl + "?typeName=namespace:" + Show(ch.name) + GetFeatureQuery, ch, custom, accepts)
  }

  /** With neither given, the feature is the index-th recordable feature
      name in sorted order, and the SRS the least of its DefaultSRS list. */
  lemma InitChoosesByIndex(root: Element, baseurl: string, index: int, custom: Option<Bounds>,
                           accepts: Option<string> -> bool)
    requires NameAt(FeatureData(root), index).Some?
    requires Lookup(FeatureData(root), NameAt(FeatureData(root), index).value).value != []
    ensures var d := FeatureData(root);
      var c := Init(Some(root), baseurl, None, index, None, custom, accepts);
      var srss := Lookup(d, NameAt(d, index).value).value;
      && c.choice.name == NameAt(d, index).value
      && (exists f :: f in FindAll(root, "FeatureType") && FeatureEntry(f).Some?
                      && FeatureEntry(f).value.key == c.choice.name)
      && c.choice.srs in srss
      && forall y :: y in srss ==> Leq(c.choice.srs, y)
  {
    var d := FeatureData(root);
    var fs := FindAll(root, "FeatureType");
    var es := FeatureEntries(fs);
    var name := NameAt(d, index).value;
    assert name in Keys(es);
    var j :| 0 <= j < |es| && Keys(es)[j] == name;
    assert es[j] in es;
    FeatureOnlyRecorded(fs);
  }

  // ---------------------------------------------------------------------------
  // geturl and get

  /** geturl: the GetFeature URL of the visible area. */
  function GetUrl(c: Config, m: Mercator, t: Transform, render: WmsOverlay.Render,
                  bl: LatLon, tr: LatLon): (r: Outcome<string>)
    ensures r.Uncaught? <==> GetCorners(c, m, t, bl, tr).Uncaught?
    ensures r.RuntimeError? <==> GetCorners(c, m, t, bl, tr).RuntimeError?
    ensures r.Value? ==> GetCorners(c, m, t, bl, tr).Value?
    ensures r.Value? ==> r.value == c.url + "&bbox=" + render(GetCorners(c, m, t, bl, tr).value)
  {
    match GetCorners(c, m, t, bl, tr)
    case Uncaught => Uncaught
    case RuntimeError => RuntimeError
    case Value(k) => Value(c.url + "&bbox=" + render(k))
  }

  type Geometries = seq<Element>

  /** The memo step of get: a hit returns the cached list; a miss loads and
      parses the answer (`load` gives None when reading or parsing raises),
      stores the geometries of its featureMember children and returns them.
      A failed load returns None and stores nothing. */
  function Memo(cache: map<string, Geometries>, url: string, load: string -> Option<Element>): (r: WmsOverlay.Reply<Geometries>)
    ensures r.Returned?
    ensures url in cache ==> r == WmsOverlay.Returned(Some(cache[url]), cache)
    ensures url !in cache && load(url).None? ==> r == WmsOverlay.Returned(None, cache)
    ensures url !in cache && load(url).Some? ==>
      r.result.Some? && r.cache == cache[url := r.result.value]
      && r.result.value == FindGeometries(FindAll(load(url).value, MemberTag))
  {
    if url in cache then WmsOverlay.Returned(Some(cache[url]), cache)
    else match load(url)
      case None => WmsOverlay.Returned(None, cache)
      case Some(tree) =>
        var gs := FindGeometries(FindAll(tree, MemberTag));
        WmsOverlay.Returned(Some(gs), cache[url := gs])
  }

  /** get: `load(address)` reads and parses `"http://" + host + url`. */
  function Get(c: Config, m: Mercator, t: Transform, render: WmsOverlay.Render, host: string,
               load: string -> Option<Element>, cache: map<string, Geometries>,
               bl: LatLon, tr: LatLon): (r: WmsOverlay.Reply<Geometries>)
  {
    match GetUrl(c, m, t, render, bl, tr)
    case Uncaught => WmsOverlay.Raised
    case RuntimeError => WmsOverlay.Returned(None, cache)
    case Value(url) => Memo(cache, url, (u: string) => load("http://" + host + u))
  }

  /** Whatever get returns for an area is what the cache then holds for its
      URL, so asking again returns the same list without loading. */
  lemma GetIsIdempotent(c: Config, m: Mercator, t: Transform, render: WmsOverlay.Render, host: string,
                        load: string -> Option<Element>, load': string -> Option<Element>,
                        cache: map<string, Geometries>, bl: LatLon, tr: LatLon)
    requires Get(c, m, t, render, host, load, cache, bl, tr).Returned?
    requires Get(c, m, t, render, host, load, cache, bl, tr).result.Some?
    ensures var first := Get(c, m, t, render, host, load, cache, bl, tr);
      Get(c, m, t, render, host, load', first.cache, bl, tr) == first
  {
  }

  /** get never changes or drops a cached list. */
  lemma GetKeepsCache(c: Config, m: Mercator, t: Transform, render: WmsOverlay.Render, host: string,
                      load: string -> Option<Element>, cache: map<string, Geometries>, bl: LatLon, tr: LatLon)
    ensures var r := Get(c, m, t, render, host, load, cache, bl, tr);
      r.Returned? ==> forall u :: u in cache ==> u in r.cache && r.cache[u] == cache[u]
  {
  }

  // ---------------------------------------------------------------------------
  // The parser the import block binds

  /** With pyproj and lxml present `ET` is lxml's factory function, which
      has no `fromstring`: the capabilities are never read, so the feature
      and SRS stay as passed in. */
  lemma InitWithLxmlKeepsInputs(doc: Option<Element>, baseurl: string, feature: Option<string>, index: int,
                                srs: Option<string>, custom: Option<Bounds>, accepts: Option<string> -> bool)
    ensures Init(FromString(WfsBinding(true, true), doc), baseurl, feature, index, srs, custom, accepts).choice
         == Choice(feature, srs)
  {
  }

  /** With the same binding no answer of the server is ever parsed, so get
      never stores anything, and from an empty cache it returns no
      geometries at all. `fetch` gives the tree of the text read from an
      address. */
  lemma GetWithLxmlStoresNothing(c: Config, m: Mercator, t: Transform, render: WmsOverlay.Render, host: string,
                                 fetch: string -> Option<Element>, cache: map<string, Geometries>,
                                 bl: LatLon, tr: LatLon)
    ensures var r := Get(c, m, t, render, host, (a: string) => FromString(WfsBinding(true, true), fetch(a)),
                         cache, bl, tr);
      r.Returned? ==> r.cache == cache && (cache == map[] ==> r.result.None?)
  {
    var load := (a: string) => FromString(WfsBinding(true, true), fetch(a));
    match GetUrl(c, m, t, render, bl, tr)
    case Uncaught =>
    case RuntimeError =>
    case Value(url) =>
      var l := (u: string) => load("http://" + host + u);
      assert l(url).None?;
      assert Get(c, m, t, render, host, load, cache, bl, tr) == Memo(cache, url, l);
  }
}

=== FILE: wms_overlay.dfy ===
/** The WMS overlay server (WMSOverlayServer.py): the layer dictionary
    `parseLayer` builds from a GetCapabilities document, the layer and SRS
    it then picks, the GetMap URL of the visible area, and the memo `get`
    keeps of the images it loaded. */
module WmsOverlay {
  import opened Common
  import opened Projections
  import opened Xml
  import opened Capabilities
  import opened Overlay
  import Text

  // ---------------------------------------------------------------------------
  // parseLayer

  /** `if name:` with Python's truth value: a present, non-empty string. */
  predicate Truthy(name: Option<string>) {
    name.Some? && name.value != ""
  }

  /** `layer.find("Name").text`, None when there is no Name child. */
  function NameText(l: Element): (n: Option<string>)
    ensures Find(l, "Name").None? ==> n.None?
    ensures Find(l, "Name").Some? ==> n == Find(l, "Name").value.text
  {
    match Find(l, "Name")
    case None => None
    case Some(e) => e.text
  }

  /** The assignment `parseLayer` makes for the layer itself, if any. */
  function OwnEntry(l: Element): (r: Option<Entry>)
    ensures r.Some? <==> Truthy(NameText(l))
    ensures r.Some? ==> r.value == Entry(NameText(l), Texts(FindAll(l, "SRS")))
  {
    if Truthy(NameText(l)) then Some(Entry(NameText(l), Texts(FindAll(l, "SRS")))) else None
  }

  /** The `data` assignments of `parseLayer(l, data)`, in the order they
      happen: the layer's own, then those of each `Layer` child. */
  function ParseLayer(l: Element): (r: seq<Entry>)
    decreases l, |FindAll(l, "Layer")| + 1
  {
    AsSeq(OwnEntry(l)) + ParseSubLayers(l, 0)
  }

  /** The assignments of the loop over `layer.findall("Layer")` from the i-th. */
  function ParseSubLayers(l: Element, i: nat): (r: seq<Entry>)
    decreases l, |FindAll(l, "Layer")| - i
  {
    var subs := FindAll(l, "Layer");
    if i >= |subs| then []
    else
      assert subs[i] in l.children;
      ParseLayer(subs[i]) + ParseSubLayers(l, i + 1)
  }

  /** Reference order: the layer tree in pre-order, each layer before the
      `Layer` children below it. */
  function Preorder(l: Element): (r: seq<Element>)
    ensures |r| >= 1 && r[0] == l
    decreases l, |FindAll(l, "Layer")| + 1
  {
    [l] + PreorderFrom(l, 0)
  }

  function PreorderFrom(l: Element, i: nat): (r: seq<Element>)
    decreases l, |FindAll(l, "Layer")| - i
  {
    var subs := FindAll(l, "Layer");
    if i >= |subs| then []
    else
      assert subs[i] in l.children;
      Preorder(subs[i]) + PreorderFrom(l, i + 1)
  }

  /** The own assignments of a list of layers, in order. */
  function Entries(ls: seq<Element>): (r: seq<Entry>)
    ensures |r| <= |ls|
  {
    if ls == [] then [] else AsSeq(OwnEntry(ls[0])) + Entries(ls[1..])
  }

  lemma {:induction false} EntriesAppend(a: seq<Element>, b: seq<Element>)
    ensures Entries(a + b) == Entries(a) + Entries(b)
    decreases |a|
  {
    if a == [] {
      assert a + b == b;
    } else {
      assert (a + b)[0] == a[0];
      assert (a + b)[1..] == a[1..] + b;
      EntriesAppend(a[1..], b);
      AppendAssoc(AsSeq(OwnEntry(a[0])), Entries(a[1..]), Entries(b));
    }
  }

  /** parseLayer assigns exactly the named layers of the tree, in pre-order:
      unnamed layers are skipped but the layers below them are visited. */
  lemma {:induction false} ParseLayerIsPreorder(l: Element)
    ensures ParseLayer(l) == Entries(Preorder(l))
    decreases l, |FindAll(l, "Layer")| + 1
  {
    ParseSubLayersIsPreorder(l, 0);
    EntriesAppend([l], PreorderFrom(l, 0));
    assert Entries([l]) == AsSeq(OwnEntry(l)) + Entries([]);
  }

  lemma {:induction false} ParseSubLayersIsPreorder(l: Element, i: nat)
    ensures ParseSubLayers(l, i) == Entries(PreorderFrom(l, i))
    decreases l, |FindAll(l, "Layer")| - i
  {
    var subs := FindAll(l, "Layer");
    if i < |subs| {
      assert subs[i] in l.children;
      ParseLayerIsPreorder(subs[i]);
      ParseSubLayersIsPreorder(l, i + 1);
      EntriesAppend(Preorder(subs[i]), PreorderFrom(l, i + 1));
    }
  }

  /** The assignments of the loop over `Capability/Layer`. */
  function ParseLayers(tops: seq<Element>): (r: seq<Entry>) {
    if tops == [] then [] else ParseLayer(tops[0]) + ParseLayers(tops[1..])
  }

  function PreorderAll(tops: seq<Element>): (r: seq<Element>)
    ensures |r| >= |tops|
  {
    if tops == [] then [] else Preorder(tops[0]) + PreorderAll(tops[1..])
  }

  lemma {:induction false} ParseLayersIsPreorder(tops: seq<Element>)
    ensures ParseLayers(tops) == Entries(PreorderAll(tops))
  {
    if tops != [] {
      ParseLayerIsPreorder(tops[0]);
      ParseLayersIsPreorder(tops[1..]);
      EntriesAppend(Preorder(tops[0]), PreorderAll(tops[1..]));
    }
  }

  /** The last layer of a walk whose own assignment is to `k`. */
  function LastNamed(ls: seq<Element>, k: Option<string>): (r: Option<Element>)
    ensures r.Some? ==> r.value in ls && OwnEntry(r.value).Some? && OwnEntry(r.value).value.key == k
  {
    if ls == [] then None
    else
      var l := ls[|ls| - 1];
      if OwnEntry(l).Some? && OwnEntry(l).value.key == k then Some(l)
      else LastNamed(ls[..|ls| - 1], k)
  }

  lemma {:induction false} EntriesSnoc(ls: seq<Element>, l: Element)
    ensures Entries(ls + [l]) == Entries(ls) + AsSeq(OwnEntry(l))
  {
    EntriesAppend(ls, [l]);
    assert Entries([l]) == AsSeq(OwnEntry(l)) + Entries([]);
  }

  /** The SRS texts of a layer, if there is one. */
  function SrsOf(l: Option<Element>): Option<seq<Option<string>>> {
    match l
    case None => None
    case Some(e) => Some(Texts(FindAll(e, "SRS")))
  }

  lemma {:induction false} LastAssignedOfEntries(ls: seq<Element>, k: Option<string>)
    ensures LastAssigned(Entries(ls), k) == SrsOf(LastNamed(ls, k))
    decreases |ls|
  {
    if ls != [] {
      var init := ls[..|ls| - 1];
      var l := ls[|ls| - 1];
      SplitLast(ls);
      EntriesSnoc(init, l);
      LastAssignedOfEntries(init, k);
      var es := Entries(init + [l]);
      match OwnEntry(l)
      case None =>
        assert es == Entries(init);
      case Some(e) =>
        assert es[|es| - 1] == e;
        assert es[..|es| - 1] == Entries(init);
        if e.key == k {
          assert LastNamed(ls, k) == Some(l);
        } else {
          assert LastNamed(ls, k) == LastNamed(init, k);
        }
    }
  }

  /** The layer dictionary of a document: `data` after the loop. */
  function LayerData(root: Element): (d: Dict)
    ensures DistinctKeys(d)
  {
    Fill(ParseLayers(FindPath(root, ["Capability", "Layer"])))
  }

  /** Each name in the dictionary holds the SRS list of the last layer of
      that name in the pre-order walk of the layer trees, and a name no
      named layer carries is missing: a later duplicate overwrites. */
  lemma LayerDataHoldsLastNamed(root: Element, k: Option<string>)
    ensures Lookup(LayerData(root), k) == SrsOf(LastNamed(PreorderAll(FindPath(root, ["Capability", "Layer"])), k))
  {
    var tops := FindPath(root, ["Capability", "Layer"]);
    ParseLayersIsPreorder(tops);
    FillLookup(ParseLayers(tops), k);
    LastAssignedOfEntries(PreorderAll(tops), k);
  }

  /** Only truthy names become keys: never None, never the empty string. */
  lemma {:induction false} EntriesKeysTruthy(ls: seq<Element>)
    ensures forall e :: e in Entries(ls) ==> Truthy(e.key)
  {
    if ls != [] {
      EntriesKeysTruthy(ls[1..]);
    }
  }

  // ---------------------------------------------------------------------------
  // initFromGetCapabilities

  const GetMapQuery: string := "&FORMAT=image/png&TRANSPARENT=TRUE&SERVICE=WMS&VERSION=1.1.1&REQUEST=GetMap"

  /** The layer and SRS after the `try` block: `tree` is None when the
      document is not well-formed XML, and the given values stay. */
  function ChooseLayer(tree: Option<Element>, layer: Option<string>, index: int, srs: Option<string>): (ch: Choice)
    ensures tree.None? ==> ch == Choice(layer, srs)
    ensures layer.Some? ==> ch.name == layer
    ensures srs.Some? ==> ch.srs == srs
    ensures tree.Some? && layer.Some? ==> ch.srs == PickSrs(LayerData(tree.value), layer, srs)
    ensures tree.Some? && layer.None? ==>
      var d := LayerData(tree.value);
      && (NameAt(d, index).Some? ==> ch == Choice(NameAt(d, index).value, PickSrs(d, NameAt(d, index).value, srs)))
      && (NameAt(d, index).None? ==> ch == Choice(None, srs))
  {
    match tree
    case None => Choice(layer, srs)
    case Some(root) => ChooseOverlay(LayerData(root), layer, index, srs)
  }

  /** initFromGetCapabilities: `custom` is the subclass's (customBounds,
      bounds), `accepts(srs)` whether pyproj accepts the SRS. */
  function Init(tree: Option<Element>, baseurl: string, layer: Option<string>, index: int,
                srs: Option<string>, custom: Option<Bounds>, accepts: Option<string> -> bool): (c: Config)
    ensures c.choice == ChooseLayer(tree, layer, index, srs)
    ensures c.url == baseurl + "?LAYERS=" + Show(c.choice.name) + "&SRS=" + Show(c.choice.srs) + GetMapQuery
    ensures c.flags.isPLatLon <==> c.choice.srs == Some("EPSG:4326")
    ensures c.flags.isPGoogle <==> c.choice.srs == Some("EPSG:900913") || c.choice.srs == Some("EPSG:3857")
    ensures c.custom == custom
  {
    var ch := ChooseLayer(tree, layer, index, srs);
    Configure(baseurl + "?LAYERS=" + Show(ch.name) + "&SRS=" + Show(ch.srs) + GetMapQuery, ch, custom, accepts)
  }

  /** With neither given, the layer is the index-th of the sorted names and
      the SRS the least of that layer's list. */
  lemma InitChoosesByIndex(root: Element, baseurl: string, index: int, custom: Option<Bounds>,
                           accepts: Option<string> -> bool)
    requires NameAt(LayerData(root), index).Some?
    requires Lookup(LayerData(root), NameAt(LayerData(root), index).value).value != []
    ensures var d := LayerData(root);
      var c := Init(Some(root), baseurl, None, index, None, custom, accepts);
      var srss := Lookup(d, NameAt(d, index).value).value;
      && c.choice.name == NameAt(d, index).value
      && Truthy(c.choice.name)
      && c.choice.srs in srss
      && forall y :: y in srss ==> Leq(c.choice.srs, y)
  {
    var tops := FindPath(root, ["Capability", "Layer"]);
    ParseLayersIsPreorder(tops);
    EntriesKeysTruthy(PreorderAll(tops));
    assert forall k :: k in Keys(LayerData(root)) ==> k in Keys(ParseLayers(tops));
  }

  /** An index past the end of the names (an IndexError) leaves the SRS
      unchosen too, and neither flag is set. */
  lemma InitIndexOutOfRange(root: Element, baseurl: string, index: int, custom: Option<Bounds>,
                            accepts: Option<string> -> bool)
    requires NameAt(LayerData(root), index).None?
    ensures var c := Init(Some(root), baseurl, None, index, None, custom, accepts);
      c.choice == Choice(None, None) && !c.flags.isPLatLon && !c.flags.isPGoogle
  {
  }

  // ---------------------------------------------------------------------------
  // geturl and get

  /** `%f,%f,%f,%f` of the four numbers; not modelled. */
  type Render = Corners -> string

  /** geturl: the GetMap URL of the visible area, w x h pixels. The sizes
      are the parent widget's width and height, which Kivy keeps as floats;
      `%i` renders the integer they truncate to. */
  function GetUrl(c: Config, m: Mercator, t: Transform, render: Render,
                  bl: LatLon, tr: LatLon, w: real, h: real): (r: Outcome<string>)
    ensures r.Uncaught? <==> GetCorners(c, m, t, bl, tr).Uncaught?
    ensures r.RuntimeError? <==> GetCorners(c, m, t, bl, tr).RuntimeError?
    ensures r.Value? ==> GetCorners(c, m, t, bl, tr).Value?
    ensures r.Value? ==>
      r.value == c.url + "&BBOX=" + render(GetCorners(c, m, t, bl, tr).value)
                 + "&WIDTH=" + Text.IntToDecimal(Trunc(w)) + "&HEIGHT=" + Text.IntToDecimal(Trunc(h)) + "&ext=.png"
  {
    match GetCorners(c, m, t, bl, tr)
    case Uncaught => Uncaught
    case RuntimeError => RuntimeError
    case Value(k) =>
      Value(c.url + "&BBOX=" + render(k) + "&WIDTH=" + Text.IntToDecimal(Trunc(w))
            + "&HEIGHT=" + Text.IntToDecimal(Trunc(h)) + "&ext=.png")
  }

  /** How `get` ends: with a value (and the cache it leaves), or with the
      exception geturl lets through. */
  datatype Reply<V> = Returned(result: Option<V>, cache: map<string, V>) | Raised

  /** The memo step of get for the URL: a hit returns the cached image; a
      miss asks the loader (None for an exception), stores what it gives and
      returns None, since the function ends without a return. */
  function Memo<V>(cache: map<string, V>, url: string, load: string -> Option<V>): (r: Reply<V>)
    ensures r.Returned?
    ensures url in cache ==> r == Returned(Some(cache[url]), cache)
    ensures url !in cache ==> r.result.None?
    ensures url !in cache && load(url).Some? ==> r.cache == cache[url := load(url).value]
    ensures url !in cache && load(url).None? ==> r.cache == cache
  {
    if url in cache then Returned(Some(cache[url]), cache)
    else match load(url)
      case None => Returned(None, cache)
      case Some(img) => Returned(None, cache[url := img])
  }

  /** get: `load(address)` is `Loader.image` of `"http://" + host + url`. */
  function Get<V>(c: Config, m: Mercator, t: Transform, render: Render, host: string,
                  load: string -> Option<V>, cache: map<string, V>,
                  bl: LatLon, tr: LatLon, w: real, h: real): (r: Reply<V>)
  {
    match GetUrl(c, m, t, render, bl, tr, w, h)
    case Uncaught => Raised
    case RuntimeError => Returned(None, cache)
    case Value(url) => Memo(cache, url, (u: string) => load("http://" + host + u))
  }

  /** get never changes or drops a cached image: the cache only grows, by
      at most the one URL of the call. */
  lemma GetKeepsCache<V>(c: Config, m: Mercator, t: Transform, render: Render, host: string,
                         load: string -> Option<V>, cache: map<string, V>,
                         bl: LatLon, tr: LatLon, w: real, h: real)
    ensures var r := Get(c, m, t, render, host, load, cache, bl, tr, w, h);
      r.Returned? ==> ((forall u :: u in cache ==> u in r.cache && r.cache[u] == cache[u])
                       && |r.cache.Keys - cache.Keys| <= 1)
  {
    var r := Get(c, m, t, render, host, load, cache, bl, tr, w, h);
    if r.Returned? && r.cache != cache {
      var url := GetUrl(c, m, t, render, bl, tr, w, h).value;
      assert r.cache.Keys - cache.Keys == {url};
    }
  }

  /** A miss hands back nothing; asking again for the same area then
      returns the image the first call loaded, and leaves the cache alone. */
  lemma GetSecondCallHits<V>(c: Config, m: Mercator, t: Transform, render: Render, host: string,
                             load: string -> Option<V>, cache: map<string, V>,
                             bl: LatLon, tr: LatLon, w: real, h: real)
    requires GetUrl(c, m, t, render, bl, tr, w, h).Value?
    requires var url := GetUrl(c, m, t, render, bl, tr, w, h).value;
      url !in cache && load("http://" + host + url).Some?
    ensures var first := Get(c, m, t, render, host, load, cache, bl, tr, w, h);
      var url := GetUrl(c, m, t, render, bl, tr, w, h).value;
      && first == Returned(None, cache[url := load("http://" + host + url).value])
      && Get(c, m, t, render, host, load, first.cache, bl, tr, w, h)
         == Returned(Some(load("http://" + host + url).value), first.cache)
  {
  }

  // ---------------------------------------------------------------------------
  // The parser the import block binds

  /** Without pyproj `ET` is unbound, so even a well-formed capabilities
      document leaves the layer and SRS as passed in. */
  lemma InitWithoutPyprojKeepsInputs(doc: Option<Element>, baseurl: string, layer: Option<string>, index: int,
                                     srs: Option<string>, custom: Option<Bounds>, accepts: Option<string> -> bool)
    ensures Init(FromString(WmsBinding(false), doc), baseurl, layer, index, srs, custom, accepts).choice
         == Choice(layer, srs)
  {
  }
}

=== FILE: wms_tile_server.dfy ===
/** The generic WMS tile server (WMSTileServer.py): the bounding box of a
    tile in a GetMap request, and the configuration read from the server's
    GetCapabilities document. A request is kept structured (base URL,
    the four BBOX numbers in the order they are written, size, layer); the
    `%f` rendering of the numbers is not modelled. */
module WmsTileServer {
  import opened Common
  import opened Projections
  import opened Xml
  import opened Capabilities

  /** The four BBOX numbers in the order the request writes them. */
  datatype BBox = BBox(minx: real, miny: real, maxx: real, maxy: real)

  /** A GetMap request of a 256x256 image of one layer. */
  datatype GetMap = GetMap(base: string, bbox: BBox, width: nat, height: nat, layers: string)

  /** What a server knows after construction. `custom` is the pair
      (customBounds, bounds): None when customBounds is false.
      `hasProjection` says whether pyproj accepted the SRS. */
  datatype Config = Config(url: string, srs: Option<string>, isPLatLon: bool,
                           hasProjection: bool, custom: Option<Bounds>)

  // ---------------------------------------------------------------------------
  // Tile bounding boxes

  /** `2.0 * n / tz - 1`: the unit-square coordinate of tile edge n. */
  function UnitEdge(n: int, zoom: nat): (u: real)
    ensures n == 0 ==> u == -1.0
    ensures n == Pow2(zoom) ==> u == 1.0
    ensures 0 <= n <= Pow2(zoom) ==> -1.0 <= u <= 1.0
  {
    var tz := Pow2(zoom) as real;
    var u := 2.0 * n as real / tz - 1.0;
    assert n == Pow2(zoom) ==> u == 1.0 by {
      if n == Pow2(zoom) {
        DivOfProduct(2.0 * n as real, 2.0, tz);
      }
    }
    assert 0 <= n <= Pow2(zoom) ==> -1.0 <= u <= 1.0 by {
      if 0 <= n <= Pow2(zoom) {
        DivBetween(2.0 * n as real, 2.0, tz);
      }
    }
    u
  }

  lemma DivBetween(a: real, b: real, t: real)
    requires t > 0.0 && 0.0 <= a <= b * t
    ensures 0.0 <= a / t <= b
  {
    DivMulCancel(a, t);
    if a / t > b {
      MulLess(b, a / t, t);
    }
  }

  lemma UnitEdgeIncreasing(n: int, zoom: nat)
    ensures UnitEdge(n, zoom) < UnitEdge(n + 1, zoom)
  {
    var tz := Pow2(zoom) as real;
    assert 2.0 * (n + 1) as real / tz == 2.0 * n as real / tz + 2.0 / tz;
  }

  /** `ulx + dx * nx / tz`: the left edge of custom-bounds column nx. */
  function LeftEdge(b: Bounds, nx: int, zoom: nat): real {
    b.ulx + b.Dx() * nx as real / Pow2(zoom) as real
  }

  /** With custom bounds, column nx spans [ulx + dx*nx/tz, ulx + dx*(nx+1)/tz]
      and row ny is counted down from the top edge. Written x1, y1, x2, y2. */
  function CustomTileBox(b: Bounds, nx: int, ny: int, zoom: nat): (box: BBox)
    ensures nx == 0 ==> box.minx == b.ulx
    ensures nx == Pow2(zoom) - 1 ==> box.maxx == b.orx
    ensures ny == 0 ==> box.maxy == b.ory
    ensures ny == Pow2(zoom) - 1 ==> box.miny == b.uly
  {
    var tz := Pow2(zoom) as real;
    var dx, dy := b.Dx(), b.Dy();
    var x1 := LeftEdge(b, nx, zoom);
    var x2 := b.ulx + dx * (nx as real + 1.0) / tz;
    var y1 := b.uly + dy * (1.0 - (ny as real + 1.0) / tz);
    var y2 := b.uly + dy * (1.0 - (ny as real + 0.0) / tz);
    assert nx == Pow2(zoom) - 1 ==> x2 == b.orx by {
      if nx == Pow2(zoom) - 1 {
        DivOfProduct(dx * (nx as real + 1.0), dx, tz);
      }
    }
    assert ny == Pow2(zoom) - 1 ==> y1 == b.uly by {
      if ny == Pow2(zoom) - 1 {
        DivOfProduct(ny as real + 1.0, 1.0, tz);
      }
    }
    BBox(x1, y1, x2, y2)
  }

  /** Neighbouring custom-bounds tiles share their edges, so the tiles of a
      level partition the bounds without gaps or overlaps. */
  lemma CustomTilesAdjacent(b: Bounds, nx: int, ny: int, zoom: nat)
    ensures CustomTileBox(b, nx, ny, zoom).maxx == CustomTileBox(b, nx + 1, ny, zoom).minx
    ensures CustomTileBox(b, nx, ny, zoom).miny == CustomTileBox(b, nx, ny + 1, zoom).maxy
  {
  }

  /** Bounds whose four numbers are Python ints. */
  datatype IntBounds = IntBounds(ulx: int, uly: int, orx: int, ory: int) {
    function AsReal(): Bounds {
      Bounds(ulx as real, uly as real, orx as real, ory as real)
    }
  }

  /** The custom-bounds box exactly as written when the bounds are ints:
      `dx * nx / tz` has only int operands, so Python 2 floors it, while the
      other three edges go through a float literal. The left edge is
      therefore the floor of the intended one, and equal to it exactly when
      tz divides dx * nx. */
  function CustomTileBoxIntAsWritten(b: IntBounds, nx: int, ny: int, zoom: nat): (box: BBox)
    ensures var exact := CustomTileBox(b.AsReal(), nx, ny, zoom);
      && box.minx <= exact.minx < box.minx + 1.0
      && box.minx == box.minx.Floor as real
      && (box.minx == exact.minx <==> ((b.orx - b.ulx) * nx) % Pow2(zoom) == 0)
      && box.miny == exact.miny && box.maxx == exact.maxx && box.maxy == exact.maxy
  {
    var tz := Pow2(zoom);
    var p := (b.orx - b.ulx) * nx;
    var exact := CustomTileBox(b.AsReal(), nx, ny, zoom);
    var x1 := (b.ulx + p / tz) as real;
    assert exact.minx == b.ulx as real + p as real / tz as real by {
      CustomTileLeft(b, nx, ny, zoom);
    }
    FloorOfQuotient(p, tz);
    BBox(x1, exact.miny, exact.maxx, exact.maxy)
  }

  /** The left edge of a custom tile with int bounds is ulx plus the real
      quotient of the int product dx * nx by 2^zoom. */
  lemma CustomTileLeft(b: IntBounds, nx: int, ny: int, zoom: nat)
    ensures CustomTileBox(b.AsReal(), nx, ny, zoom).minx
         == b.ulx as real + ((b.orx - b.ulx) * nx) as real / Pow2(zoom) as real
  {
    LeftEdgeOfTile(b.AsReal(), nx, ny, zoom);
    LeftEdgeInt(b, nx, zoom);
  }

  lemma LeftEdgeOfTile(r: Bounds, nx: int, ny: int, zoom: nat)
    ensures CustomTileBox(r, nx, ny, zoom).minx == LeftEdge(r, nx, zoom)
  {
  }

  lemma LeftEdgeInt(b: IntBounds, nx: int, zoom: nat)
    ensures LeftEdge(b.AsReal(), nx, zoom) == b.ulx as real + ((b.orx - b.ulx) * nx) as real / Pow2(zoom) as real
  {
    var r := b.AsReal();
    var e := r.Dx() * nx as real;
    var q := ((b.orx - b.ulx) * nx) as real;
    assert e == q by {
      CastProduct(b.orx - b.ulx, nx);
    }
    SameQuotient(r.ulx, e, q, Pow2(zoom) as real);
  }

  lemma SameQuotient(u: real, e: real, q: real, t: real)
    requires t != 0.0 && e == q
    ensures u + e / t == u + q / t
  {
  }

  lemma CastProduct(a: int, n: int)
    ensures (a * n) as real == a as real * n as real
  {
  }

  /** The int quotient p / t (Python 2's floor division, as t > 0) is the
      floor of the real quotient, and equal to it exactly when t divides p. */
  lemma FloorOfQuotient(p: int, t: int)
    requires t > 0
    ensures (p / t) as real <= p as real / t as real < (p / t) as real + 1.0
    ensures p as real / t as real == (p / t) as real <==> p % t == 0
  {
    var q, m := p / t, p % t;
    var fr := m as real / t as real;
    assert p as real == q as real * t as real + m as real;
    assert p as real / t as real == q as real + fr by {
      DivOfProduct(p as real, q as real + fr, t as real) by {
        DivMulCancel(m as real, t as real);
      }
    }
    assert 0.0 <= fr < 1.0 by {
      DivBetween(m as real, 1.0, t as real);
      DivMulCancel(m as real, t as real);
    }
    assert fr == 0.0 <==> m == 0 by {
      DivMulCancel(m as real, t as real);
    }
  }

  /** As written, column nx + 1 never starts right of where column nx
      ends, and it starts strictly left of it, so that the two tiles
      overlap, exactly when 2^zoom does not divide dx * (nx + 1). */
  lemma IntTilesOverlapAsWritten(b: IntBounds, nx: int, ny: int, zoom: nat)
    ensures CustomTileBoxIntAsWritten(b, nx + 1, ny, zoom).minx <= CustomTileBoxIntAsWritten(b, nx, ny, zoom).maxx
    ensures CustomTileBoxIntAsWritten(b, nx + 1, ny, zoom).minx < CustomTileBoxIntAsWritten(b, nx, ny, zoom).maxx
        <==> ((b.orx - b.ulx) * (nx + 1)) % Pow2(zoom) != 0
  {
    CustomTilesAdjacent(b.AsReal(), nx, ny, zoom);
  }

  /** With int bounds of width 3, the two tiles of a level-1 row overlap:
      tile 0 ends 1.5 right of ulx, but tile 1 starts 1 right of it. */
  lemma CustomTilesOverlapAsWritten(b: IntBounds)
    requires b.orx - b.ulx == 3
    ensures CustomTileBoxIntAsWritten(b, 1, 0, 1).minx == b.ulx as real + 1.0
    ensures CustomTileBoxIntAsWritten(b, 0, 0, 1).maxx == b.ulx as real + 1.5
    ensures CustomTileBoxIntAsWritten(b, 1, 0, 1).minx < CustomTileBoxIntAsWritten(b, 0, 0, 1).maxx
  {
    assert Pow2(1) == 2;
    IntAsWrittenLeft(b, 1, 0, 1);
    IntAsWrittenRight(b, 0, 0, 1);
  }

  lemma IntAsWrittenLeft(b: IntBounds, nx: int, ny: int, zoom: nat)
    ensures CustomTileBoxIntAsWritten(b, nx, ny, zoom).minx == (b.ulx + ((b.orx - b.ulx) * nx) / Pow2(zoom)) as real
  {
  }

  lemma IntAsWrittenRight(b: IntBounds, nx: int, ny: int, zoom: nat)
    ensures CustomTileBoxIntAsWritten(b, nx, ny, zoom).maxx
         == b.ulx as real + ((b.orx - b.ulx) * (nx + 1)) as real / Pow2(zoom) as real
  {
    CustomTilesAdjacent(b.AsReal(), nx, ny, zoom);
    CustomTileLeft(b, nx + 1, ny, zoom);
  }

  /** The EPSG:4326 branch exactly as written: the vertical unit coordinate
      goes in as the x argument of unit_to_p4326 and the horizontal one as
      y, so latitude is scaled by 180 and longitude by 90. The request
      writes x1, y2, x2, y1. */
  function LatLonTileBoxAsWritten(nx: int, ny: int, zoom: nat): (box: BBox)
    ensures var v := UnitToP4326(-UnitEdge(ny, zoom), UnitEdge(nx, zoom));
      box.maxy == v.0 && box.minx == v.1
  {
    var p1 := UnitToP4326(1.0 - 2.0 * ny as real / Pow2(zoom) as real, UnitEdge(nx, zoom));
    var p2 := UnitToP4326(1.0 - 2.0 * (ny as real + 1.0) / Pow2(zoom) as real, UnitEdge(nx + 1, zoom));
    var y1, x1 := p1.0, p1.1;
    var y2, x2 := p2.0, p2.1;
    BBox(x1, y2, x2, y1)
  }

  /** The top-left tile of level 1 asks for latitude 180 and stops at
      longitude 0 on the right, although it covers latitudes 0 to 90 and
      longitudes -180 to 0. */
  lemma LatLonTileBoxAsWrittenOutOfRange()
    ensures LatLonTileBoxAsWritten(0, 0, 1) == BBox(-90.0, 0.0, 0.0, 180.0)
    ensures LatLonTileBoxAsWritten(0, 0, 1).maxy > 90.0
    ensures LatLonTileBox(0, 0, 1) == BBox(-180.0, 0.0, 0.0, 90.0)
  {
    assert Pow2(1) == 2;
  }

  /** The EPSG:4326 box as intended: longitude = 180 * horizontal unit
      coordinate, latitude = 90 * vertical unit coordinate, written
      minx, miny, maxx, maxy. */
  function LatLonTileBox(nx: int, ny: int, zoom: nat): (box: BBox)
    ensures 0 <= nx < Pow2(zoom) && 0 <= ny < Pow2(zoom) ==>
      -180.0 <= box.minx < box.maxx <= 180.0 && -90.0 <= box.miny < box.maxy <= 90.0
    ensures nx == 0 ==> box.minx == -180.0
    ensures nx == Pow2(zoom) - 1 ==> box.maxx == 180.0
    ensures ny == 0 ==> box.maxy == 90.0
    ensures ny == Pow2(zoom) - 1 ==> box.miny == -90.0
  {
    var p1 := UnitToP4326(UnitEdge(nx, zoom), -UnitEdge(ny, zoom));
    var p2 := UnitToP4326(UnitEdge(nx + 1, zoom), -UnitEdge(ny + 1, zoom));
    UnitEdgeIncreasing(nx, zoom);
    UnitEdgeIncreasing(ny, zoom);
    BBox(p1.0, p2.1, p2.0, p1.1)
  }

  /** Neighbouring EPSG:4326 tiles share their edges. */
  lemma LatLonTilesAdjacent(nx: int, ny: int, zoom: nat)
    ensures LatLonTileBox(nx, ny, zoom).maxx == LatLonTileBox(nx + 1, ny, zoom).minx
    ensures LatLonTileBox(nx, ny, zoom).miny == LatLonTileBox(nx, ny + 1, zoom).maxy
  {
  }

  /** `unit_to_project(self.projection, x, y)`: pyproj's transform of the
      unit-square point, or None when pyproj raises. */
  type Reproject = (real, real) -> Option<(real, real)>

  /** geturl: the GetMap request of a tile, or None where the source raises
      (no projection was created, or pyproj fails), which ends the worker. */
  function GetUrl(c: Config, project: Reproject, nx: int, ny: int, zoom: nat, maptype: string): (r: Option<GetMap>)
    ensures c.custom.Some? ==> r == Some(GetMap(c.url, CustomTileBox(c.custom.value, nx, ny, zoom), 256, 256, maptype))
    ensures c.custom.None? && c.isPLatLon ==> r == Some(GetMap(c.url, LatLonTileBox(nx, ny, zoom), 256, 256, maptype))
    ensures c.custom.None? && !c.isPLatLon && !c.hasProjection ==> r.None?
    ensures r.Some? ==> r.value.base == c.url && r.value.layers == maptype && r.value.width == 256 == r.value.height
  {
    if c.custom.Some? then Some(GetMap(c.url, CustomTileBox(c.custom.value, nx, ny, zoom), 256, 256, maptype))
    else if c.isPLatLon then Some(GetMap(c.url, LatLonTileBox(nx, ny, zoom), 256, 256, maptype))
    else if !c.hasProjection then None
    else
      match (project(UnitEdge(nx, zoom), -UnitEdge(ny, zoom)), project(UnitEdge(nx + 1, zoom), -UnitEdge(ny + 1, zoom)))
      case (Some(p1), Some(p2)) => Some(GetMap(c.url, BBox(p1.0, p2.1, p2.0, p1.1), 256, 256, maptype))
      case _ => None
  }

  /** geturl exactly as written: the EPSG:4326 branch sends the swapped box
      of LatLonTileBoxAsWritten; every other branch is the one above. */
  function GetUrlAsWritten(c: Config, project: Reproject, nx: int, ny: int, zoom: nat, maptype: string): (r: Option<GetMap>)
    ensures c.custom.None? && c.isPLatLon ==>
      r == Some(GetMap(c.url, LatLonTileBoxAsWritten(nx, ny, zoom), 256, 256, maptype))
    ensures c.custom.Some? || !c.isPLatLon ==> r == GetUrl(c, project, nx, ny, zoom, maptype)
    ensures r.Some? ==> r.value.base == c.url && r.value.layers == maptype && r.value.width == 256 == r.value.height
  {
    if c.custom.None? && c.isPLatLon then Some(GetMap(c.url, LatLonTileBoxAsWritten(nx, ny, zoom), 256, 256, maptype))
    else GetUrl(c, project, nx, ny, zoom, maptype)
  }

  /** For an EPSG:4326 server the request as written for tile (0, 0) of
      level 1 differs from the intended one: it reaches latitude 180. */
  lemma GetUrlAsWrittenDiffers(c: Config, project: Reproject, maptype: string)
    requires c.custom.None? && c.isPLatLon
    ensures GetUrlAsWritten(c, project, 0, 0, 1, maptype).value.bbox == BBox(-90.0, 0.0, 0.0, 180.0)
    ensures GetUrl(c, project, 0, 0, 1, maptype).value.bbox == BBox(-180.0, 0.0, 0.0, 90.0)
  {
  }

  // ---------------------------------------------------------------------------
  // initFromGetCapabilities

  /** The assignment for one layer: its Name text and SRS texts, None when
      it has no Name child (the AttributeError). */
  function LayerEntry(l: Element): (r: Option<Entry>)
    ensures r.None? <==> Find(l, "Name").None?
    ensures r.Some? ==> r.value == Entry(Find(l, "Name").value.text, Texts(FindAll(l, "SRS")))
  {
    match Find(l, "Name")
    case None => None
    case Some(name) => Some(Entry(name.text, Texts(FindAll(l, "SRS"))))
  }

  /** The `data` assignments of the loop over `Capability/Layer/Layer`;
      None when a layer has no Name child (the AttributeError ends the
      `try` block). */
  function LayerAssignments(layers: seq<Element>): (r: Option<seq<Entry>>)
    ensures r.Some? ==> |r.value| == |layers|
  {
    if layers == [] then Some([])
    else
      match LayerAssignments(layers[..|layers| - 1])
      case None => None
      case Some(es) =>
        match LayerEntry(layers[|layers| - 1])
        case None => None
        case Some(e) => Some(es + [e])
  }

  /** The loop stops exactly when some layer has no Name, and otherwise
      records every layer's entry, in document order. */
  lemma {:induction false} LayerAssignmentsSpec(layers: seq<Element>)
    ensures LayerAssignments(layers).None? <==> exists i :: 0 <= i < |layers| && LayerEntry(layers[i]).None?
    ensures LayerAssignments(layers).Some? ==>
      forall i :: 0 <= i < |layers| ==> Some(LayerAssignments(layers).value[i]) == LayerEntry(layers[i])
  {
    if layers != [] {
      var init := layers[..|layers| - 1];
      var l := layers[|layers| - 1];
      LayerAssignmentsSpec(init);
      assert forall i :: 0 <= i < |init| ==> init[i] == layers[i];
      if LayerAssignments(init).None? {
        var i :| 0 <= i < |init| && LayerEntry(init[i]).None?;
        assert LayerEntry(layers[i]).None?;
      } else if LayerEntry(l).None? {
        assert LayerEntry(layers[|layers| - 1]).None?;
      } else {
        var es := LayerAssignments(init).value;
        var e := LayerEntry(l).value;
        assert LayerAssignments(layers) == Some(es + [e]);
        forall i | 0 <= i < |layers|
          ensures Some((es + [e])[i]) == LayerEntry(layers[i])
        {
          if i < |init| {
            assert (es + [e])[i] == es[i];
            assert Some(es[i]) == LayerEntry(init[i]);
            assert init[i] == layers[i];
          } else {
            assert (es + [e])[i] == e;
            assert layers[i] == l;
          }
        }
      }
    }
  }

  /** The SRS left by the `try` block (or the given one when no parsing
      happens): `tree` is None when the document is not well-formed XML. */
  function ChosenSrs(tree: Option<Element>, index: int, srs: Option<string>, layer: Option<string>): Option<string> {
    if layer.Some? && srs.Some? then srs
    else match tree
      case None => srs
      case Some(root) =>
        match LayerAssignments(FindPath(root, ["Capability", "Layer", "Layer"]))
        case None => srs
        case Some(assignments) =>
          var data := Fill(assignments);
          match NameAt(data, index)
          case None => srs
          case Some(name) => PickSrs(data, name, srs)
  }

  const GetMapQuery: string := "&FORMAT=image/png&SERVICE=WMS&VERSION=1.1.1&REQUEST=GetMap"

  /** initFromGetCapabilities. `accepts(srs)` says whether pyproj can build
      a projection for the SRS. */
  function InitFromCapabilities(tree: Option<Element>, baseurl: string, index: int,
                                srs: Option<string>, layer: Option<string>,
                                accepts: Option<string> -> bool): (c: Config)
    ensures c.custom.None?
    ensures srs.Some? ==> c.srs == srs
    ensures c.isPLatLon <==> c.srs == Some("EPSG:4326")
    ensures c.hasProjection <==> !c.isPLatLon && accepts(c.srs)
    ensures c.url == baseurl + "?SRS=" + Show(c.srs) + GetMapQuery
  {
    var s := ChosenSrs(tree, index, srs, layer);
    var latLon := s == Some("EPSG:4326");
    Config(baseurl + "?SRS=" + Show(s) + GetMapQuery, s, latLon, !latLon && accepts(s), None)
  }

  /** Without a given SRS, the SRS is the least one listed for the layer at
      `index` in the sorted layer names, whatever layer was passed in. */
  lemma InitPicksLeastSrs(root: Element, baseurl: string, index: int, layer: Option<string>,
                          accepts: Option<string> -> bool)
    requires var a := LayerAssignments(FindPath(root, ["Capability", "Layer", "Layer"]));
      a.Some? && NameAt(Fill(a.value), index).Some?
      && Lookup(Fill(a.value), NameAt(Fill(a.value), index).value).value != []
    ensures var data := Fill(LayerAssignments(FindPath(root, ["Capability", "Layer", "Layer"])).value);
      var srss := Lookup(data, NameAt(data, index).value).value;
      var c := InitFromCapabilities(Some(root), baseurl, index, None, layer, accepts);
      c.srs in srss && forall y :: y in srss ==> Leq(c.srs, y)
  {
  }

  /** The layer argument never reaches the configuration: it is shadowed by
      the loop variable and then overwritten by the index choice. */
  lemma InitIgnoresLayer(tree: Option<Element>, baseurl: string, index: int, srs: Option<string>,
                         layer: Option<string>, layer': Option<string>, accepts: Option<string> -> bool)
    ensures InitFromCapabilities(tree, baseurl, index, srs, layer, accepts)
         == InitFromCapabilities(tree, baseurl, index, srs, layer', accepts)
  {
  }

  /** Without pyproj the import block leaves `ET` unbound, so the
      capabilities are never read: the SRS stays the one passed in, and with
      none passed the server has no SRS and no projection. */
  lemma InitWithoutPyprojKeepsSrs(doc: Option<Element>, baseurl: string, index: int, srs: Option<string>,
                                  layer: Option<string>, accepts: Option<string> -> bool)
    ensures var c := InitFromCapabilities(FromString(WmsBinding(false), doc), baseurl, index, srs, layer, accepts);
      c.srs == srs && (srs.None? ==> !c.isPLatLon && c.hasProjection == accepts(None))
  {
  }
}

=== FILE: xml.dfy ===
/** The part of ElementTree the capability and feature parsers use: an
    element is a tag, an optional text and an ordered list of children;
    `find` is the first direct child with a tag, `findall` all of them, and a
    slash-separated path applies `findall` step by step. A namespaced tag is
    written in ElementTree's `{namespace}local` form. */
module Xml {
  import opened Common

  datatype Element = Element(tag: string, text: Option<string>, children: seq<Element>)

  /** `e.find(tag)`: the first direct child with the tag. */
  function Find(e: Element, tag: string): (r: Option<Element>)
    ensures r.None? <==> forall i :: 0 <= i < |e.children| ==> e.children[i].tag != tag
    ensures r.Some? ==> exists i :: (0 <= i < |e.children| && e.children[i] == r.value
      && r.value.tag == tag && forall j :: 0 <= j < i ==> e.children[j].tag != tag)
  {
    FirstWithTag(e.children, tag)
  }

  function FirstWithTag(es: seq<Element>, tag: string): (r: Option<Element>)
    ensures r.None? <==> forall i :: 0 <= i < |es| ==> es[i].tag != tag
    ensures r.Some? ==> exists i :: (0 <= i < |es| && es[i] == r.value
      && r.value.tag == tag && forall j :: 0 <= j < i ==> es[j].tag != tag)
  {
    if es == [] then None
    else if es[0].tag == tag then Some(es[0])
    else
      var r := FirstWithTag(es[1..], tag);
      assert r.Some? ==> exists i :: (1 <= i < |es| && es[i] == r.value
        && forall j :: 0 <= j < i ==> es[j].tag != tag) by {
        if r.Some? {
          var i :| 0 <= i < |es[1..]| && es[1..][i] == r.value
            && forall j :: 0 <= j < i ==> es[1..][j].tag != tag;
          assert es[i + 1] == r.value;
          assert forall j :: 0 <= j < i + 1 ==> es[j].tag != tag by {
            forall j | 0 <= j < i + 1
              ensures es[j].tag != tag
            {
              if j > 0 {
                assert es[j] == es[1..][j - 1];
              }
            }
          }
        }
      }
      r
  }

  /** The elements of `es` with the tag, in order. */
  function WithTag(es: seq<Element>, tag: string): (r: seq<Element>)
    ensures |r| <= |es|
    ensures forall x :: x in r <==> x in es && x.tag == tag
  {
    if es == [] then []
    else if es[0].tag == tag then [es[0]] + WithTag(es[1..], tag)
    else WithTag(es[1..], tag)
  }

  /** `e.findall(tag)`: every direct child with the tag, in document order. */
  function FindAll(e: Element, tag: string): (r: seq<Element>)
    ensures |r| <= |e.children|
    ensures forall x :: x in r <==> x in e.children && x.tag == tag
  {
    WithTag(e.children, tag)
  }

  /** `findall` applied to each element of `es`, results concatenated. */
  function FindAllIn(es: seq<Element>, tag: string): (r: seq<Element>)
    ensures forall x :: x in r ==> x.tag == tag
  {
    if es == [] then [] else FindAll(es[0], tag) + FindAllIn(es[1..], tag)
  }

  /** `e.findall("a/b/c")` with the path given as its steps: the elements
      reached from `e` by one step per tag, in document order. */
  function FindPath(e: Element, path: seq<string>): (r: seq<Element>)
    requires |path| > 0
    ensures forall x :: x in r ==> x.tag == path[|path| - 1]
  {
    Descend([e], path)
  }

  function Descend(es: seq<Element>, path: seq<string>): (r: seq<Element>)
    requires |path| > 0
    ensures forall x :: x in r ==> x.tag == path[|path| - 1]
    decreases |path|
  {
    if |path| == 1 then FindAllIn(es, path[0]) else Descend(FindAllIn(es, path[0]), path[1..])
  }

  /** WithTag keeps order and multiplicity: it distributes over
      concatenation ... */
  lemma {:induction false} WithTagAppend(a: seq<Element>, b: seq<Element>, tag: string)
    ensures WithTag(a + b, tag) == WithTag(a, tag) + WithTag(b, tag)
    decreases |a|
  {
    if a == [] {
      assert a + b == b;
    } else {
      assert (a + b)[0] == a[0];
      assert (a + b)[1..] == a[1..] + b;
      WithTagAppend(a[1..], b, tag);
    }
  }

  /** ... and keeps a single element exactly when it has the tag. */
  lemma WithTagSingle(x: Element, tag: string)
    ensures WithTag([x], tag) == if x.tag == tag then [x] else []
  {
  }

  /** The per-element `findall` results are concatenated in order. */
  lemma {:induction false} FindAllInAppend(a: seq<Element>, b: seq<Element>, tag: string)
    ensures FindAllIn(a + b, tag) == FindAllIn(a, tag) + FindAllIn(b, tag)
    decreases |a|
  {
    if a == [] {
      assert a + b == b;
    } else {
      assert (a + b)[0] == a[0];
      assert (a + b)[1..] == a[1..] + b;
      FindAllInAppend(a[1..], b, tag);
      AppendAssoc(FindAll(a[0], tag), FindAllIn(a[1..], tag), FindAllIn(b, tag));
    }
  }

  /** A path step applied to a + b gives the results of a, then those of b:
      document order is kept at every step. */
  lemma {:induction false} DescendAppend(a: seq<Element>, b: seq<Element>, path: seq<string>)
    requires |path| > 0
    ensures Descend(a + b, path) == Descend(a, path) + Descend(b, path)
    decreases |path|
  {
    FindAllInAppend(a, b, path[0]);
    if |path| > 1 {
      DescendAppend(FindAllIn(a, path[0]), FindAllIn(b, path[0]), path[1..]);
    }
  }

  /** x is reached from e by one child step per tag of the path. */
  predicate Reaches(e: Element, path: seq<string>, x: Element)
    requires |path| > 0
    decreases |path|
  {
    if |path| == 1 then x in e.children && x.tag == path[0]
    else exists c :: c in e.children && c.tag == path[0] && Reaches(c, path[1..], x)
  }

  /** An element is in the concatenated `findall` results exactly when it is
      a child with the tag of one of the elements. */
  lemma {:induction false} FindAllInMembers(es: seq<Element>, tag: string, x: Element)
    ensures x in FindAllIn(es, tag) <==> exists e :: e in es && x in e.children && x.tag == tag
    decreases |es|
  {
    if es != [] {
      FindAllInMembers(es[1..], tag, x);
      if x in FindAllIn(es[1..], tag) {
        var e :| e in es[1..] && x in e.children && x.tag == tag;
        assert e in es;
      }
      if exists e :: e in es && x in e.children && x.tag == tag {
        var e :| e in es && x in e.children && x.tag == tag;
        if e != es[0] {
          assert e in es[1..];
        }
      }
    }
  }

  /** The elements a path step reaches from es are those some element of es
      reaches. */
  lemma {:induction false} DescendMembers(es: seq<Element>, path: seq<string>, x: Element)
    requires |path| > 0
    ensures x in Descend(es, path) <==> exists e :: e in es && Reaches(e, path, x)
    decreases |path|
  {
    if |path| == 1 {
      FindAllInMembers(es, path[0], x);
    } else {
      var mid := FindAllIn(es, path[0]);
      DescendMembers(mid, path[1..], x);
      if x in Descend(es, path) {
        var c :| c in mid && Reaches(c, path[1..], x);
        FindAllInMembers(es, path[0], c);
        var e :| e in es && c in e.children && c.tag == path[0];
        assert Reaches(e, path, x);
      }
      if exists e :: e in es && Reaches(e, path, x) {
        var e :| e in es && Reaches(e, path, x);
        var c :| c in e.children && c.tag == path[0] && Reaches(c, path[1..], x);
        FindAllInMembers(es, path[0], c);
        assert c in mid;
      }
    }
  }

  /** `findall` of a path returns exactly the elements the chain of tags
      reaches from e. */
  lemma FindPathReaches(e: Element, path: seq<string>, x: Element)
    requires |path| > 0
    ensures x in FindPath(e, path) <==> Reaches(e, path, x)
  {
    DescendMembers([e], path, x);
    assert e in [e];
  }

  /** A one-step path is `findall` of that tag. */
  lemma FindPathSingle(e: Element, tag: string)
    ensures FindPath(e, [tag]) == FindAll(e, tag)
  {
    assert FindAllIn([e], tag) == FindAll(e, tag) + FindAllIn([], tag);
  }

  /** `map(lambda x: x.text, elems)`. */
  function Texts(es: seq<Element>): (r: seq<Option<string>>)
    ensures |r| == |es|
    ensures forall i :: 0 <= i < |es| ==> r[i] == es[i].text
  {
    if es == [] then [] else [es[0].text] + Texts(es[1..])
  }

  /** d lies strictly below e in the tree. */
  predicate ProperDescendant(d: Element, e: Element)
    decreases e
  {
    exists i :: 0 <= i < |e.children| && (e.children[i] == d || ProperDescendant(d, e.children[i]))
  }

  // ---------------------------------------------------------------------------
  // The parser bound to `ET`

  /** What a file's import block binds to the name `ET`: xml.etree's
      ElementTree module, lxml's `ElementTree` factory function (a function,
      with no `fromstring` attribute), or nothing at all. */
  datatype Binding = EtreeModule | LxmlFactory | Unbound

  /** `ET.fromstring(text)`, where `doc` is the tree of the text, None when
      it is not well-formed. Only a module with `fromstring` parses: with
      the lxml factory the attribute lookup raises AttributeError, and with
      nothing bound the name lookup raises NameError. Every caller catches
      all of these, so each ends as None. */
  function FromString(b: Binding, doc: Option<Element>): (r: Option<Element>)
    ensures r.Some? <==> b == EtreeModule && doc.Some?
    ensures r.Some? ==> r == doc
  {
    if b == EtreeModule then doc else None
  }

  /** The import block of WMSTileServer.py and WMSOverlayServer.py as
      written: xml.etree is imported inside the same `try` as pyproj, so
      without pyproj `ET` stays unbound and no document is ever parsed. */
  function WmsBinding(hasPyproj: bool): (b: Binding)
    ensures b != LxmlFactory
    ensures b == Unbound <==> !hasPyproj
  {
    if hasPyproj then EtreeModule else Unbound
  }

  /** The import block of WFSOverlayServer.py as written: with pyproj and
      lxml present `ET` is lxml's `ElementTree` factory; when either import
      fails the `except` binds xml.etree's module. */
  function WfsBinding(hasPyproj: bool, hasLxml: bool): (b: Binding)
    ensures b != Unbound
    ensures b == LxmlFactory <==> hasPyproj && hasLxml
  {
    if hasPyproj && hasLxml then LxmlFactory else EtreeModule
  }

  /** The WMS import block as intended by its pyproj-free branches: the
      standard library's xml.etree imported whether or not pyproj is. */
  function WmsBindingIntended(): (b: Binding)
    ensures forall doc :: FromString(b, doc) == doc
  {
    EtreeModule
  }

  /** The WFS import block as intended: a parser module in either case,
      lxml's `etree` (whose `fromstring` parses like xml.etree's) or
      xml.etree itself. */
  function WfsBindingIntended(): (b: Binding)
    ensures forall doc :: FromString(b, doc) == doc
  {
    EtreeModule
  }

  /** As written, every binding but one fails to parse some well-formed
      document; the intended ones parse all. */
  lemma BindingsAsWrittenLoseDocuments(root: Element)
    ensures FromString(WmsBinding(false), Some(root)).None?
    ensures FromString(WfsBinding(true, true), Some(root)).None?
    ensures FromString(WmsBindingIntended(), Some(root)) == Some(root)
    ensures FromString(WfsBindingIntended(), Some(root)) == Some(root)
  {
  }
}
